=== FILE: README.md ===
# Process-map diagram editor: a Dafny model of its state logic

The editor is a browser application. It draws government-service process
flows as cards (process, method and hub nodes) joined by connections. It
keeps an undo/redo history and filters the diagram by directorate
(`müdürlük`), service (`hizmet`) and method. It also opens a per-node
comparison matrix of rules × services and imports and exports spreadsheets.

This project models the state logic behind all of that as immutable
datatypes and pure transition functions. The DOM, storage and spreadsheet
libraries are left out.

Module layout follows the JavaScript files:

| module | file | models |
|---|---|---|
| `Basics` | basics.dfy | Option, trimming, split/join, decimal strings, a stable sort by integer key, filtering |
| `Store` | store.dfy | the `AppState` shape: nodes, connections, UI flags, header filters, services, matrix rules |
| `Geometry` | geometry.dfy | js/utils.js: anchor points, `sortBy`, `generateId` |
| `History` | history.dfy | js/state.js: the bounded undo/redo manager |
| `Filters` | filters.dfy | js/filters.js: header filters, highlight decisions, attribute escaping |
| `Canvas` | canvas.dfy | js/canvas.js: the pointer state machine, zoom, rubber band, keyboard |
| `Connections` | connections.dfy | js/connections.js: the connect mode, the edge list, anchor coordinates, curve geometry |
| `Nodes` | nodes.dfy | js/nodes.js: add, rename and delete; per-node service tags |
| `Modal` | modal.dfy | js/modal.js: the comparison-matrix filter, sort and grouping pipeline and its export rows |
| `Data` | data.dfy | js/data.js: the spreadsheet import of services and rules, and the node-config import and export |

Inputs the browser measures or asks for are parameters:
- card positions and sizes, pointer coordinates, scroll offsets and the viewport rectangle;
- `Math.hypot`;
- the results of `confirm` and `prompt`;
- `Date.now`, `Math.random` and the generated-id supply;
- the locale comparison and the node matcher used by the import.

`Object.keys` order is an explicit `order` sequence wherever the result
depends on it.

## Model

| member | source | states |
|---|---|---|
| Basics.Trim | js/nodes.js:212 | the result is the infix left after dropping ECMAScript white space and line terminators at both ends, and it starts and ends with neither |
| Basics.TrimIdeographicSpace | js/data.js:262 | a leading ideographic space is trimmed like an ASCII one |
| History.SaveState | js/state.js:103-120 | the pushed snapshot is the current document and is the new top; redo is emptied; the stack grows by one up to 50, after which the oldest entry is dropped; a bounded history stays bounded |
| History.Undo | js/state.js:123-149 | on an empty undo stack it fails and changes nothing; otherwise the top becomes current and the current document goes to redo; the total number of stored snapshots is unchanged |
| History.Redo | js/state.js:152-178 | the mirror of Undo: fails on an empty redo stack; otherwise it moves one snapshot across and keeps the total |
| History.CanUndoRedoMeansSuccess | js/state.js:181-188 | canUndo/canRedo hold exactly when undo/redo would succeed |
| History.BoundedPreserved | js/state.js:100-178 | save, undo and redo keep both stacks within MAX_HISTORY = 50 |
| History.SaveMutateUndo | js/state.js:103-149 | save, then mutate, then undo restores the exact pre-mutation document and, below the cap, the old undo stack |
| History.UndoThenRedo | js/state.js:123-178 | after a successful undo, redo restores the document that was current before it |
| History.RedoThenUndo | js/state.js:123-178 | after a successful redo, undo restores the document that was current before it |
| History.SaveAllKeepsNewest | js/state.js:103-120 | any run of saves leaves exactly the 50 newest snapshots, oldest first, with redo empty |
| Geometry.Height | js/utils.js:34 | the card height is 80 for methods and 100 for every other type |
| Geometry.ConnectionPoints | js/utils.js:31-42 | top and bottom sit at x + width/2; left and right sit at y + height/2; right.x − left.x = width and bottom.y − top.y = height |
| Geometry.SortBy | js/utils.js:45-47 | the result is a permutation of the input ordered non-decreasingly by the key |
| Geometry.SortByStable | js/utils.js:45-47 | elements with equal keys keep their input order |
| Geometry.GenerateId | js/utils.js:5-7 | the id is the prefix (by default `id`), `_`, the decimal clock reading, `_`, and the decimal bucket `floor(random * 1000)`, which is at most 999 |
| Geometry.GenerateIdInjective | js/utils.js:5-7 | ids for different (time, bucket) pairs are different strings |
| Filters.ToggleMudurluk | js/filters.js:156-178 | the directorate flips; a newly selected one adds all its services; a deselected one removes them; other services and directorates are unchanged |
| Filters.ToggleMudurlukTwice | js/filters.js:156-178 | selecting then deselecting a directorate that had none of its services selected restores the filters |
| Filters.ToggleAllMudurluk | js/filters.js:181-195 | if every directorate is selected both sets are cleared; otherwise every directorate and every service is selected, and services selected before stay selected |
| Filters.ToggleAllMudurlukTwice | js/filters.js:181-195 | toggle-all twice from a partial selection clears both sets |
| Filters.ToggleHizmet | js/filters.js:200-208 | exactly the given service id flips membership |
| Filters.ToggleHizmetInvolution | js/filters.js:200-208 | toggling one service twice restores the filters |
| Filters.RelevantServices | js/filters.js:211-222 | the relevant services are all of them, or those whose directorate is selected |
| Filters.ToggleAllHizmet | js/filters.js:211-222 | only the relevant services change: all removed when all were selected, otherwise all added |
| Filters.ToggleAllHizmetTwice | js/filters.js:211-222 | from a partial selection, toggle-all twice removes every relevant service |
| Filters.FilterByMethod | js/filters.js:232-236 | the same method clears the filter; any other method sets it |
| Filters.FilterByMethodTwice | js/filters.js:232-236 | choosing the same method twice from no filter returns to no filter |
| Filters.ActiveServices | js/filters.js:257-270 | a service is active exactly when it passes the method, directorate and service filters, where an empty set admits all; with no filter active every service is active |
| Filters.TouchedNodes | js/filters.js:273-276 | a node is touched exactly when some active service's path contains it |
| Filters.NodeHighlight | js/filters.js:279-300 | with no filter active a node is plain with badge 0; otherwise it is highlighted exactly when touched and dimmed otherwise, and the badge counts the active services through it |
| Filters.ConnectionHighlightMatchesEnds | js/filters.js:320-336 | with a filter active a connection is highlighted exactly when both ends are touched, and dimmed otherwise |
| Filters.ClearedFiltersShowEverything | js/filters.js:356-362 | after clearing, every service is active and nothing is highlighted or dimmed |
| Filters.EscapeForHtmlPerChar | js/filters.js:101-109 | the five chained replacements act as one per-character escape |
| Filters.EscapeForHtmlSafe | js/filters.js:101-109 | the escaped value contains no raw `<`, `>` or `"` |
| Filters.EscapeForHtmlApostropheDoesNotRoundTrip | js/filters.js:105 | an apostrophe comes back from the attribute as a backslash and an apostrophe, so the value read back differs from the original |
| Filters.EscapeAttrRoundTrip | js/filters.js:101-109 | the corrected escape decodes back to exactly the original value |
| Canvas.ClampScale | js/canvas.js:53-54 | the scale lands in [0.2, 3] and values already in range are unchanged |
| Canvas.PinchScale | js/canvas.js:282-289 | the pinch scale is the distance ratio times the old scale, clamped to [0.2, 3] |
| Canvas.WheelZoom | js/canvas.js:49-67 | the new scale is the old one times 0.9 for a positive wheel delta and times 1.1 for a negative one, clamped to [0.2, 3], and unchanged for a zero delta; only the scale and the scroll offsets change |
| Canvas.WheelZoomKeepsCursorPoint | js/canvas.js:56-66 | the chart point under the cursor is the same before and after the zoom, on both axes |
| Canvas.ZoomIn | js/canvas.js:70-74 | the scale becomes `min(scale + 0.1, 3)`, and nothing else changes |
| Canvas.ZoomOut | js/canvas.js:76-80 | the scale becomes `max(scale - 0.1, 0.2)`, and nothing else changes |
| Canvas.ZoomOutUndoesZoomIn | js/canvas.js:70-80 | a zoom-out click undoes a zoom-in click that stayed below 3 |
| Canvas.ResetZoom | js/canvas.js:82-88 | the scale becomes 1 and nothing else changes |
| Canvas.NormalizeRect | js/canvas.js:330-333 | the rectangle runs from the smaller to the larger coordinate of the two points on each axis, so it has non-negative size and is the tightest one holding both |
| Canvas.NormalizeRectSymmetric | js/canvas.js:330-333 | the rectangle does not depend on the drag direction |
| Canvas.IntersectsIffCommonPoint | js/canvas.js:356-361 | the overlap test holds exactly when the card and the band share a point, so touching edges count |
| Canvas.FinalizeSelection | js/canvas.js:454-487 | the selection only grows, by exactly the nodes whose cards meet the band |
| Canvas.SelectAll | js/canvas.js:494-499 | every node joins the selection |
| Canvas.PointerDownModes | js/canvas.js:196-241 | a selected card gives potential multi-drag; shift on an unselected card adds it, then multi-drag; otherwise the selection is replaced and a single drag is pending; on the background, button 2 selects and others pan, clearing the selection unless shift is held |
| Canvas.SecondPointerZooms | js/canvas.js:235-240 | a second pointer switches to zooming and records the finger distance |
| Canvas.CrossThreshold | js/canvas.js:260-279 | a pending drag becomes a real one only once the squared distance exceeds 25; the history is saved exactly at that crossing |
| Canvas.MoveEffect | js/canvas.js:291-320 | a card drag moves the target by the delta divided by the scale; a multi-drag moves every selected card by it; panning moves the scroll; a moved rubber band previews the cards hit by the band from its start to the pointer; other modes change nothing |
| Canvas.GestureSavesAtMostOnce | js/canvas.js:260-279 | over any sequence of moves the history gains at most one snapshot, and the document is never changed while moving |
| Canvas.MovesAfterCrossingKeepHistory | js/canvas.js:260-279 | once the threshold is crossed, further moves neither save nor change the document |
| Canvas.SmallGestureChangesNothing | js/canvas.js:260-279 | moves that never cross the threshold save nothing and move no card |
| Canvas.ClickOn | js/canvas.js:384-399 | a click on a method toggles its filter, on a hub does nothing, and on any other node opens its detail |
| Canvas.PointerUpClick | js/canvas.js:384-399 | an unmoved release on a card, not on a service widget, dispatches that card's click |
| Canvas.MovedGestureIsNoClick | js/canvas.js:384-399 | a release after movement never dispatches a click |
| Canvas.ReleaseCommitsDrag | js/canvas.js:401-425 | releasing a drag writes the card positions of the dragged nodes into the document |
| Canvas.ReleaseFinalizesBand | js/canvas.js:377-381 | releasing a moved rubber band finalizes the selection with the normalized band |
| Canvas.PointerUpResets | js/canvas.js:438-451 | with no pointer left the mode is none, the target is cleared and nothing has moved; with one left the mode is panning from it |
| Canvas.KeyDown | js/canvas.js:101-150 | arrows scroll by the keyboard step; Escape clears the selection; modifier A, Z and Y select all, undo and redo; other keys, and other letters with or without the modifier, change nothing |
| Canvas.ArrowKeysCancel | js/canvas.js:104-119 | opposite arrow keys cancel out |
| Canvas.DragThenUndoRestores | js/canvas.js:260-279 | after a drag crosses the threshold, undo returns to the document from before the drag |
| Connections.ToggleConnectionMode | js/connections.js:18-37 | the flag flips and is mirrored in the UI state; turning it off clears the pending start |
| Connections.ToggleTwice | js/connections.js:18-37 | toggling twice restores the builder and the UI |
| Connections.StartConnection | js/connections.js:39-62 | outside connect mode, or without a card, nothing happens; otherwise the start anchor is recorded and the temp line shown |
| Connections.EndConnection | js/connections.js:87-129 | a connection is added only on a different card's anchor when no edge with the same from and to exists; in every case the builder resets and connect mode turns off |
| Connections.EndConnectionKeepsEdgesUnique | js/connections.js:105-115 | no two connections share the same from and to after the release |
| Connections.ReverseEdgeAllowed | js/connections.js:105-115 | B→A is added even when A→B exists |
| Connections.StartThenEndAdds | js/connections.js:39-129 | starting on one card and releasing on another adds exactly that connection |
| Connections.GetCoords | js/connections.js:169-180 | top, bottom, left and right map to the edge midpoints; anything else maps to the corner |
| Connections.GetCoordsAgreesWithConnectionPoints | js/connections.js:169-180 | the rendered anchor coordinates agree with the node's connection points |
| Connections.DeleteConnection | js/connections.js:182-186 | exactly the connections with that id are removed and the rest are kept in their order |
| Connections.DeleteUndoesAppend | js/connections.js:182-186 | deleting a freshly appended connection by its id restores the list |
| Connections.DeleteIdempotent | js/connections.js:182-186 | deleting the same id twice equals deleting it once |
| Connections.ConnectAll | js/connections.js:199-215 | existing connections are kept as a prefix; each new one goes from the target to another node that lacked that edge, never to itself |
| Connections.ConnectAllCovers | js/connections.js:199-215 | afterwards the target reaches every other node |
| Connections.ConnectAllIdempotent | js/connections.js:199-215 | a second connect-all adds nothing |
| Connections.ConnectAllKeepsEdgesUnique | js/connections.js:199-215 | connect-all never creates a duplicate from and to pair |
| Connections.CurveOf | js/connections.js:145-151 | the curve runs between the two anchors, with both control points at the horizontal midpoint |
| Connections.RenderPathsSpec | js/connections.js:141-166 | every connection whose two cards exist is drawn, and each drawn path belongs to such a connection |
| Connections.RenderPathsCount | js/connections.js:141-166 | when every card exists there is one path per connection |
| Connections.DrawTemp | js/connections.js:64-85 | the temp line exists exactly while a start is pending; it runs from the start anchor to the pointer's chart point |
| Nodes.AddNode | js/nodes.js:222-233 | it snapshots first; then exactly one node with a fresh id, the given type and name and width 260 is added; the others and the connections are unchanged |
| Nodes.AddNodeKeepsInvariants | js/nodes.js:222-233 | nodes stay keyed by their ids and no connection dangles |
| Nodes.RenameNode | js/nodes.js:207-219 | a cancelled answer, or one made only of JavaScript white space and line terminators, changes nothing; otherwise it snapshots, then stores the trimmed name |
| Nodes.RenameStoresTrimmed | js/nodes.js:211-217 | the stored name is the trimmed answer, and an already-trimmed answer is stored as is |
| Nodes.RenameIgnoresUnicodeBlank | js/nodes.js:211-212 | an answer of ideographic space, line separator, no-break space and em space is blank, so nothing is renamed |
| Nodes.DeleteNode | js/nodes.js:240-250 | a cancelled delete changes nothing; a confirmed one snapshots, removes the node and every incident connection, and keeps the rest in order |
| Nodes.DeleteNodeKeepsInvariants | js/nodes.js:240-250 | deleting a node leaves no dangling connection |
| Nodes.AddThenDelete | js/nodes.js:222-250 | adding then deleting a fresh node restores the nodes and connections |
| Nodes.NodeEditsUndo | js/nodes.js:207-250 | undo after a rename or a delete restores the earlier document |
| Nodes.ServicesForNode | js/nodes.js:113-134 | a service is listed exactly when its path contains the node and it passes the method, directorate and service filters |
| Nodes.ServicesForNodeMatchesBadge | js/nodes.js:113-134 | the listed services are the active services through the node, so their count is the node's badge |
| Nodes.ToggleExpand | js/nodes.js:188-194 | only that node flips in the expanded set |
| Nodes.ToggleExpandInvolution | js/nodes.js:188-194 | toggling twice restores the set |
| Nodes.ShortName | js/nodes.js:161 | names over 15 UTF-16 code units become their first 14 code units plus `...`; shorter ones are unchanged |
| Nodes.ShortUnitsIdempotent | js/nodes.js:161 | shortening a label again changes nothing |
| Nodes.AstralNameShortened | js/nodes.js:161 | a name of eight characters outside the Basic Multilingual Plane is sixteen code units long, so it is cut after seven of them |
| Nodes.SortedServices | js/nodes.js:140-148 | the tags are a permutation of the listed services, ordered by the collation rank of their names |
| Nodes.TagList | js/nodes.js:150-182 | an expanded node shows all tags, otherwise the first 6; the toggle appears only beyond 6 and shows the remaining count |
| Nodes.TagListAccounting | js/nodes.js:150-182 | shown plus remaining equals the total |
| Modal.FilterRulesIsKeep | js/modal.js:403-422 | the three filter stages keep exactly the rules that pass every active filter, in input order |
| Modal.FilterRulesMembers | js/modal.js:403-422 | every kept rule belongs to the node and passes; every passing rule is kept |
| Modal.InactiveFiltersKeepAll | js/modal.js:403-422 | with no active filter every rule is kept |
| Modal.TableRules | js/modal.js:403-429 | the table rules are a permutation of the passing rules, sorted by filled-cell count |
| Modal.TableRulesSpec | js/modal.js:403-429 | table rules are node rules that pass; all passing rules appear; fill counts are non-increasing |
| Modal.TableRulesStable | js/modal.js:425-429 | rules with equal fill counts keep their input order |
| Modal.TargetServices | js/modal.js:458-472 | the targets are exactly the services of the node's card under the header filters, with the header service selection ignored |
| Modal.ModalTargets | js/modal.js:474-500 | the modal columns are a permutation of the targets admitted by the modal service selection, sorted by fill count |
| Modal.ModalTargetsMembers | js/modal.js:474-500 | a column is shown exactly when it is a target and the modal selection is empty or contains it |
| Modal.ModalTargetsOrder | js/modal.js:474-500 | column fill counts are non-increasing |
| Modal.VisibleColumns | js/modal.js:433-434 | hidden columns are dropped and all others are kept |
| Modal.HideThenShow | js/modal.js:956-965 | hiding then showing a column restores the filters |
| Modal.ToggleColumnFilter | js/modal.js:548-559 | the same service clears the column filter, a new one sets it, and the row filter is cleared |
| Modal.ToggleRowFilter | js/modal.js:562-576 | the same row clears the row filter, a new one sets it, and the column filter is cleared |
| Modal.TogglesKeepNotBoth | js/modal.js:548-576 | the column and row filters are never active together |
| Modal.ToggleFilterTwice | js/modal.js:548-576 | toggling the same filter twice leaves it inactive |
| Modal.ToggleIn | js/modal.js:287-346 | one value flips in a selection |
| Modal.ToggleInTwice | js/modal.js:287-346 | flipping twice restores the selection |
| Modal.ToggleAll | js/modal.js:297-358 | a selection as large as the full set is cleared, otherwise it becomes the full set |
| Modal.ToggleAllMeansAllSelected | js/modal.js:297-358 | for a sub-selection, comparing sizes is the same as comparing the sets |
| Modal.ToggleUstGrup | js/modal.js:120-124 | only that top group flips in the expansion state |
| Modal.ToggleGrupEtiketi | js/modal.js:126-130 | only that group label flips in the expansion state |
| Modal.ExpandAll | js/modal.js:133-144 | every present top group and label becomes expanded and nothing is collapsed |
| Modal.CollapseAll | js/modal.js:147-151 | both expansion sets are emptied and nothing else changes |
| Modal.SetDetailLevel | js/modal.js:70-101 | `ustgrup` empties both sets; `grupetiket` expands exactly the present top groups; `durum` expands everything |
| Modal.InitModalFilters | js/modal.js:169-203 | all present top groups, types and target services are selected and everything is expanded |
| Modal.InitThenExpandAll | js/modal.js:133-203 | after initialization, expand-all and the `durum` level change nothing |
| Modal.FreshFiltersHideNothing | js/modal.js:169-203 | after initialization, every rule with a top group and a typed value passes the filters |
| Modal.Open | js/modal.js:19-54 | it records the node, clears hidden columns and initializes the filters; the column and row filters carry over from before |
| Modal.ReopenKeepsStaleColumnFilter | js/modal.js:19-54 | a column filter left from another node hides every rule of the newly opened node |
| Modal.OpenFresh | js/modal.js:19-54 | the corrected open leaves no column or row filter active and no hidden column |
| Modal.OpenFreshShowsNodeRules | js/modal.js:19-54 | with the corrected open, every rule with a top group and a typed value is in the table |
| Modal.Close | js/modal.js:39-43 | only the open-node field is cleared |
| Modal.ClearModalFilters | js/modal.js:998-1004 | no column stays hidden and nothing else changes |
| Modal.KeyOf | js/modal.js:578-604 | a missing top group becomes `Diğer` and a missing label becomes `Genel` |
| Modal.GroupRulesKeys | js/modal.js:578-604 | a group exists exactly for the keys of the rules |
| Modal.GroupRulesPartition | js/modal.js:578-604 | each group holds exactly the rules with its key, in input order |
| Modal.OrderedKeys | js/modal.js:1072 | the group keys are strictly sorted and are exactly the keys present |
| Modal.FlattenIsPermutation | js/modal.js:578-604 | reading the groups in key order gives back every rule exactly once |
| Modal.CountCell | js/modal.js:1073-1080 | a top-group cell counts the filled values for the service, and is blank when there are none |
| Modal.DurumCellBlankIffUnfilled | js/modal.js:1108-1119 | with values and types shown, a detail cell is blank exactly when the rule has no value for the service |
| Modal.ExportRowCount | js/modal.js:1069-1125 | one row per group key at the two grouped levels, one row per rule at `durum`; no rows exactly when there are no rules |
| Modal.UstGrupCountsAddUp | js/modal.js:1073-1080 | the top-group counts for a service sum to its fill count over all rules |
| Modal.Export | js/modal.js:1034-1135 | the export has rows exactly when the rendered table has rules |
| Data.Wrap32 | js/data.js:148-151 | the result is the 32-bit two's-complement value congruent to the input |
| Basics.CodeUnits | js/data.js:148 | a string splits into UTF-16 code units, one or two per character, each below 0x10000 |
| Data.HashIsPolynomial | js/data.js:148-151 | the shift-and-subtract fold is the polynomial hash with base 31, taken mod 2^32 |
| Data.Bucket | js/data.js:148-151 | the bucket is below 100000 and equals the absolute value of the wrapped hash mod 100000 |
| Data.HashedId | js/data.js:148-151 | a computed id is `S_` followed by digits that read back as the name's bucket, a number below 100000 |
| Data.HashCollision | js/data.js:148-151 | `Aa` and `BB` hash to the same id |
| Data.NamedIdsDistinct | js/data.js:145-152 | the corrected scheme gives different names different ids |
| Data.ReadDataRow | js/data.js:174 | the top group is the `Üst Grup` cell, else the `D` cell, else `Genel`, so it is never empty |
| Data.NodeFor | js/data.js:155-158 | an empty flow name finds no node; otherwise the matcher decides |
| Data.FindByName | js/data.js:146-147 | it finds the first imported service with that name, or none |
| Data.ServiceId | js/data.js:145-152 | a name already imported keeps its id; a new one gets the computed id |
| Data.UpdateService | js/data.js:186-195 | a new service takes the name, directorate and found node; an existing one appends the node only if missing |
| Data.Upsert | js/data.js:197-224 | the rule with the key gets the cell for the service, and a rule is created only when none had the key |
| Data.ProcessRow | js/data.js:169-225 | an unnamed row changes nothing; otherwise the service exists, keeps earlier entries, has the node on its path, and that node's rule with the row key holds the row's cell |
| Data.ImportInvariants | js/data.js:169-225 | after any import: paths have no repeats, each node has one rule per key, names are unique and every rule cell refers to a service |
| Data.SkipUnnamed | js/data.js:181 | rows with an empty service name do not affect the result |
| Data.ServicesKept | js/data.js:186-195 | a service keeps its name and its path only grows |
| Data.ServiceIdIsCarrier | js/data.js:146-147 | a name carried by an imported service maps to that service's id |
| Data.NameKeepsItsId | js/data.js:145-152 | once a name is imported, later rows never give it another id |
| Data.LaterRowWins | js/data.js:219-224 | a later row for the same rule and service overwrites the earlier cell |
| Data.HashCollisionMergesServices | js/data.js:145-152 | importing `Aa` then `BB` leaves one service, and no service is named `BB` |
| Data.CorrectedImportKeepsEveryName | js/data.js:145-195 | with name-qualified ids every named row's service survives the import |
| Data.ProcessExcelData | js/data.js:229-230 | the merge keeps untouched old keys, and imported keys win |
| Data.TypeOfRow | js/data.js:252 | the stored type reads back as the row's tag, or as `process` when the tag is empty |
| Data.ConfigNode | js/data.js:241-256 | an existing node takes x and y only when non-zero and the name only when present; an unknown named id becomes a new node of width 260; nothing else changes |
| Data.AddLinks | js/data.js:258-273 | existing connections are kept; new ones go from the row's node to trimmed, non-empty targets, right to left |
| Data.AddLinksCovers | js/data.js:258-273 | every non-blank link target is connected afterwards |
| Data.AddLinksKeepsEdgesUnique | js/data.js:264-266 | no duplicate from and to pair is added |
| Data.AddLinksNothingNew | js/data.js:258-273 | links that all exist already add nothing |
| Data.Targets | js/data.js:325-328 | the exported targets are exactly the nodes the node connects to |
| Data.LinksRoundTrip | js/data.js:259-262 | splitting the `, `-joined export and trimming the parts gives back the targets |
| Data.ExportedLinksRecreated | js/data.js:258-273 | reading the exported links back connects the node to every target |
| Data.ReimportRowKeepsDoc | js/data.js:233-340 | reading back one exported row of a well-formed diagram changes nothing |
| Data.ReimportKeepsDoc | js/data.js:233-340 | reading back the whole exported sheet changes nothing |
| Data.NewNodeRoundTrip | js/data.js:246-256 | the exported row of a canonical node recreates it in a diagram that lacks it |

## Left out

- Rendering, HTML templates, CSS classes, context menus, fullscreen toggles and event wiring. Only the decisions behind them are modelled.
- `localStorage`, `fetch`, `FileReader` and the XLSX reader and writer are not modelled. These are I/O. The `isUsingSessionData` flag and `clearData` go with them.
- The service-sheet export (js/data.js:282-319) is not modelled. It only flattens the services into spreadsheet rows for the writer.
- `Math.round` of x and y in the config export is not modelled, because coordinates are reals here. The reimport round trip is stated for canonical nodes.
- `parseFloat` of the config cells is the `num` parameter.
- `findNodeByAkis` is the `matchNode` parameter. Its upper-casing and substring match are locale dependent.
- `localeCompare('tr')` for tag order is an integer `rank` parameter.
- Geometry.SortBy: the key is an integer, where the source compares any property values with `>` (strings too), and the source sorts the array in place and returns it; the model returns a new sequence. The function is not called anywhere in the repository.
- Both import callers clear the tables before the merge. The model merges into the tables it is given.
- Sheet cells are strings. A numeric 0 read as false by `||` is not modelled.
- `pointercancel` is wired to the pointer-up handler, so a cancelled gesture commits like a release. The model follows that wiring.
- The JSON deep copy in `saveState` is the identity on immutable values.
- Scroll clamping by the browser is not modelled. Scroll offsets are plain reals.
- Canvas.PinchScale: when the previous and the new distance are both 0 the model keeps the scale, where the source's 0/0 sets it to NaN. A positive new distance over 0 gives `Infinity` in the source, which clamps to 3, as in the model.
- Canvas: the source mirrors the scale into `AppState.canvas.scale`, and the reset button also zeroes `AppState.canvas.offsetX` and `offsetY`. The model keeps the one scale in `Interaction` and has no offsets, because those fields are only written and are read just once, at start-up.
- The expansion state does not change what the table shows. The rows are always rendered.
- The column context-menu filters (js/modal.js:986-996) only set a flag that nothing reads.
- Modal.ToggleAllUstGrup, Modal.ToggleAllTur and Modal.ToggleAllHizmet are thin wrappers over Modal.ToggleAll. Their properties are stated once, there.
- The export includes columns that are hidden in the table, as the source does.
- Modal.Export: each exported row keeps one cell per service id, where the source keys the row object by service name, so two services with the same name collapse into one cell holding the last one's value. Import keeps service names unique, so the case does not arise from imported data.
- Modal.OrderedKeys: grouping keys are sorted by code point; `Object.keys(...).sort()` uses UTF-16 order, which agrees for characters in the Basic Multilingual Plane.
- Data.ProcessExcelData: object-key order for integer-like keys is not modelled. Computed ids start with `S_`, so they are never integer-like.
- `Modal.openEdit` and `saveNodeEdit` are stubs and are not modelled.
- js/app.js is not part of this model. It is form and toolbar glue.
- `Utils.debounce` and the `setTimeout` in `toggleExpand` are timing plumbing.

## Findings

| source | as written | input that shows it | evidently intended | confidence | as-written member | corrected member |
|---|---|---|---|---|---|---|
| js/filters.js:105 | the apostrophe is escaped as `\'` inside a double-quoted HTML attribute | directorate `a'b`: the attribute reads back as `a\'b`, so the data value no longer matches the name | an escape the attribute decodes back to the original value | medium, not executed | Filters.EscapeForHtmlApostropheDoesNotRoundTrip | Filters.EscapeAttrRoundTrip |
| js/modal.js:19-54 | `open` and `resetModalState` keep `activeColumnFilter` and `activeRowFilter` from the previous node | filter on column `S1` at one node, close, then open a node whose rules only have values for `S2`: the table is empty | opening a node starts with no column or row filter | medium, not executed | Modal.ReopenKeepsStaleColumnFilter | Modal.OpenFreshShowsNodeRules |
| js/data.js:145-152 | a new service's id is only its 5-digit hash bucket | service names `Aa` and `BB` both hash to `S_2112`; the `BB` rows are filed under service `Aa` | distinct service names get distinct ids | medium, not executed | Data.HashCollisionMergesServices | Data.CorrectedImportKeepsEveryName |

=== FILE: basics.dfy ===
/**
 * Small, self-contained helpers shared by every other module: an Option
 * type, JavaScript-style string trimming and splitting, decimal rendering of
 * naturals, sequence filtering, and the stable sort that `Array.prototype.sort`
 * performs with a numeric comparator.
 */
module Basics {

  /** A value that may be absent, standing in for JavaScript's `null`. */
  datatype Option<+T> = None | Some(value: T) {
    function GetOr(default: T): T {
      match this
      case Some(v) => v
      case None => default
    }
  }

  // ---------------------------------------------------------------------
  // Trimming (String.prototype.trim)
  // ---------------------------------------------------------------------

  /**
   * The characters `trim` removes: ECMAScript's WhiteSpace (tab, vertical
   * tab, form feed, the byte order mark and every space separator of the
   * Unicode category Zs) and its LineTerminators (LF, CR, U+2028, U+2029).
   */
  predicate IsSpace(c: char) {
    if c <= ' ' then c == ' ' || '\t' <= c <= '\r' else IsWideSpace(c)
  }

  /** The white space above U+0020: the Zs separators, U+2028, U+2029 and U+FEFF. */
  predicate IsWideSpace(c: char) {
    || c == '\U{00A0}' || c == '\U{1680}' || '\U{2000}' <= c <= '\U{200A}'
    || '\U{2028}' <= c <= '\U{2029}' || c == '\U{202F}' || c == '\U{205F}'
    || c == '\U{3000}' || c == '\U{FEFF}'
  }

  predicate AllSpace(s: string) {
    forall i :: 0 <= i < |s| ==> IsSpace(s[i])
  }

  /** A string with no white space at either end. */
  predicate IsTrimmed(s: string) {
    |s| == 0 || (!IsSpace(s[0]) && !IsSpace(s[|s| - 1]))
  }

  function TrimStart(s: string): (r: string)
    ensures |r| <= |s| && r == s[|s| - |r|..]
    ensures AllSpace(s[..|s| - |r|])
    ensures |r| == 0 || !IsSpace(r[0])
    decreases |s|
  {
    if |s| > 0 && IsSpace(s[0]) then
      var r := TrimStart(s[1..]);
      AllSpaceCons(s, |s| - |r|);
      r
    else s
  }

  lemma AllSpaceCons(s: string, k: nat)
    requires 0 < k <= |s| && IsSpace(s[0]) && AllSpace(s[1..][..k - 1])
    ensures AllSpace(s[..k])
  {
    forall i | 0 <= i < k ensures IsSpace(s[..k][i]) {
      if i > 0 { assert s[..k][i] == s[1..][..k - 1][i - 1]; }
    }
  }

  function TrimEnd(s: string): (r: string)
    ensures |r| <= |s| && r == s[..|r|]
    ensures AllSpace(s[|r|..])
    ensures |r| == 0 || !IsSpace(r[|r| - 1])
    decreases |s|
  {
    if |s| > 0 && IsSpace(s[|s| - 1]) then
      var r := TrimEnd(s[..|s| - 1]);
      AllSpaceSnoc(s, |r|);
      r
    else s
  }

  lemma AllSpaceSnoc(s: string, k: nat)
    requires k < |s| && IsSpace(s[|s| - 1]) && AllSpace(s[..|s| - 1][k..])
    ensures AllSpace(s[k..])
  {
    forall i | 0 <= i < |s| - k ensures IsSpace(s[k..][i]) {
      if i < |s| - 1 - k { assert s[k..][i] == s[..|s| - 1][k..][i]; }
    }
  }

  /** How many leading white-space characters `Trim` drops. */
  function TrimOffset(s: string): nat {
    |s| - |TrimStart(s)|
  }

  /** `s.trim()`: the infix of `s` left after dropping white space at both ends. */
  function Trim(s: string): (r: string)
    ensures IsTrimmed(r)
    ensures TrimOffset(s) + |r| <= |s| && r == s[TrimOffset(s)..TrimOffset(s) + |r|]
    ensures AllSpace(s[..TrimOffset(s)]) && AllSpace(s[TrimOffset(s) + |r|..])
  {
    var a := TrimStart(s);
    var r := TrimEnd(a);
    TrimParts(s, a, r);
    r
  }

  /** The two halves of `Trim` put together: `a` is `s` without its leading
      white space and `r` is `a` without its trailing white space. */
  lemma TrimParts(s: string, a: string, r: string)
    requires |a| <= |s| && a == s[|s| - |a|..] && (|a| == 0 || !IsSpace(a[0]))
    requires |r| <= |a| && r == a[..|r|] && AllSpace(a[|r|..]) && (|r| == 0 || !IsSpace(r[|r| - 1]))
    ensures IsTrimmed(r)
    ensures r == s[|s| - |a|..|s| - |a| + |r|]
    ensures AllSpace(s[|s| - |a| + |r|..])
  {
    if |r| > 0 { assert r[0] == a[0]; }
    assert s[|s| - |a| + |r|..] == a[|r|..];
  }

  /** Trimming an already trimmed string changes nothing, so `Trim` is idempotent. */
  lemma TrimOfTrimmed(s: string)
    requires IsTrimmed(s)
    ensures Trim(s) == s
  {
  }

  lemma TrimIdempotent(s: string)
    ensures Trim(Trim(s)) == Trim(s)
  {
    TrimOfTrimmed(Trim(s));
  }

  /** A string whose trim is empty is exactly an all-white-space string. */
  lemma {:induction false} TrimEmptyIffAllSpace(s: string)
    ensures Trim(s) == "" <==> AllSpace(s)
  {
    if AllSpace(s) {
      TrimStartAllSpace(s);
    }
  }

  lemma {:induction false} TrimStartAllSpace(s: string)
    requires AllSpace(s)
    ensures TrimStart(s) == ""
    decreases |s|
  {
    if |s| > 0 {
      TrimStartAllSpace(s[1..]);
    }
  }

  /** Space separators beyond ASCII are trimmed too, such as the ideographic space. */
  lemma TrimIdeographicSpace()
    ensures Trim("\U{3000}B") == "B"
  {
    assert IsSpace('\U{3000}') && !IsSpace('B');
    assert ("\U{3000}B")[1..] == "B";
    assert TrimStart("B") == "B" && TrimEnd("B") == "B";
    assert TrimStart("\U{3000}B") == "B";
  }

  /** A single leading blank is removed by `Trim` when the rest is trimmed. */
  lemma TrimLeadingBlank(s: string)
    requires IsTrimmed(s)
    ensures Trim(" " + s) == s
  {
    assert (" " + s)[1..] == s;
  }

  // ---------------------------------------------------------------------
  // Splitting and joining
  // ---------------------------------------------------------------------

  /** `s.split(sep)` for a one-character separator: never empty, and no piece holds `sep`. */
  function Split(s: string, sep: char): (r: seq<string>)
    ensures |r| >= 1
    ensures forall i :: 0 <= i < |r| ==> sep !in r[i]
    decreases |s|
  {
    if |s| == 0 then [""]
    else
      var rest := Split(s[1..], sep);
      if s[0] == sep then [""] + rest
      else [[s[0]] + rest[0]] + rest[1..]
  }

  /** `parts.join(sep)`. */
  function Join(parts: seq<string>, sep: string): string {
    if |parts| == 0 then ""
    else if |parts| == 1 then parts[0]
    else parts[0] + sep + Join(parts[1..], sep)
  }

  lemma {:induction false} SplitNoSep(s: string, sep: char)
    requires sep !in s
    ensures Split(s, sep) == [s]
    decreases |s|
  {
    if |s| > 0 {
      SplitNoSep(s[1..], sep);
      assert [s[0]] + s[1..] == s;
    }
  }

  /** Splitting at the first separator peels off the text before it. */
  lemma {:induction false} SplitAtFirst(a: string, b: string, sep: char)
    requires sep !in a
    ensures Split(a + [sep] + b, sep) == [a] + Split(b, sep)
    decreases |a|
  {
    var s := a + [sep] + b;
    if |a| == 0 {
      assert s[1..] == b;
    } else {
      assert s[1..] == a[1..] + [sep] + b;
      SplitAtFirst(a[1..], b, sep);
      assert [a[0]] + a[1..] == a;
    }
  }

  // ---------------------------------------------------------------------
  // Decimal rendering of naturals (String(n))
  // ---------------------------------------------------------------------

  predicate IsDigit(c: char) {
    '0' <= c <= '9'
  }

  predicate AllDigits(s: string) {
    forall i :: 0 <= i < |s| ==> IsDigit(s[i])
  }

  function DigitChar(d: nat): (c: char)
    requires d < 10
    ensures IsDigit(c) && (c as int) - ('0' as int) == d
  {
    (('0' as int) + d) as char
  }

  /** The decimal digits of `n`, without sign or leading zeros. */
  function NatToString(n: nat): (r: string)
    ensures |r| >= 1 && AllDigits(r)
    ensures |r| > 1 ==> r[0] != '0'
  {
    if n < 10 then [DigitChar(n)] else NatToString(n / 10) + [DigitChar(n % 10)]
  }

  /** Reads a string of decimal digits back as a natural. */
  function ParseDigits(s: string): nat
    requires AllDigits(s)
  {
    if |s| == 0 then 0
    else ParseDigits(s[..|s| - 1]) * 10 + ((s[|s| - 1] as int) - ('0' as int))
  }

  lemma {:induction false} ParseNatToString(n: nat)
    ensures ParseDigits(NatToString(n)) == n
  {
    if n >= 10 {
      var r := NatToString(n);
      assert r[..|r| - 1] == NatToString(n / 10);
      ParseNatToString(n / 10);
    }
  }

  /** Distinct naturals render as distinct strings. */
  lemma NatToStringInjective(a: nat, b: nat)
    requires NatToString(a) == NatToString(b)
    ensures a == b
  {
    ParseNatToString(a);
    ParseNatToString(b);
  }

  // ---------------------------------------------------------------------
  // UTF-16
  // ---------------------------------------------------------------------

  /**
   * The UTF-16 code units of a string, which is what `length`, `substring`,
   * `split('')` and `charCodeAt` work on: characters outside the Basic
   * Multilingual Plane become a surrogate pair.
   */
  function CodeUnits(s: string): (u: seq<int>)
    ensures |s| <= |u| <= 2 * |s|
    ensures forall i :: 0 <= i < |u| ==> 0 <= u[i] < 0x1_0000
  {
    if |s| == 0 then []
    else
      var c := s[|s| - 1] as int;
      CodeUnits(s[..|s| - 1])
        + (if c < 0x1_0000 then [c] else [0xD800 + (c - 0x1_0000) / 0x400, 0xDC00 + (c - 0x1_0000) % 0x400])
  }

  /** Code units of a concatenation are the concatenated code units. */
  lemma {:induction false} CodeUnitsAppend(a: string, b: string)
    ensures CodeUnits(a + b) == CodeUnits(a) + CodeUnits(b)
    decreases |b|
  {
    if |b| == 0 {
      assert a + b == a;
    } else {
      var b' := b[..|b| - 1];
      assert (a + b)[..|a + b| - 1] == a + b';
      assert (a + b)[|a + b| - 1] == b[|b| - 1];
      CodeUnitsAppend(a, b');
    }
  }

  // ---------------------------------------------------------------------
  // Sequences
  // ---------------------------------------------------------------------

  /** `r` is `s` with some elements left out: what remains keeps the order it had in `s`. */
  predicate Subsequence<T(==)>(r: seq<T>, s: seq<T>)
    decreases |s|
  {
    if |r| == 0 then true
    else if |s| == 0 then false
    else (r[0] == s[0] && Subsequence(r[1..], s[1..])) || Subsequence(r, s[1..])
  }

  /** `s.filter(p)`: the elements satisfying `p`, in their original order. */
  function Filter<T(==)>(s: seq<T>, p: T -> bool): (r: seq<T>)
    ensures |r| <= |s|
    ensures forall i :: 0 <= i < |r| ==> r[i] in s && p(r[i])
    ensures forall i :: 0 <= i < |s| && p(s[i]) ==> s[i] in r
    ensures multiset(r) <= multiset(s)
    ensures Subsequence(r, s)
  {
    if |s| == 0 then []
    else
      assert s == [s[0]] + s[1..];
      if p(s[0]) then
        var r := [s[0]] + Filter(s[1..], p);
        assert r[1..] == Filter(s[1..], p);
        r
      else Filter(s[1..], p)
  }

  lemma {:induction false} FilterAppend<T>(a: seq<T>, b: seq<T>, p: T -> bool)
    ensures Filter(a + b, p) == Filter(a, p) + Filter(b, p)
  {
    if |a| > 0 {
      assert (a + b)[1..] == a[1..] + b;
      FilterAppend(a[1..], b, p);
    } else {
      assert a + b == b;
    }
  }

  /** Filtering keeps everything when every element passes. */
  lemma {:induction false} FilterAll<T>(s: seq<T>, p: T -> bool)
    requires forall i :: 0 <= i < |s| ==> p(s[i])
    ensures Filter(s, p) == s
  {
    if |s| > 0 {
      FilterAll(s[1..], p);
      assert s == [s[0]] + s[1..];
    }
  }

  /** Filtering keeps nothing when no element passes. */
  lemma {:induction false} FilterNone<T>(s: seq<T>, p: T -> bool)
    requires forall i :: 0 <= i < |s| ==> !p(s[i])
    ensures Filter(s, p) == []
  {
    if |s| > 0 {
      FilterNone(s[1..], p);
    }
  }

  /** Filtering by `p` and then by `q` is filtering once by their conjunction `pq`. */
  lemma {:induction false} FilterFilter<T>(s: seq<T>, p: T -> bool, q: T -> bool, pq: T -> bool)
    requires forall x :: pq(x) == (p(x) && q(x))
    ensures Filter(Filter(s, p), q) == Filter(s, pq)
  {
    if |s| > 0 {
      FilterFilter(s[1..], p, q, pq);
      if p(s[0]) {
        assert Filter(s, p) == [s[0]] + Filter(s[1..], p);
        assert Filter(s, p)[1..] == Filter(s[1..], p);
      }
    }
  }

  /** Filtering keeps every copy of an element that passes and drops every copy of one that does not. */
  lemma {:induction false} FilterMultiplicity<T>(s: seq<T>, p: T -> bool, x: T)
    ensures multiset(Filter(s, p))[x] == (if p(x) then multiset(s)[x] else 0)
  {
    if |s| > 0 {
      FilterMultiplicity(s[1..], p, x);
      assert s == [s[0]] + s[1..];
      FilterCons(s[0], s[1..], p);
      MultiplicityStep(s, Filter(s[1..], p), Filter(s, p), p, x);
    }
  }

  /** One element of `s` kept or dropped, counted for `x`. */
  lemma MultiplicityStep<T>(s: seq<T>, t: seq<T>, r: seq<T>, p: T -> bool, x: T)
    requires |s| > 0 && r == (if p(s[0]) then [s[0]] + t else t)
    requires multiset(t)[x] == (if p(x) then multiset(s[1..])[x] else 0)
    ensures multiset(r)[x] == (if p(x) then multiset(s)[x] else 0)
  {
    assert s == [s[0]] + s[1..];
    assert multiset(s) == multiset{s[0]} + multiset(s[1..]);
    if p(s[0]) {
      assert multiset(r) == multiset{s[0]} + multiset(t);
    }
  }

  /** Sequences with the same elements keep the same elements under a filter. */
  lemma FilterPermutation<T>(a: seq<T>, b: seq<T>, p: T -> bool)
    requires multiset(a) == multiset(b)
    ensures multiset(Filter(a, p)) == multiset(Filter(b, p))
    ensures |Filter(a, p)| == |Filter(b, p)|
  {
    forall x ensures multiset(Filter(a, p))[x] == multiset(Filter(b, p))[x] {
      FilterMultiplicity(a, p, x);
      FilterMultiplicity(b, p, x);
    }
    assert multiset(Filter(a, p)) == multiset(Filter(b, p));
    assert |multiset(Filter(a, p))| == |Filter(a, p)|;
  }

  /** Whether a sequence lists no element twice. */
  predicate NoDup<T(==)>(s: seq<T>) {
    forall i, j :: 0 <= i < j < |s| ==> s[i] != s[j]
  }

  /** The elements of `s` without repetitions, each at its first occurrence. */
  function Distinct<T(==)>(s: seq<T>): (r: seq<T>)
    ensures NoDup(r)
    ensures forall i :: 0 <= i < |r| ==> r[i] in s
    ensures forall i :: 0 <= i < |s| ==> s[i] in r
  {
    DistinctFrom(s, [])
  }

  function DistinctFrom<T(==)>(s: seq<T>, seen: seq<T>): (r: seq<T>)
    requires NoDup(seen)
    ensures NoDup(r)
    ensures forall i :: 0 <= i < |r| ==> r[i] in s || r[i] in seen
    ensures forall i :: 0 <= i < |s| ==> s[i] in r
    ensures |seen| <= |r| && r[..|seen|] == seen
    decreases |s|
  {
    if |s| == 0 then seen
    else if s[0] in seen then
      var r := DistinctFrom(s[1..], seen);
      assert forall x :: x in seen ==> x in r[..|seen|];
      r
    else
      var r := DistinctFrom(s[1..], seen + [s[0]]);
      assert r[..|seen|] == r[..|seen| + 1][..|seen|];
      assert s[0] == r[|seen|];
      r
  }

  // ---------------------------------------------------------------------
  // Stable sort by an integer key
  // ---------------------------------------------------------------------

  predicate SortedBy<T>(s: seq<T>, key: T -> int) {
    forall i, j :: 0 <= i < j < |s| ==> key(s[i]) <= key(s[j])
  }

  /** The elements of `s` whose key is `k`, in order: stability means these sub-sequences survive sorting. */
  function WithKey<T(==)>(s: seq<T>, key: T -> int, k: int): seq<T> {
    Filter(s, x => key(x) == k)
  }

  function InsertByKey<T>(x: T, s: seq<T>, key: T -> int): (r: seq<T>)
    requires SortedBy(s, key)
    ensures SortedBy(r, key)
    ensures multiset(r) == multiset(s) + multiset{x}
    ensures |r| == |s| + 1
    ensures forall i :: 0 <= i < |r| ==> r[i] == x || r[i] in s
  {
    if |s| == 0 then [x]
    else if key(x) <= key(s[0]) then
      assert forall j :: 0 <= j < |s| ==> key(x) <= key(s[j]);
      ConsSorted(x, s, key);
      [x] + s
    else
      var t := InsertByKey(x, s[1..], key);
      assert s == [s[0]] + s[1..];
      HeadBelowInsert(x, s, t, key);
      ConsSorted(s[0], t, key);
      [s[0]] + t
  }

  lemma ConsSorted<T>(a: T, t: seq<T>, key: T -> int)
    requires SortedBy(t, key)
    requires forall i :: 0 <= i < |t| ==> key(a) <= key(t[i])
    ensures SortedBy([a] + t, key)
  {
    var r := [a] + t;
    forall i, j | 0 <= i < j < |r| ensures key(r[i]) <= key(r[j]) {
      assert r[j] == t[j - 1];
      if i > 0 {
        assert r[i] == t[i - 1];
      }
    }
  }

  /** The head of a sorted `s` is below everything in `t`, which holds `x` and elements of `s`'s tail. */
  lemma HeadBelowInsert<T>(x: T, s: seq<T>, t: seq<T>, key: T -> int)
    requires SortedBy(s, key) && |s| > 0 && key(s[0]) < key(x)
    requires forall i :: 0 <= i < |t| ==> t[i] == x || t[i] in s[1..]
    ensures forall i :: 0 <= i < |t| ==> key(s[0]) <= key(t[i])
  {
    forall i | 0 <= i < |t| ensures key(s[0]) <= key(t[i]) {
      if t[i] != x {
        var j :| 0 <= j < |s[1..]| && s[1..][j] == t[i];
        assert s[j + 1] == t[i];
      }
    }
  }

  /**
   * Stable ascending sort: a sorted permutation of `s`. Both the comparator
   * `(a, b) => key(a) - key(b)` and the property-comparison comparator of
   * `Utils.sortBy` order integers this way, and ES2019 requires `sort` to be stable.
   */
  function SortByKey<T>(s: seq<T>, key: T -> int): (r: seq<T>)
    ensures SortedBy(r, key)
    ensures multiset(r) == multiset(s)
    ensures |r| == |s|
  {
    if |s| == 0 then []
    else
      assert s == [s[0]] + s[1..];
      InsertByKey(s[0], SortByKey(s[1..], key), key)
  }

  lemma {:induction false} InsertWithKey<T>(x: T, s: seq<T>, key: T -> int, k: int)
    requires SortedBy(s, key)
    ensures WithKey(InsertByKey(x, s, key), key, k)
         == (if key(x) == k then [x] + WithKey(s, key, k) else WithKey(s, key, k))
    decreases |s|
  {
    var p := (y: T) => key(y) == k;
    if |s| == 0 {
      FilterCons(x, [], p);
    } else if key(x) <= key(s[0]) {
      FilterCons(x, s, p);
    } else {
      var t := InsertByKey(x, s[1..], key);
      assert s == [s[0]] + s[1..];
      FilterCons(s[0], t, p);
      FilterCons(s[0], s[1..], p);
      InsertWithKey(x, s[1..], key, k);
    }
  }

  /** Filtering a sequence with a known first element. */
  lemma FilterCons<T>(x: T, s: seq<T>, p: T -> bool)
    ensures Filter([x] + s, p) == if p(x) then [x] + Filter(s, p) else Filter(s, p)
  {
    assert ([x] + s)[1..] == s;
  }

  /** The sort is stable: for every key, elements with that key keep their relative order. */
  lemma {:induction false} SortByKeyStable<T>(s: seq<T>, key: T -> int, k: int)
    ensures WithKey(SortByKey(s, key), key, k) == WithKey(s, key, k)
  {
    if |s| > 0 {
      SortByKeyStable(s[1..], key, k);
      InsertWithKey(s[0], SortByKey(s[1..], key), key, k);
    }
  }

  /** `SortByKeyStable` for a sequence already known to be the sorted one. */
  lemma SortStableOf<T>(r: seq<T>, s: seq<T>, key: T -> int, k: int)
    requires r == SortByKey(s, key)
    ensures WithKey(r, key, k) == WithKey(s, key, k)
  {
    SortByKeyStable(s, key, k);
  }
}

=== FILE: canvas.dfy ===
/**
 * The pointer/keyboard interaction state machine of js/canvas.js: panning,
 * single- and multi-card dragging behind a 5 px threshold, rubber-band
 * selection, wheel/pinch/button zoom and the keyboard shortcuts.
 *
 * DOM-measured quantities are inputs: card sizes (`offsetWidth/Height`)
 * come in as `size`, the container's client rectangle and scroll offsets as
 * the `Viewport`, `Math.hypot` of the pinch distance as `hypot`, and the
 * clock reading for undo snapshots as the event's `now`. Card positions
 * (`style.left/top`) are the editor's `cards` map: dragging moves cards and
 * release writes them back into the diagram.
 */
module Canvas {
  import opened Basics
  import opened Store
  import History
  import Filters

  /** `DRAG_THRESHOLD`: pixels a pointer must travel before a press becomes a drag. */
  const DragThreshold: real := 5.0
  /** `KEYBOARD_SCROLL_SPEED`: pixels scrolled per arrow key. */
  const KeyboardScrollSpeed: real := 50.0
  const MinScale: real := 0.2
  const MaxScale: real := 3.0
  /** The wheel zooms by this fraction per notch. */
  const ZoomIntensity: real := 0.1
  /** The zoom buttons change the scale by this much. */
  const ZoomStep: real := 0.1

  datatype Mode = Idle | Panning | PotentialDrag | PotentialMultiDrag | DraggingCard | DraggingMulti | Selecting | Zooming

  /** The last reported position of an active pointer. */
  datatype Pointer = Pointer(id: int, clientX: real, clientY: real)

  /**
   * What a pointer event hit: the empty canvas, the body of a card, one of a
   * card's controls (action buttons, connection points), or one of its
   * service widgets (tags, the toggle button, the total badge).
   */
  datatype Target = Background | CardBody(card: string) | CardControl(card: string) | ServiceWidget(card: string)

  datatype PointerEvent = PointerEvent(pointerId: int, clientX: real, clientY: real, button: int, shift: bool, target: Target, now: int)

  /** `Canvas.interactionState`; `lastDist` is only read in `Zooming` mode, after it has been set. */
  datatype Interaction = Interaction(
    pointers: seq<Pointer>,
    lastDist: real,
    mode: Mode,
    target: Option<string>,
    startPos: Point,
    hasMoved: bool,
    scale: real,
    selectionStart: Option<Point>)

  /** The scroll container: its client-rectangle origin and its scroll offsets. */
  datatype Viewport = Viewport(left: real, top: real, scrollLeft: real, scrollTop: real)

  /** The slice of application state the canvas reads and writes. */
  datatype Editor = Editor(
    doc: Doc,
    ui: Ui,
    history: History.History,
    ix: Interaction,
    cards: map<string, Point>,
    view: Viewport,
    preview: set<string>)

  /** What a click (a release without movement) on a card asks for. */
  datatype Click = NoClick | ToggleMethod(methodId: string) | OpenDetail(nodeId: string)

  datatype Release = Release(editor: Editor, click: Click)

  const InitialInteraction := Interaction([], 0.0, Idle, None, Point(0.0, 0.0), false, 1.0, None)

  /** The interaction invariant every handler preserves. */
  predicate Valid(ix: Interaction) {
    && MinScale <= ix.scale <= MaxScale
    && (|ix.pointers| == 0 <==> ix.mode == Idle)
    && (ix.mode == Idle ==> ix.target.None? && !ix.hasMoved && ix.selectionStart.None?)
    && (ix.mode in {Panning, PotentialDrag, PotentialMultiDrag, DraggingCard, DraggingMulti, Selecting} ==> |ix.pointers| == 1)
    && (ix.mode == Zooming ==> |ix.pointers| >= 2)
    && (ix.mode in {PotentialDrag, PotentialMultiDrag, DraggingCard, DraggingMulti} ==> ix.target.Some?)
    && (ix.mode in {PotentialDrag, PotentialMultiDrag} ==> !ix.hasMoved)
    && (ix.mode in {DraggingCard, DraggingMulti} ==> ix.hasMoved)
    && (ix.mode == Selecting ==> ix.selectionStart.Some?)
  }

  lemma InitialValid()
    ensures Valid(InitialInteraction)
  {
  }

  /** Card positions as `Nodes.renderAll` lays them out from the diagram. */
  function Render(doc: Doc): (r: map<string, Point>)
    ensures r.Keys == doc.nodes.Keys
    ensures forall id :: id in r ==> r[id] == Point(doc.nodes[id].x, doc.nodes[id].y)
  {
    map id | id in doc.nodes :: Point(doc.nodes[id].x, doc.nodes[id].y)
  }

  // ---------------------------------------------------------------------
  // Scale
  // ---------------------------------------------------------------------

  /** `Math.max(0.2, Math.min(s, 3))`. */
  function ClampScale(s: real): (r: real)
    ensures MinScale <= r <= MaxScale
    ensures MinScale <= s <= MaxScale ==> r == s
    ensures s > MaxScale ==> r == MaxScale
    ensures s < MinScale ==> r == MinScale
  {
    if s > MaxScale then MaxScale else if s < MinScale then MinScale else s
  }

  /** `Math.sign`. */
  function Sign(d: real): (r: real)
    ensures d > 0.0 ==> r == 1.0
    ensures d < 0.0 ==> r == -1.0
    ensures d == 0.0 ==> r == 0.0
  {
    if d > 0.0 then 1.0 else if d < 0.0 then -1.0 else 0.0
  }

  /**
   * The pinch update `scale * (newDist / lastDist)`, clamped. A zero
   * `lastDist` divides by zero in JavaScript: a positive distance gives
   * `Infinity`, which clamps to the maximum; here a zero distance over zero
   * keeps the scale.
   */
  function PinchScale(scale: real, lastDist: real, newDist: real): (r: real)
    ensures MinScale <= r <= MaxScale || (lastDist == 0.0 && newDist == 0.0 && r == scale)
    ensures lastDist != 0.0 ==> r == ClampScale(scale * (newDist / lastDist))
  {
    if lastDist == 0.0 then (if newDist == 0.0 then scale else if newDist > 0.0 then MaxScale else MinScale)
    else ClampScale(scale * (newDist / lastDist))
  }

  /** The chart-space point under client position (x, y). */
  function ChartPoint(view: Viewport, scale: real, x: real, y: real): (r: Point)
    requires scale > 0.0
    ensures r.x * scale == x - view.left + view.scrollLeft
    ensures r.y * scale == y - view.top + view.scrollTop
  {
    Point((x - view.left + view.scrollLeft) / scale, (y - view.top + view.scrollTop) / scale)
  }

  /**
   * The wheel handler: scales by one notch in the direction of `deltaY`,
   * clamped, and scrolls so that the chart point under the cursor stays put.
   */
  function WheelZoom(ed: Editor, deltaY: real, clientX: real, clientY: real): (r: Editor)
    requires Valid(ed.ix)
    ensures Valid(r.ix)
    ensures deltaY == 0.0 ==> r.ix.scale == ed.ix.scale
    ensures deltaY > 0.0 ==> r.ix.scale <= ed.ix.scale
    ensures deltaY < 0.0 ==> r.ix.scale >= ed.ix.scale
    ensures deltaY > 0.0 ==> r.ix.scale == ClampScale(ed.ix.scale * (1.0 - ZoomIntensity))
    ensures deltaY < 0.0 ==> r.ix.scale == ClampScale(ed.ix.scale * (1.0 + ZoomIntensity))
    ensures r.doc == ed.doc && r.ui == ed.ui && r.history == ed.history && r.cards == ed.cards
    ensures r == ed.(ix := ed.ix.(scale := r.ix.scale),
                     view := ed.view.(scrollLeft := r.view.scrollLeft, scrollTop := r.view.scrollTop))
  {
    var s := ed.ix.scale;
    var ns := ClampScale(s * (1.0 - Sign(deltaY) * ZoomIntensity));
    var mouseX := clientX - ed.view.left;
    var mouseY := clientY - ed.view.top;
    var sl := (mouseX + ed.view.scrollLeft) * (ns / s) - mouseX;
    var st := (mouseY + ed.view.scrollTop) * (ns / s) - mouseY;
    ed.(ix := ed.ix.(scale := ns), view := ed.view.(scrollLeft := sl, scrollTop := st))
  }

  lemma ScaleRatio(a: real, s: real, ns: real)
    requires s > 0.0 && ns > 0.0
    ensures (a * (ns / s)) / ns == a / s
  {
    calc {
      (a * (ns / s)) / ns;
      == { assert a * (ns / s) == (a / s) * ns; }
      ((a / s) * ns) / ns;
      ==
      a / s;
    }
  }

  /** Zoom to cursor: the chart point under the mouse is the same before and after a wheel step, on both axes. */
  lemma WheelZoomKeepsCursorPoint(ed: Editor, deltaY: real, clientX: real, clientY: real)
    requires Valid(ed.ix)
    ensures ChartPoint(WheelZoom(ed, deltaY, clientX, clientY).view, WheelZoom(ed, deltaY, clientX, clientY).ix.scale, clientX, clientY)
         == ChartPoint(ed.view, ed.ix.scale, clientX, clientY)
  {
    var r := WheelZoom(ed, deltaY, clientX, clientY);
    var s, ns := ed.ix.scale, r.ix.scale;
    assert r.view.scrollLeft == (clientX - ed.view.left + ed.view.scrollLeft) * (ns / s) - (clientX - ed.view.left);
    assert r.view.scrollTop == (clientY - ed.view.top + ed.view.scrollTop) * (ns / s) - (clientY - ed.view.top);
    CursorKept(ed.view, s, ns, r.view.scrollLeft, r.view.scrollTop, clientX, clientY);
  }

  /** Scrolling by the zoom ratio around the cursor keeps the chart point under it. */
  lemma CursorKept(view: Viewport, s: real, ns: real, sl: real, st: real, x: real, y: real)
    requires s > 0.0 && ns > 0.0
    requires sl == (x - view.left + view.scrollLeft) * (ns / s) - (x - view.left)
    requires st == (y - view.top + view.scrollTop) * (ns / s) - (y - view.top)
    ensures ChartPoint(view.(scrollLeft := sl, scrollTop := st), ns, x, y) == ChartPoint(view, s, x, y)
  {
    ScaleRatio(x - view.left + view.scrollLeft, s, ns);
    ScaleRatio(y - view.top + view.scrollTop, s, ns);
  }

  /** The zoom-in button: one step up, capped at the maximum. */
  function ZoomIn(ix: Interaction): (r: Interaction)
    requires Valid(ix)
    ensures Valid(r)
    ensures r.scale >= ix.scale
    ensures ix.scale + ZoomStep <= MaxScale ==> r.scale == ix.scale + ZoomStep
    ensures ix.scale + ZoomStep > MaxScale ==> r.scale == MaxScale
    ensures r == ix.(scale := r.scale)
  {
    ix.(scale := if ix.scale + ZoomStep < MaxScale then ix.scale + ZoomStep else MaxScale)
  }

  /** The zoom-out button: one step down, floored at the minimum. */
  function ZoomOut(ix: Interaction): (r: Interaction)
    requires Valid(ix)
    ensures Valid(r)
    ensures r.scale <= ix.scale
    ensures ix.scale - ZoomStep >= MinScale ==> r.scale == ix.scale - ZoomStep
    ensures ix.scale - ZoomStep < MinScale ==> r.scale == MinScale
    ensures r == ix.(scale := r.scale)
  {
    ix.(scale := if ix.scale - ZoomStep > MinScale then ix.scale - ZoomStep else MinScale)
  }

  /** Zooming out undoes a zoom-in step that did not hit the maximum. */
  lemma ZoomOutUndoesZoomIn(ix: Interaction)
    requires Valid(ix) && ix.scale + ZoomStep <= MaxScale
    ensures ZoomOut(ZoomIn(ix)) == ix
  {
  }

  /** The reset-view button. */
  function ResetZoom(ix: Interaction): (r: Interaction)
    requires Valid(ix)
    ensures Valid(r) && r.scale == 1.0
    ensures r == ix.(scale := 1.0)
  {
    ix.(scale := 1.0)
  }

  // ---------------------------------------------------------------------
  // Rubber-band selection
  // ---------------------------------------------------------------------

  function Min(a: real, b: real): real {
    if a <= b then a else b
  }

  function Max(a: real, b: real): real {
    if a <= b then b else a
  }

  function Abs(a: real): real {
    if a < 0.0 then -a else a
  }

  /** The rectangle spanned by two corners, whichever way the pointer was dragged. */
  function NormalizeRect(a: Point, b: Point): (r: Rect)
    ensures r.w >= 0.0 && r.h >= 0.0
    ensures r.x == a.x || r.x == b.x
    ensures r.y == a.y || r.y == b.y
    ensures r.x <= a.x <= r.x + r.w && r.x <= b.x <= r.x + r.w
    ensures r.y <= a.y <= r.y + r.h && r.y <= b.y <= r.y + r.h
    ensures r.x + r.w == Max(a.x, b.x) && r.y + r.h == Max(a.y, b.y)
  {
    Rect(Min(a.x, b.x), Min(a.y, b.y), Abs(b.x - a.x), Abs(b.y - a.y))
  }

  lemma NormalizeRectSymmetric(a: Point, b: Point)
    ensures NormalizeRect(a, b) == NormalizeRect(b, a)
  {
  }

  /** The overlap test: a card is hit unless it lies strictly outside the band on some axis. */
  predicate Intersects(card: Rect, sel: Rect) {
    !(card.x + card.w < sel.x || card.x > sel.x + sel.w || card.y + card.h < sel.y || card.y > sel.y + sel.h)
  }

  predicate InRect(p: Point, r: Rect) {
    r.x <= p.x <= r.x + r.w && r.y <= p.y <= r.y + r.h
  }

  /**
   * For rectangles of non-negative size the test holds exactly when the
   * two closed rectangles share a point, so touching edges count.
   */
  lemma IntersectsIffCommonPoint(card: Rect, sel: Rect)
    requires card.w >= 0.0 && card.h >= 0.0 && sel.w >= 0.0 && sel.h >= 0.0
    ensures Intersects(card, sel) <==> exists p :: InRect(p, card) && InRect(p, sel)
  {
    if Intersects(card, sel) {
      var p := Point(if card.x >= sel.x then card.x else sel.x, if card.y >= sel.y then card.y else sel.y);
      assert InRect(p, card) && InRect(p, sel);
    }
  }

  /** A card's rectangle: its rendered position and its measured size. */
  function CardRect(cards: map<string, Point>, size: string -> Size, id: string): Rect
    requires id in cards
  {
    Rect(cards[id].x, cards[id].y, size(id).w, size(id).h)
  }

  /** The nodes whose cards the band touches (`highlightNodesInSelection`). */
  function Hits(doc: Doc, cards: map<string, Point>, size: string -> Size, sel: Rect): (r: set<string>)
    ensures forall id :: id in r <==> id in doc.nodes && id in cards && Intersects(CardRect(cards, size, id), sel)
  {
    set id | id in doc.nodes && id in cards && Intersects(CardRect(cards, size, id), sel)
  }

  /**
   * `finalizeSelection(end)`: adds every node the band from the selection
   * start to `end` touches. It only ever adds.
   */
  function FinalizeSelection(ui: Ui, start: Option<Point>, doc: Doc, cards: map<string, Point>, size: string -> Size, end: Point): (r: Ui)
    ensures ui.selected <= r.selected
    ensures start.None? ==> r == ui
    ensures start.Some? ==> forall id :: id in r.selected <==>
              id in ui.selected || (id in doc.nodes && id in cards && Intersects(CardRect(cards, size, id), NormalizeRect(start.value, end)))
    ensures r == ui.(selected := r.selected)
  {
    if start.None? then ui
    else ui.(selected := ui.selected + Hits(doc, cards, size, NormalizeRect(start.value, end)))
  }

  /** `clearSelection()`. */
  function ClearSelection(ui: Ui): (r: Ui)
    ensures r.selected == {} && r == ui.(selected := {})
  {
    ui.(selected := {})
  }

  /** `selectAllNodes()`: adds every node of the diagram. */
  function SelectAll(ui: Ui, doc: Doc): (r: Ui)
    ensures r.selected == ui.selected + doc.nodes.Keys
    ensures r == ui.(selected := r.selected)
  {
    ui.(selected := ui.selected + doc.nodes.Keys)
  }

  // ---------------------------------------------------------------------
  // Pointer handlers
  // ---------------------------------------------------------------------

  /** `pointers.findIndex(p => p.pointerId === id)`, with `|ps|` standing for -1. */
  function PointerIndex(ps: seq<Pointer>, id: int): (i: nat)
    ensures i <= |ps|
    ensures i < |ps| ==> ps[i].id == id
    ensures forall j :: 0 <= j < i ==> ps[j].id != id
  {
    if |ps| == 0 then 0 else if ps[0].id == id then 0 else 1 + PointerIndex(ps[1..], id)
  }

  /**
   * `onPointerDown`: ignored on card controls and service widgets and in
   * connection mode. Otherwise the pointer is recorded, the start position
   * reset, and the first pointer chooses the mode from what it hit; a
   * second pointer starts a pinch.
   */
  function PointerDown(ed: Editor, e: PointerEvent, hypot: (real, real) -> real): (r: Editor)
    requires Valid(ed.ix)
    ensures Valid(r.ix)
    ensures r.doc == ed.doc && r.history == ed.history && r.cards == ed.cards && r.view == ed.view
    ensures r.ui.methodFilter == ed.ui.methodFilter && r.ui.modalNode == ed.ui.modalNode
  {
    if e.target.CardControl? || e.target.ServiceWidget? || ed.ui.connectionMode then ed
    else
      var ps := ed.ix.pointers + [Pointer(e.pointerId, e.clientX, e.clientY)];
      var ix := ed.ix.(pointers := ps, startPos := Point(e.clientX, e.clientY), hasMoved := false);
      if |ps| == 1 then
        if e.target.CardBody? then
          var id := e.target.card;
          if id in ed.ui.selected then
            ed.(ix := ix.(mode := PotentialMultiDrag, target := Some(id)))
          else if e.shift then
            ed.(ui := ed.ui.(selected := ed.ui.selected + {id}), ix := ix.(mode := PotentialMultiDrag, target := Some(id)))
          else
            ed.(ui := ClearSelection(ed.ui), ix := ix.(mode := PotentialDrag, target := Some(id)))
        else
          var ui := if e.shift then ed.ui else ClearSelection(ed.ui);
          if e.button == 2 then
            var start := ChartPoint(ed.view, ed.ix.scale, e.clientX, e.clientY);
            ed.(ui := ui, ix := ix.(selectionStart := Some(start), mode := Selecting))
          else
            ed.(ui := ui, ix := ix.(mode := Panning))
      else if |ps| == 2 then
        ed.(ix := ix.(mode := Zooming, lastDist := hypot(ps[0].clientX - ps[1].clientX, ps[0].clientY - ps[1].clientY)))
      else
        ed.(ix := ix)
  }

  /** The mode chosen by the first pointer, as a relation over the event and the prior selection. */
  lemma PointerDownModes(ed: Editor, e: PointerEvent, hypot: (real, real) -> real)
    requires Valid(ed.ix) && |ed.ix.pointers| == 0
    requires !ed.ui.connectionMode && (e.target.CardBody? || e.target.Background?)
    ensures var r := PointerDown(ed, e, hypot);
      && |r.ix.pointers| == 1 && r.ix.startPos == Point(e.clientX, e.clientY) && !r.ix.hasMoved
      && (e.target.CardBody? && e.target.card in ed.ui.selected ==>
            r.ix.mode == PotentialMultiDrag && r.ix.target == Some(e.target.card) && r.ui.selected == ed.ui.selected)
      && (e.target.CardBody? && e.target.card !in ed.ui.selected && e.shift ==>
            r.ix.mode == PotentialMultiDrag && r.ix.target == Some(e.target.card) && r.ui.selected == ed.ui.selected + {e.target.card})
      && (e.target.CardBody? && e.target.card !in ed.ui.selected && !e.shift ==>
            r.ix.mode == PotentialDrag && r.ix.target == Some(e.target.card) && r.ui.selected == {})
      && (e.target.Background? && e.button == 2 ==> r.ix.mode == Selecting)
      && (e.target.Background? && e.button != 2 ==> r.ix.mode == Panning)
      && (e.target.Background? ==> r.ui.selected == (if e.shift then ed.ui.selected else {}))
  {
  }

  /** A second pointer always starts a pinch, measured from the first. */
  lemma SecondPointerZooms(ed: Editor, e: PointerEvent, hypot: (real, real) -> real)
    requires Valid(ed.ix) && |ed.ix.pointers| == 1
    requires !ed.ui.connectionMode && (e.target.CardBody? || e.target.Background?)
    ensures PointerDown(ed, e, hypot).ix.mode == Zooming
    ensures PointerDown(ed, e, hypot).ix.lastDist
         == hypot(ed.ix.pointers[0].clientX - e.clientX, ed.ix.pointers[0].clientY - e.clientY)
  {
  }

  /** Whether a pointer at (x, y) has left the threshold circle around the press position. */
  predicate Crossed(start: Point, x: real, y: real) {
    (x - start.x) * (x - start.x) + (y - start.y) * (y - start.y) > DragThreshold * DragThreshold
  }

  /** The undo label of a drag that begins from `mode`. */
  function MoveLabel(mode: Mode): string {
    if mode == PotentialDrag then "Move node" else "Move nodes"
  }

  /**
   * The threshold step of `onPointerMove`: the first time the pointer leaves
   * the threshold circle `hasMoved` flips, and a pending drag becomes a real
   * one after exactly one undo snapshot of the diagram.
   */
  function CrossThreshold(ed: Editor, e: PointerEvent): (r: Editor)
    requires Valid(ed.ix)
    ensures r.doc == ed.doc && r.ui == ed.ui && r.cards == ed.cards && r.view == ed.view && r.preview == ed.preview
    ensures r.ix == ed.ix || (!ed.ix.hasMoved && r.ix.hasMoved && Crossed(ed.ix.startPos, e.clientX, e.clientY))
    ensures ed.ix.mode in {PotentialDrag, PotentialMultiDrag} && Crossed(ed.ix.startPos, e.clientX, e.clientY) ==>
              && r.history == History.SaveState(ed.history, ed.doc, MoveLabel(ed.ix.mode), e.now)
              && r.ix.mode == (if ed.ix.mode == PotentialDrag then DraggingCard else DraggingMulti)
    ensures !(ed.ix.mode in {PotentialDrag, PotentialMultiDrag} && Crossed(ed.ix.startPos, e.clientX, e.clientY)) ==>
              r.history == ed.history && r.ix.mode == ed.ix.mode
    ensures r.ix.pointers == ed.ix.pointers && r.ix.scale == ed.ix.scale && r.ix.target == ed.ix.target
    ensures r.ix.selectionStart == ed.ix.selectionStart && r.ix.startPos == ed.ix.startPos && r.ix.lastDist == ed.ix.lastDist
    ensures ed.ix.hasMoved ==> r.ix.hasMoved
  {
    if ed.ix.hasMoved || !Crossed(ed.ix.startPos, e.clientX, e.clientY) then ed
    else if ed.ix.mode == PotentialDrag then
      ed.(ix := ed.ix.(hasMoved := true, mode := DraggingCard),
          history := History.SaveState(ed.history, ed.doc, "Move node", e.now))
    else if ed.ix.mode == PotentialMultiDrag then
      ed.(ix := ed.ix.(hasMoved := true, mode := DraggingMulti),
          history := History.SaveState(ed.history, ed.doc, "Move nodes", e.now))
    else
      ed.(ix := ed.ix.(hasMoved := true))
  }

  /** Shifts the cards named in `ids` by (dx, dy); the others stay where they are. */
  function MoveCards(cards: map<string, Point>, ids: set<string>, dx: real, dy: real): (r: map<string, Point>)
    ensures r.Keys == cards.Keys
    ensures forall id :: id in r ==> r[id] == (if id in ids then Point(cards[id].x + dx, cards[id].y + dy) else cards[id])
  {
    map id | id in cards :: if id in ids then Point(cards[id].x + dx, cards[id].y + dy) else cards[id]
  }

  /**
   * `onPointerMove` for a pointer this handler tracks. Movement deltas are
   * in client pixels, card positions in chart units, hence the division by
   * the scale.
   */
  function PointerMove(ed: Editor, e: PointerEvent, size: string -> Size, hypot: (real, real) -> real): (r: Editor)
    requires Valid(ed.ix)
    ensures Valid(r.ix)
    ensures r.doc == ed.doc && r.ui == ed.ui
    ensures r.history == ed.history
         || (ed.ix.mode in {PotentialDrag, PotentialMultiDrag} && r.ix.hasMoved
             && r.history == History.SaveState(ed.history, ed.doc, MoveLabel(ed.ix.mode), e.now))
    ensures ed.ix.hasMoved ==> r.ix.hasMoved && r.history == ed.history
    ensures |r.ix.pointers| == |ed.ix.pointers|
  {
    var i := PointerIndex(ed.ix.pointers, e.pointerId);
    if i == |ed.ix.pointers| then ed
    else
      var last := ed.ix.pointers[i];
      var mx := e.clientX - last.clientX;
      var my := e.clientY - last.clientY;
      var ed0 := ed.(ix := ed.ix.(pointers := ed.ix.pointers[i := Pointer(e.pointerId, e.clientX, e.clientY)]));
      var ed1 := CrossThreshold(ed0, e);
      MoveEffect(ed1, e, mx, my, size, hypot)
  }

  /** The mode-specific effect of a move, after the threshold step. */
  function MoveEffect(ed: Editor, e: PointerEvent, mx: real, my: real, size: string -> Size, hypot: (real, real) -> real): (r: Editor)
    requires Valid(ed.ix)
    ensures Valid(r.ix)
    ensures r.doc == ed.doc && r.ui == ed.ui && r.history == ed.history
    ensures r.ix == ed.ix.(scale := r.ix.scale, lastDist := r.ix.lastDist)
    ensures ed.ix.mode != Zooming ==> r.ix == ed.ix
    ensures ed.ix.mode == DraggingCard ==>
              r.cards == MoveCards(ed.cards, {ed.ix.target.value}, mx / ed.ix.scale, my / ed.ix.scale)
    ensures ed.ix.mode == DraggingMulti ==>
              r.cards == MoveCards(ed.cards, ed.ui.selected, mx / ed.ix.scale, my / ed.ix.scale)
    ensures !(ed.ix.mode in {DraggingCard, DraggingMulti}) ==> r.cards == ed.cards
    ensures ed.ix.mode == Panning ==>
              r.view == ed.view.(scrollLeft := ed.view.scrollLeft - mx, scrollTop := ed.view.scrollTop - my)
    ensures ed.ix.mode != Panning ==> r.view == ed.view
    ensures ed.ix.mode == Selecting && ed.ix.hasMoved ==>
              r.preview == Hits(ed.doc, ed.cards, size,
                                NormalizeRect(ed.ix.selectionStart.value, ChartPoint(ed.view, ed.ix.scale, e.clientX, e.clientY)))
    ensures !(ed.ix.mode == Selecting && ed.ix.hasMoved) ==> r.preview == ed.preview
  {
    var ix := ed.ix;
    var s := ix.scale;
    if ix.mode == Zooming && |ix.pointers| == 2 then
      var p1, p2 := ix.pointers[0], ix.pointers[1];
      var nd := hypot(p1.clientX - p2.clientX, p1.clientY - p2.clientY);
      var ns := PinchScale(s, ix.lastDist, nd);
      assert MinScale <= ns <= MaxScale by {
        if ix.lastDist == 0.0 && nd == 0.0 { assert ns == s; }
      }
      ed.(ix := ix.(scale := ns, lastDist := nd))
    else if ix.mode == DraggingCard && ix.target.Some? then
      ed.(cards := MoveCards(ed.cards, {ix.target.value}, mx / s, my / s))
    else if ix.mode == DraggingMulti then
      ed.(cards := MoveCards(ed.cards, ed.ui.selected, mx / s, my / s))
    else if ix.mode == Selecting && ix.hasMoved then
      var here := ChartPoint(ed.view, s, e.clientX, e.clientY);
      ed.(preview := Hits(ed.doc, ed.cards, size, NormalizeRect(ix.selectionStart.value, here)))
    else if ix.mode == Panning then
      ed.(view := ed.view.(scrollLeft := ed.view.scrollLeft - mx, scrollTop := ed.view.scrollTop - my))
    else
      ed
  }

  /** What releasing on a card without moving does, judged by the node's type. */
  function ClickOn(doc: Doc, id: string): (c: Click)
    ensures id !in doc.nodes ==> c == NoClick
    ensures id in doc.nodes && doc.nodes[id].ntype == Method ==> c == ToggleMethod(id)
    ensures id in doc.nodes && doc.nodes[id].ntype == Hub ==> c == NoClick
    ensures id in doc.nodes && !(doc.nodes[id].ntype in {Method, Hub}) ==> c == OpenDetail(id)
  {
    if id !in doc.nodes then NoClick
    else if doc.nodes[id].ntype == Method then ToggleMethod(id)
    else if doc.nodes[id].ntype == Hub then NoClick
    else OpenDetail(id)
  }

  /** Writes the card positions of the nodes in `ids` back into the diagram. */
  function Commit(doc: Doc, cards: map<string, Point>, ids: set<string>): (r: Doc)
    ensures r.connections == doc.connections
    ensures r.nodes.Keys == doc.nodes.Keys
    ensures forall id :: id in r.nodes ==>
              r.nodes[id] == (if id in ids && id in cards then doc.nodes[id].(x := cards[id].x, y := cards[id].y) else doc.nodes[id])
  {
    var nodes := map id | id in doc.nodes ::
      if id in ids && id in cards then doc.nodes[id].(x := cards[id].x, y := cards[id].y) else doc.nodes[id];
    Doc(nodes, doc.connections)
  }

  /**
   * `onPointerUp` (also wired to `pointercancel`): completes a band
   * selection, dispatches a click, commits dragged positions, clears the
   * preview, forgets the pointer, and resets the mode by how many pointers
   * remain.
   */
  function PointerUp(ed: Editor, e: PointerEvent, size: string -> Size): (r: Release)
    requires Valid(ed.ix)
    ensures Valid(r.editor.ix)
    ensures r.editor.history == ed.history && r.editor.cards == ed.cards && r.editor.view == ed.view
    ensures r.editor.preview == {}
  {
    var ix := ed.ix;
    var ui1 := if ix.mode == Selecting && ix.hasMoved
      then FinalizeSelection(ed.ui, ix.selectionStart, ed.doc, ed.cards, size, ChartPoint(ed.view, ix.scale, e.clientX, e.clientY))
      else ed.ui;
    var click := if !ix.hasMoved && ix.target.Some? && !e.target.ServiceWidget? then ClickOn(ed.doc, ix.target.value) else NoClick;
    var ui2 := match click
      case ToggleMethod(m) => ui1.(methodFilter := Filters.FilterByMethod(ui1.methodFilter, m))
      case OpenDetail(n) => ui1.(modalNode := Some(n))
      case NoClick => ui1;
    var doc :=
      if ix.mode == DraggingCard && ix.target.Some? then Commit(ed.doc, ed.cards, {ix.target.value})
      else if ix.mode == DraggingMulti then Commit(ed.doc, ed.cards, ed.ui.selected)
      else ed.doc;
    var i := PointerIndex(ix.pointers, e.pointerId);
    var ps := if i < |ix.pointers| then ix.pointers[..i] + ix.pointers[i + 1..] else ix.pointers;
    var ix2 :=
      if |ps| == 0 then ix.(pointers := ps, mode := Idle, target := None, hasMoved := false, selectionStart := None)
      else if |ps| == 1 then ix.(pointers := ps, mode := Panning, startPos := Point(ps[0].clientX, ps[0].clientY))
      else ix.(pointers := ps);
    Release(ed.(doc := doc, ui := ui2, ix := ix2, preview := {}), click)
  }

  /** Releasing the last pointer returns to idle; releasing one of two pans with the other from where it is. */
  lemma PointerUpResets(ed: Editor, e: PointerEvent, size: string -> Size)
    requires Valid(ed.ix)
    requires exists j :: 0 <= j < |ed.ix.pointers| && ed.ix.pointers[j].id == e.pointerId
    ensures var ix := PointerUp(ed, e, size).editor.ix;
      && |ix.pointers| == |ed.ix.pointers| - 1
      && (|ix.pointers| == 0 ==> ix.mode == Idle && ix.target.None? && !ix.hasMoved)
      && (|ix.pointers| == 1 ==> ix.mode == Panning && ix.startPos == Point(ix.pointers[0].clientX, ix.pointers[0].clientY))
  {
    var i := PointerIndex(ed.ix.pointers, e.pointerId);
    assert i < |ed.ix.pointers|;
  }

  /**
   * Click dispatch: a release without movement on a card body toggles the
   * method filter for a method node, opens the comparison matrix for a node
   * that is neither method nor hub, and does nothing for a hub.
   */
  lemma PointerUpClick(ed: Editor, e: PointerEvent, size: string -> Size, id: string)
    requires Valid(ed.ix) && ed.ix.target == Some(id) && !ed.ix.hasMoved && !e.target.ServiceWidget?
    requires id in ed.doc.nodes
    ensures var r := PointerUp(ed, e, size);
      && (ed.doc.nodes[id].ntype == Method ==>
            r.click == ToggleMethod(id) && r.editor.ui.methodFilter == Filters.FilterByMethod(ed.ui.methodFilter, id))
      && (ed.doc.nodes[id].ntype == Hub ==> r.click == NoClick && r.editor.ui == ed.ui)
      && (!(ed.doc.nodes[id].ntype in {Method, Hub}) ==> r.click == OpenDetail(id) && r.editor.ui.modalNode == Some(id))
      && r.editor.doc == ed.doc
  {
  }

  /** A moved gesture never counts as a click. */
  lemma MovedGestureIsNoClick(ed: Editor, e: PointerEvent, size: string -> Size)
    requires Valid(ed.ix) && ed.ix.hasMoved
    ensures PointerUp(ed, e, size).click == NoClick
  {
  }

  /**
   * Releasing a single-card drag writes that card's position into its node
   * and leaves every other node alone; a multi-drag does so for every
   * selected node.
   */
  lemma ReleaseCommitsDrag(ed: Editor, e: PointerEvent, size: string -> Size)
    requires Valid(ed.ix) && ed.ix.mode in {DraggingCard, DraggingMulti}
    ensures var doc := PointerUp(ed, e, size).editor.doc;
      var moved := if ed.ix.mode == DraggingCard then {ed.ix.target.value} else ed.ui.selected;
      && doc.connections == ed.doc.connections
      && doc.nodes.Keys == ed.doc.nodes.Keys
      && (forall id :: id in doc.nodes && id in moved && id in ed.cards ==>
            doc.nodes[id].x == ed.cards[id].x && doc.nodes[id].y == ed.cards[id].y)
      && (forall id :: id in doc.nodes && !(id in moved && id in ed.cards) ==> doc.nodes[id] == ed.doc.nodes[id])
  {
  }

  /** A band drag's release adds what the band covers and removes nothing. */
  lemma ReleaseFinalizesBand(ed: Editor, e: PointerEvent, size: string -> Size)
    requires Valid(ed.ix) && ed.ix.mode == Selecting && ed.ix.hasMoved
    ensures var sel := NormalizeRect(ed.ix.selectionStart.value, ChartPoint(ed.view, ed.ix.scale, e.clientX, e.clientY));
      forall id :: id in PointerUp(ed, e, size).editor.ui.selected <==>
        id in ed.ui.selected || (id in ed.doc.nodes && id in ed.cards && Intersects(CardRect(ed.cards, size, id), sel))
  {
  }

  // ---------------------------------------------------------------------
  // Drag gestures as event sequences
  // ---------------------------------------------------------------------

  /** Feeds a sequence of move events to `onPointerMove`. */
  function MoveAll(ed: Editor, es: seq<PointerEvent>, size: string -> Size, hypot: (real, real) -> real): (r: Editor)
    requires Valid(ed.ix)
    ensures Valid(r.ix)
    decreases |es|
  {
    if |es| == 0 then ed else MoveAll(PointerMove(ed, es[0], size, hypot), es[1..], size, hypot)
  }

  /**
   * However many moves a gesture makes, the history gains at most one
   * snapshot: either nothing changes, or exactly one `saveState` of the
   * diagram as it was before the gesture, taken at the move that crossed
   * the threshold.
   */
  lemma {:induction false} GestureSavesAtMostOnce(ed: Editor, es: seq<PointerEvent>, size: string -> Size, hypot: (real, real) -> real)
    requires Valid(ed.ix)
    ensures MoveAll(ed, es, size, hypot).doc == ed.doc
    ensures var h := MoveAll(ed, es, size, hypot).history;
      || h == ed.history
      || (&& ed.ix.mode in {PotentialDrag, PotentialMultiDrag} && !ed.ix.hasMoved
          && exists k :: 0 <= k < |es| && h == History.SaveState(ed.history, ed.doc, MoveLabel(ed.ix.mode), es[k].now))
    decreases |es|
  {
    if |es| > 0 {
      var ed1 := PointerMove(ed, es[0], size, hypot);
      GestureSavesAtMostOnce(ed1, es[1..], size, hypot);
      var h := MoveAll(ed, es, size, hypot).history;
      assert MoveAll(ed, es, size, hypot) == MoveAll(ed1, es[1..], size, hypot);
      if ed1.history == ed.history {
        if h != ed.history {
          assert ed1.ix.mode in {PotentialDrag, PotentialMultiDrag} && !ed1.ix.hasMoved;
          assert !ed.ix.hasMoved && ed.ix.mode == ed1.ix.mode by {
            PointerMoveKeepsPendingMode(ed, es[0], size, hypot);
          }
          var k :| 0 <= k < |es[1..]| && h == History.SaveState(ed.history, ed.doc, MoveLabel(ed1.ix.mode), es[1..][k].now);
          assert es[1..][k] == es[k + 1];
        }
      } else {
        assert ed1.ix.hasMoved;
        MovesAfterCrossingKeepHistory(ed1, es[1..], size, hypot);
        assert h == ed1.history;
        assert h == History.SaveState(ed.history, ed.doc, MoveLabel(ed.ix.mode), es[0].now);
      }
    }
  }

  /** A move that leaves a pending drag pending did not cross the threshold, so nothing had moved before it either. */
  lemma PointerMoveKeepsPendingMode(ed: Editor, e: PointerEvent, size: string -> Size, hypot: (real, real) -> real)
    requires Valid(ed.ix)
    requires PointerMove(ed, e, size, hypot).ix.mode in {PotentialDrag, PotentialMultiDrag}
    ensures !ed.ix.hasMoved && ed.ix.mode == PointerMove(ed, e, size, hypot).ix.mode
  {
  }

  /** Once the threshold has been crossed, further moves never touch the history. */
  lemma {:induction false} MovesAfterCrossingKeepHistory(ed: Editor, es: seq<PointerEvent>, size: string -> Size, hypot: (real, real) -> real)
    requires Valid(ed.ix) && ed.ix.hasMoved
    ensures MoveAll(ed, es, size, hypot).history == ed.history
    ensures MoveAll(ed, es, size, hypot).doc == ed.doc
    decreases |es|
  {
    if |es| > 0 {
      MovesAfterCrossingKeepHistory(PointerMove(ed, es[0], size, hypot), es[1..], size, hypot);
    }
  }

  /** A gesture that stays inside the threshold circle never snapshots and never moves a card. */
  lemma {:induction false} SmallGestureChangesNothing(ed: Editor, es: seq<PointerEvent>, size: string -> Size, hypot: (real, real) -> real)
    requires Valid(ed.ix) && ed.ix.mode in {PotentialDrag, PotentialMultiDrag}
    requires forall k :: 0 <= k < |es| ==> !Crossed(ed.ix.startPos, es[k].clientX, es[k].clientY)
    ensures MoveAll(ed, es, size, hypot).history == ed.history
    ensures MoveAll(ed, es, size, hypot).cards == ed.cards
    ensures MoveAll(ed, es, size, hypot).ix.mode == ed.ix.mode
    ensures MoveAll(ed, es, size, hypot).ix.startPos == ed.ix.startPos
    decreases |es|
  {
    if |es| > 0 {
      var ed1 := PointerMove(ed, es[0], size, hypot);
      assert ed1.history == ed.history && ed1.cards == ed.cards && ed1.ix.mode == ed.ix.mode && ed1.ix.startPos == ed.ix.startPos;
      SmallGestureChangesNothing(ed1, es[1..], size, hypot);
      assert forall k :: 0 <= k < |es[1..]| ==> es[1..][k] == es[k + 1];
    }
  }

  // ---------------------------------------------------------------------
  // Keyboard
  // ---------------------------------------------------------------------

  datatype Key = ArrowUp | ArrowDown | ArrowLeft | ArrowRight | Escape | Letter(c: char) | OtherKey

  /** Applies undo or redo and re-renders the cards when it succeeded. */
  function ApplyStep(ed: Editor, step: History.Step): (r: Editor)
    ensures step.ok ==> r == ed.(history := step.history, doc := step.doc, cards := Render(step.doc))
    ensures !step.ok ==> r == ed
  {
    if step.ok then ed.(history := step.history, doc := step.doc, cards := Render(step.doc)) else ed
  }

  /**
   * `onKeyDown`: arrows scroll by `KEYBOARD_SCROLL_SPEED`, Escape clears
   * the selection, and with Ctrl or Meta held A selects all, Z undoes and
   * Y redoes. `modifier` is `ctrlKey || metaKey`.
   */
  function KeyDown(ed: Editor, key: Key, modifier: bool, now: int): (r: Editor)
    ensures r.ix == ed.ix
    ensures key == ArrowUp ==> r == ed.(view := ed.view.(scrollTop := ed.view.scrollTop - KeyboardScrollSpeed))
    ensures key == ArrowDown ==> r == ed.(view := ed.view.(scrollTop := ed.view.scrollTop + KeyboardScrollSpeed))
    ensures key == ArrowLeft ==> r == ed.(view := ed.view.(scrollLeft := ed.view.scrollLeft - KeyboardScrollSpeed))
    ensures key == ArrowRight ==> r == ed.(view := ed.view.(scrollLeft := ed.view.scrollLeft + KeyboardScrollSpeed))
    ensures key == Escape ==> r == ed.(ui := ClearSelection(ed.ui))
    ensures key in {Letter('a'), Letter('A')} && modifier ==> r == ed.(ui := SelectAll(ed.ui, ed.doc))
    ensures key in {Letter('z'), Letter('Z')} && modifier ==> r == ApplyStep(ed, History.Undo(ed.history, ed.doc, now))
    ensures key in {Letter('y'), Letter('Y')} && modifier ==> r == ApplyStep(ed, History.Redo(ed.history, ed.doc, now))
    ensures key.Letter? && !modifier ==> r == ed
    ensures key.Letter? && key.c !in {'a', 'A', 'z', 'Z', 'y', 'Y'} ==> r == ed
    ensures key == OtherKey ==> r == ed
  {
    match key
    case ArrowUp => ed.(view := ed.view.(scrollTop := ed.view.scrollTop - KeyboardScrollSpeed))
    case ArrowDown => ed.(view := ed.view.(scrollTop := ed.view.scrollTop + KeyboardScrollSpeed))
    case ArrowLeft => ed.(view := ed.view.(scrollLeft := ed.view.scrollLeft - KeyboardScrollSpeed))
    case ArrowRight => ed.(view := ed.view.(scrollLeft := ed.view.scrollLeft + KeyboardScrollSpeed))
    case Escape => ed.(ui := ClearSelection(ed.ui))
    case Letter(c) =>
      if !modifier then ed
      else if c == 'a' || c == 'A' then ed.(ui := SelectAll(ed.ui, ed.doc))
      else if c == 'z' || c == 'Z' then ApplyStep(ed, History.Undo(ed.history, ed.doc, now))
      else if c == 'y' || c == 'Y' then ApplyStep(ed, History.Redo(ed.history, ed.doc, now))
      else ed
    case OtherKey => ed
  }

  /** Opposite arrow keys cancel out. */
  lemma ArrowKeysCancel(ed: Editor, now: int)
    ensures KeyDown(KeyDown(ed, ArrowUp, false, now), ArrowDown, false, now) == ed
    ensures KeyDown(KeyDown(ed, ArrowLeft, false, now), ArrowRight, false, now) == ed
  {
  }

  /**
   * A drag followed by Ctrl+Z puts the diagram back as it was before the
   * drag: the threshold snapshot is what undo restores.
   */
  lemma DragThenUndoRestores(ed: Editor, e: PointerEvent, size: string -> Size, hypot: (real, real) -> real, release: PointerEvent, now: int)
    requires Valid(ed.ix) && ed.ix.mode in {PotentialDrag, PotentialMultiDrag}
    requires PointerIndex(ed.ix.pointers, e.pointerId) < |ed.ix.pointers|
    requires Crossed(ed.ix.startPos, e.clientX, e.clientY)
    ensures var moved := PointerMove(ed, e, size, hypot);
      var released := PointerUp(moved, release, size).editor;
      KeyDown(released, Letter('z'), true, now).doc == ed.doc
  {
    var moved := PointerMove(ed, e, size, hypot);
    assert moved.history == History.SaveState(ed.history, ed.doc, MoveLabel(ed.ix.mode), e.now);
    var released := PointerUp(moved, release, size).editor;
    History.SaveMutateUndo(ed.history, ed.doc, released.doc, MoveLabel(ed.ix.mode), e.now, now);
  }
}

=== FILE: connections.dfy ===
/**
 * The connection builder and connection-list operations of
 * js/connections.js: the one-shot connect mode, (from, to) de-duplication,
 * delete by id, "connect all" from a clicked node, anchor coordinates and
 * the Bezier geometry of the rendered lines.
 *
 * Which card or connection point a pointer lands on is an input; so are the
 * identifiers `generateId('c')` would produce.
 */
module Connections {
  import opened Basics
  import opened Store
  import Geometry
  import Canvas

  /** A connection point: the card it belongs to and its `data-pos` side. */
  datatype Anchor = Anchor(card: string, pos: Side)

  /** The builder's fields: `connectionMode`, `connectionStart`, and whether a temp line exists. */
  datatype Builder = Builder(mode: bool, start: Option<Anchor>, tempLine: bool)

  const InitialBuilder := Builder(false, None, false)

  /** The builder's flag is mirrored into `AppState.ui.connectionMode`, and a pending start implies the mode is on. */
  predicate Consistent(b: Builder, ui: Ui) {
    b.mode == ui.connectionMode && (b.start.Some? ==> b.mode)
  }

  datatype Toggled = Toggled(builder: Builder, ui: Ui)

  /** `toggleConnectionMode()`: flips the mode, mirrors it into the UI state, and cleans up when switching off. */
  function ToggleConnectionMode(b: Builder, ui: Ui): (r: Toggled)
    ensures r.builder.mode == !b.mode && r.ui.connectionMode == r.builder.mode
    ensures r.ui == ui.(connectionMode := r.builder.mode)
    ensures !r.builder.mode ==> r.builder.start.None? && !r.builder.tempLine
    ensures r.builder.mode ==> r.builder == b.(mode := true)
    ensures Consistent(r.builder, r.ui)
  {
    var on := !b.mode;
    var b1 := if on then b.(mode := true) else Builder(false, None, false);
    Toggled(b1, ui.(connectionMode := on))
  }

  /** Toggling twice from a consistent resting state comes back to it. */
  lemma ToggleTwice(b: Builder, ui: Ui)
    requires Consistent(b, ui) && b.start.None? && !b.tempLine
    ensures var t := ToggleConnectionMode(b, ui);
      ToggleConnectionMode(t.builder, t.ui) == Toggled(b, ui)
  {
  }

  /**
   * `startConnection(e)` on a connection point: ignored unless connection
   * mode is on, or when the point is not inside a card (`card` is `None`);
   * otherwise records the start and creates the temp line.
   */
  function StartConnection(b: Builder, card: Option<string>, pos: Side): (r: Builder)
    ensures !b.mode ==> r == b
    ensures b.mode && card.None? ==> r == b
    ensures b.mode && card.Some? ==> r == b.(start := Some(Anchor(card.value, pos)), tempLine := true)
    ensures r.mode == b.mode
  {
    if !b.mode || card.None? then b
    else b.(start := Some(Anchor(card.value, pos)), tempLine := true)
  }

  datatype Ended = Ended(connections: seq<Connection>, builder: Builder, ui: Ui)

  /** Whether a drag from `start` released on `drop` yields a new connection. */
  predicate Adds(conns: seq<Connection>, start: Option<Anchor>, drop: Option<Anchor>) {
    start.Some? && drop.Some? && drop.value.card != start.value.card && !HasEdge(conns, start.value.card, drop.value.card)
  }

  /**
   * `endConnection(e)`, the one-shot pointer-up after a start: `drop` is the
   * connection point released on (`None` when the pointer was released
   * anywhere else). Adds one connection when there is a start, the drop is
   * on a different card, and no connection with that (from, to) exists;
   * then always clears the start and the temp line and leaves connection
   * mode.
   */
  function EndConnection(conns: seq<Connection>, b: Builder, ui: Ui, drop: Option<Anchor>, newId: string): (r: Ended)
    ensures Adds(conns, b.start, drop) ==>
              r.connections == conns + [Connection(newId, b.start.value.card, drop.value.card, Some(b.start.value.pos), Some(drop.value.pos))]
    ensures !Adds(conns, b.start, drop) ==> r.connections == conns
    ensures r.builder == InitialBuilder
    ensures b.mode ==> r.ui == ui.(connectionMode := false)
    ensures !b.mode ==> r.ui == ui
    ensures Consistent(b, ui) ==> Consistent(r.builder, r.ui)
  {
    var conns1 :=
      if Adds(conns, b.start, drop)
      then conns + [Connection(newId, b.start.value.card, drop.value.card, Some(b.start.value.pos), Some(drop.value.pos))]
      else conns;
    var cleaned := b.(start := None, tempLine := false);
    if cleaned.mode then
      var t := ToggleConnectionMode(cleaned, ui);
      Ended(conns1, t.builder, t.ui)
    else
      Ended(conns1, cleaned, ui)
  }

  /** No two connections share the same (from, to). */
  predicate UniqueEdges(conns: seq<Connection>) {
    forall i, j :: 0 <= i < j < |conns| ==> !(conns[i].from == conns[j].from && conns[i].to == conns[j].to)
  }

  /** `endConnection` never introduces a second connection with the same (from, to), and never a self-loop. */
  lemma EndConnectionKeepsEdgesUnique(conns: seq<Connection>, b: Builder, ui: Ui, drop: Option<Anchor>, newId: string)
    requires UniqueEdges(conns)
    ensures UniqueEdges(EndConnection(conns, b, ui, drop, newId).connections)
    ensures forall i :: |conns| <= i < |EndConnection(conns, b, ui, drop, newId).connections| ==>
              EndConnection(conns, b, ui, drop, newId).connections[i].from != EndConnection(conns, b, ui, drop, newId).connections[i].to
  {
    var r := EndConnection(conns, b, ui, drop, newId).connections;
    if Adds(conns, b.start, drop) {
      forall i, j | 0 <= i < j < |r|
        ensures !(r[i].from == r[j].from && r[i].to == r[j].to)
      {
        if j == |conns| {
          assert r[i] == conns[i];
          assert !(conns[i].from == b.start.value.card && conns[i].to == drop.value.card);
        }
      }
    }
  }

  /** A→B does not block B→A: the reverse of an existing connection can still be drawn. */
  lemma ReverseEdgeAllowed(conns: seq<Connection>, b: Builder, ui: Ui, drop: Option<Anchor>, newId: string)
    requires UniqueEdges(conns)
    requires b.start.Some? && drop.Some? && b.start.value.card != drop.value.card
    requires HasEdge(conns, drop.value.card, b.start.value.card)
    requires !HasEdge(conns, b.start.value.card, drop.value.card)
    ensures |EndConnection(conns, b, ui, drop, newId).connections| == |conns| + 1
  {
  }

  /** Starting on one card and releasing on a point of another, not yet linked, card adds exactly that connection and ends the mode. */
  lemma StartThenEndAdds(conns: seq<Connection>, ui: Ui, from: string, fromPos: Side, to: Anchor, newId: string)
    requires ui.connectionMode && from != to.card && !HasEdge(conns, from, to.card)
    ensures var b := StartConnection(Builder(true, None, false), Some(from), fromPos);
      var r := EndConnection(conns, b, ui, Some(to), newId);
      && r.connections == conns + [Connection(newId, from, to.card, Some(fromPos), Some(to.pos))]
      && !r.ui.connectionMode && r.builder == InitialBuilder
  {
  }

  /**
   * `getCoords(card, pos)`: the point on the card's rectangle for an anchor
   * side; any other `pos` string (`None` here) gives the top-left corner.
   */
  function GetCoords(card: Rect, pos: Option<Side>): (p: Point)
    ensures pos == Some(Top) ==> p == Point(card.x + card.w / 2.0, card.y)
    ensures pos == Some(Bottom) ==> p == Point(card.x + card.w / 2.0, card.y + card.h)
    ensures pos == Some(Left) ==> p == Point(card.x, card.y + card.h / 2.0)
    ensures pos == Some(Right) ==> p == Point(card.x + card.w, card.y + card.h / 2.0)
    ensures pos.None? ==> p == Point(card.x, card.y)
  {
    match pos
    case None => Point(card.x, card.y)
    case Some(side) =>
      match side
      case Top => Point(card.x + card.w / 2.0, card.y)
      case Bottom => Point(card.x + card.w / 2.0, card.y + card.h)
      case Left => Point(card.x, card.y + card.h / 2.0)
      case Right => Point(card.x + card.w, card.y + card.h / 2.0)
  }

  /**
   * For a card rendered at its node's position with its node's width and
   * type-derived height, the measured anchors agree with
   * `getConnectionPoints`.
   */
  lemma GetCoordsAgreesWithConnectionPoints(n: Node)
    ensures var card := Rect(n.x, n.y, n.width, Geometry.Height(n.ntype));
      var a := Geometry.ConnectionPoints(n);
      && GetCoords(card, Some(Top)) == a.top
      && GetCoords(card, Some(Bottom)) == a.bottom
      && GetCoords(card, Some(Left)) == a.left
      && GetCoords(card, Some(Right)) == a.right
  {
  }

  /** `deleteConnection(id)`: drops every connection carrying that id and keeps the rest in order. */
  function DeleteConnection(conns: seq<Connection>, id: string): (r: seq<Connection>)
    ensures forall i :: 0 <= i < |r| ==> r[i].id != id && r[i] in conns
    ensures forall c :: c in conns && c.id != id ==> c in r
    ensures |r| <= |conns|
    ensures Subsequence(r, conns)
  {
    Filter(conns, (c: Connection) => c.id != id)
  }

  /** Deleting a connection that was just appended under a fresh id gives back the list before the append. */
  lemma {:induction false} DeleteUndoesAppend(conns: seq<Connection>, c: Connection)
    requires forall i :: 0 <= i < |conns| ==> conns[i].id != c.id
    ensures DeleteConnection(conns + [c], c.id) == conns
  {
    var p := (x: Connection) => x.id != c.id;
    FilterAppend(conns, [c], p);
    FilterAll(conns, p);
  }

  /** Deleting is idempotent. */
  lemma DeleteIdempotent(conns: seq<Connection>, id: string)
    ensures DeleteConnection(DeleteConnection(conns, id), id) == DeleteConnection(conns, id)
  {
    var r := DeleteConnection(conns, id);
    FilterAll(r, (c: Connection) => c.id != id);
  }

  /**
   * The body of connect-all's click handler: for each node id in key order,
   * other than the clicked `target`, add `target → id` with bottom/top
   * anchors unless that connection already exists. `ids(k)` is the id
   * generated for the k-th added connection, counting from `next`.
   */
  function ConnectAll(conns: seq<Connection>, target: string, order: seq<string>, ids: nat -> string, next: nat): (r: seq<Connection>)
    ensures |conns| <= |r| && r[..|conns|] == conns
    ensures forall i :: |conns| <= i < |r| ==>
              r[i].from == target && r[i].to != target && r[i].to in order
              && r[i].fromPos == Some(Bottom) && r[i].toPos == Some(Top)
    decreases |order|
  {
    if |order| == 0 then conns
    else
      var n := order[0];
      if n != target && !HasEdge(conns, target, n) then
        ConnectAll(conns + [Connection(ids(next), target, n, Some(Bottom), Some(Top))], target, order[1..], ids, next + 1)
      else
        ConnectAll(conns, target, order[1..], ids, next)
  }

  lemma HasEdgeGrows(conns: seq<Connection>, more: seq<Connection>, from: string, to: string)
    requires HasEdge(conns, from, to)
    ensures HasEdge(conns + more, from, to)
  {
    var i :| 0 <= i < |conns| && conns[i].from == from && conns[i].to == to;
    assert (conns + more)[i] == conns[i];
  }

  /** Connect-all only appends, so a connection present before is present after. */
  lemma ConnectAllKeepsEdge(conns: seq<Connection>, target: string, order: seq<string>, ids: nat -> string, next: nat, from: string, to: string)
    requires HasEdge(conns, from, to)
    ensures HasEdge(ConnectAll(conns, target, order, ids, next), from, to)
  {
    var r := ConnectAll(conns, target, order, ids, next);
    var i :| 0 <= i < |conns| && conns[i].from == from && conns[i].to == to;
    assert r[i] == r[..|conns|][i] == conns[i];
  }

  lemma {:induction false} ConnectAllCoversOne(conns: seq<Connection>, target: string, order: seq<string>, ids: nat -> string, next: nat, n: string)
    requires n in order && n != target
    ensures HasEdge(ConnectAll(conns, target, order, ids, next), target, n)
    decreases |order|
  {
    var m := order[0];
    if m != target && !HasEdge(conns, target, m) {
      var c1 := conns + [Connection(ids(next), target, m, Some(Bottom), Some(Top))];
      if m == n {
        assert c1[|conns|].from == target && c1[|conns|].to == n;
        ConnectAllKeepsEdge(c1, target, order[1..], ids, next + 1, target, n);
      } else {
        ConnectAllCoversOne(c1, target, order[1..], ids, next + 1, n);
      }
    } else if m == n {
      ConnectAllKeepsEdge(conns, target, order[1..], ids, next, target, n);
    } else {
      ConnectAllCoversOne(conns, target, order[1..], ids, next, n);
    }
  }

  /** Afterwards every other node in `order` has a connection from the target. */
  lemma ConnectAllCovers(conns: seq<Connection>, target: string, order: seq<string>, ids: nat -> string, next: nat)
    ensures forall n :: n in order && n != target ==> HasEdge(ConnectAll(conns, target, order, ids, next), target, n)
  {
    forall n | n in order && n != target
      ensures HasEdge(ConnectAll(conns, target, order, ids, next), target, n)
    {
      ConnectAllCoversOne(conns, target, order, ids, next, n);
    }
  }

  /** When every other node is already linked from the target, connect-all adds nothing. */
  lemma {:induction false} ConnectAllSaturated(conns: seq<Connection>, target: string, order: seq<string>, ids: nat -> string, next: nat)
    requires forall n :: n in order && n != target ==> HasEdge(conns, target, n)
    ensures ConnectAll(conns, target, order, ids, next) == conns
    decreases |order|
  {
    if |order| > 0 {
      ConnectAllSaturated(conns, target, order[1..], ids, next);
    }
  }

  /** Running connect-all on the same target a second time adds nothing. */
  lemma ConnectAllIdempotent(conns: seq<Connection>, target: string, order: seq<string>, ids: nat -> string, next: nat, ids2: nat -> string, next2: nat)
    ensures var once := ConnectAll(conns, target, order, ids, next);
      ConnectAll(once, target, order, ids2, next2) == once
  {
    var once := ConnectAll(conns, target, order, ids, next);
    ConnectAllCovers(conns, target, order, ids, next);
    ConnectAllSaturated(once, target, order, ids2, next2);
  }

  /** Connect-all keeps (from, to) pairs unique. */
  lemma {:induction false} ConnectAllKeepsEdgesUnique(conns: seq<Connection>, target: string, order: seq<string>, ids: nat -> string, next: nat)
    requires UniqueEdges(conns)
    ensures UniqueEdges(ConnectAll(conns, target, order, ids, next))
    decreases |order|
  {
    if |order| > 0 {
      var n := order[0];
      if n != target && !HasEdge(conns, target, n) {
        var c1 := conns + [Connection(ids(next), target, n, Some(Bottom), Some(Top))];
        forall i, j | 0 <= i < j < |c1|
          ensures !(c1[i].from == c1[j].from && c1[i].to == c1[j].to)
        {
          if j == |conns| {
            assert c1[i] == conns[i];
            assert !(conns[i].from == target && conns[i].to == n);
          }
        }
        ConnectAllKeepsEdgesUnique(c1, target, order[1..], ids, next + 1);
      } else {
        ConnectAllKeepsEdgesUnique(conns, target, order[1..], ids, next);
      }
    }
  }

  /** A cubic Bezier path `M start C c1, c2, end`. */
  datatype Curve = Curve(id: string, start: Point, c1: Point, c2: Point, end: Point)

  /** The anchor side a connection is drawn from, `right` when it has none. */
  function FromSide(c: Connection): Side {
    c.fromPos.GetOr(Right)
  }

  /** The anchor side a connection is drawn to, `left` when it has none. */
  function ToSide(c: Connection): Side {
    c.toPos.GetOr(Left)
  }

  predicate Drawable(cards: map<string, Point>, c: Connection) {
    c.from in cards && c.to in cards
  }

  /**
   * The path of one connection in `renderAll`: from the source anchor to
   * the destination anchor, both control points on the vertical line half
   * way between them.
   */
  function CurveOf(cards: map<string, Point>, size: string -> Size, c: Connection): (r: Curve)
    requires Drawable(cards, c)
    ensures r.id == c.id
    ensures r.start == GetCoords(Canvas.CardRect(cards, size, c.from), Some(FromSide(c)))
    ensures r.end == GetCoords(Canvas.CardRect(cards, size, c.to), Some(ToSide(c)))
    ensures r.c1.x == r.c2.x && 2.0 * r.c1.x == r.start.x + r.end.x
    ensures r.c1.y == r.start.y && r.c2.y == r.end.y
  {
    var from := GetCoords(Canvas.CardRect(cards, size, c.from), Some(FromSide(c)));
    var to := GetCoords(Canvas.CardRect(cards, size, c.to), Some(ToSide(c)));
    var midX := from.x + (to.x - from.x) / 2.0;
    Curve(c.id, from, Point(midX, from.y), Point(midX, to.y), to)
  }

  /** Curve `cv` is the path of some drawable connection of `conns`. */
  predicate DrawnFrom(conns: seq<Connection>, cards: map<string, Point>, size: string -> Size, cv: Curve) {
    exists i :: 0 <= i < |conns| && Drawable(cards, conns[i]) && cv == CurveOf(cards, size, conns[i])
  }

  /** `renderAll()`: one path per connection whose two cards are on the canvas, in list order; the others are skipped. */
  function RenderPaths(conns: seq<Connection>, cards: map<string, Point>, size: string -> Size): (r: seq<Curve>)
    ensures |r| <= |conns|
  {
    if |conns| == 0 then []
    else if Drawable(cards, conns[0]) then [CurveOf(cards, size, conns[0])] + RenderPaths(conns[1..], cards, size)
    else RenderPaths(conns[1..], cards, size)
  }

  /** Every drawn path belongs to a drawable connection, and every drawable connection is drawn. */
  lemma {:induction false} RenderPathsSpec(conns: seq<Connection>, cards: map<string, Point>, size: string -> Size)
    ensures forall k :: 0 <= k < |RenderPaths(conns, cards, size)| ==> DrawnFrom(conns, cards, size, RenderPaths(conns, cards, size)[k])
    ensures forall i :: 0 <= i < |conns| && Drawable(cards, conns[i]) ==> CurveOf(cards, size, conns[i]) in RenderPaths(conns, cards, size)
  {
    if |conns| > 0 {
      var tail := conns[1..];
      var rest := RenderPaths(tail, cards, size);
      var r := RenderPaths(conns, cards, size);
      RenderPathsSpec(tail, cards, size);
      var off := if Drawable(cards, conns[0]) then 1 else 0;
      assert r == (if off == 1 then [CurveOf(cards, size, conns[0])] else []) + rest;
      forall k | 0 <= k < |r| ensures DrawnFrom(conns, cards, size, r[k]) {
        if k < off {
          assert r[k] == CurveOf(cards, size, conns[0]);
        } else {
          assert r[k] == rest[k - off];
          var j :| 0 <= j < |tail| && Drawable(cards, tail[j]) && rest[k - off] == CurveOf(cards, size, tail[j]);
          assert conns[j + 1] == tail[j];
        }
      }
      forall i | 0 <= i < |conns| && Drawable(cards, conns[i]) ensures CurveOf(cards, size, conns[i]) in r {
        if i > 0 {
          assert conns[i] == tail[i - 1];
          assert CurveOf(cards, size, conns[i]) in rest;
        } else {
          assert r[0] == CurveOf(cards, size, conns[0]);
        }
      }
    }
  }

  /** Every connection is drawn exactly when both of its cards exist. */
  lemma {:induction false} RenderPathsCount(conns: seq<Connection>, cards: map<string, Point>, size: string -> Size)
    requires forall i :: 0 <= i < |conns| ==> Drawable(cards, conns[i])
    ensures |RenderPaths(conns, cards, size)| == |conns|
  {
    if |conns| > 0 {
      RenderPathsCount(conns[1..], cards, size);
    }
  }

  /** The rubber line while dragging a new connection: from the start anchor to the chart point under the pointer. */
  datatype Line = Line(from: Point, to: Point)

  /** `drawTempConnection(e)`: no line when there is no start or the start card has gone. */
  function DrawTemp(b: Builder, cards: map<string, Point>, size: string -> Size, view: Canvas.Viewport, scale: real, clientX: real, clientY: real): (r: Option<Line>)
    requires scale > 0.0
    ensures r.Some? <==> b.start.Some? && b.tempLine && b.start.value.card in cards
    ensures r.Some? ==> r.value.from == GetCoords(Canvas.CardRect(cards, size, b.start.value.card), Some(b.start.value.pos))
    ensures r.Some? ==> r.value.to.x * scale == clientX - view.left + view.scrollLeft
    ensures r.Some? ==> r.value.to.y * scale == clientY - view.top + view.scrollTop
  {
    if b.start.None? || !b.tempLine || b.start.value.card !in cards then None
    else
      var s := b.start.value;
      Some(Line(GetCoords(Canvas.CardRect(cards, size, s.card), Some(s.pos)), Canvas.ChartPoint(view, scale, clientX, clientY)))
  }
}

=== FILE: data.dfy ===
/**
 * Spreadsheet import and export (js/data.js). Data rows become services,
 * their paths through the diagram and a per-node criterion matrix;
 * configuration rows become nodes and connections; the configuration
 * sheet is written back from the diagram. Reading and writing the
 * workbook itself is not modelled: rows arrive as maps from column header
 * to cell text.
 */
module Data {
  import opened Basics
  import opened Store
  import Geometry
  import Connections
  import Nodes

  // ------------------------------------------------------------ 32-bit hash

  const TwoTo31: int := 0x8000_0000
  const TwoTo32: int := 0x1_0000_0000

  /** Number of distinct computed service ids (`% 100000`). */
  const IdBuckets: nat := 100000

  /** JavaScript's ToInt32: the signed 32-bit integer congruent to `x` modulo 2^32. */
  function Wrap32(x: int): (r: int)
    ensures -TwoTo31 <= r < TwoTo31
    ensures r == x - ((x + TwoTo31) / TwoTo32) * TwoTo32
  {
    (x + TwoTo31) % TwoTo32 - TwoTo31
  }

  /** Adding a multiple of 2^32 does not change the 32-bit value. */
  lemma Wrap32Shift(x: int, q: int)
    ensures Wrap32(x + q * TwoTo32) == Wrap32(x)
  {
    var a := x + TwoTo31;
    assert (a + q * TwoTo32) % TwoTo32 == a % TwoTo32 by {
      var d := (a + q * TwoTo32) / TwoTo32;
      var e := a / TwoTo32;
      assert a + q * TwoTo32 == d * TwoTo32 + (a + q * TwoTo32) % TwoTo32;
      assert a == e * TwoTo32 + a % TwoTo32;
      assert (d - q - e) * TwoTo32 == a % TwoTo32 - (a + q * TwoTo32) % TwoTo32;
    }
  }

  /** Values already in the signed 32-bit range are their own 32-bit value. */
  lemma Wrap32OfInt32(x: int)
    requires -TwoTo31 <= x < TwoTo31
    ensures Wrap32(x) == x
  {
  }

  /** `a << 5` on a signed 32-bit `a`. */
  function ShiftLeft5(a: int): int {
    Wrap32(a * 32)
  }

  /** One step of the service-id reducer: `a = ((a << 5) - a) + code; return a & a`. */
  function HashStep(a: int, code: int): (r: int)
    ensures -TwoTo31 <= r < TwoTo31
  {
    Wrap32(ShiftLeft5(a) - a + code)
  }

  /** The reducer folded over the code units from the left, starting at 0. */
  function HashUnits(u: seq<int>): (h: int)
    ensures -TwoTo31 <= h < TwoTo31
  {
    if |u| == 0 then 0 else HashStep(HashUnits(u[..|u| - 1]), u[|u| - 1])
  }

  /** The textbook polynomial string hash with multiplier 31, without any truncation. */
  function PolyHash(u: seq<int>): int {
    if |u| == 0 then 0 else 31 * PolyHash(u[..|u| - 1]) + u[|u| - 1]
  }

  /**
   * The reducer computes the polynomial hash with multiplier 31, reduced to
   * a signed 32-bit integer: the shift-and-subtract is a multiplication by 31.
   */
  lemma {:induction false} HashIsPolynomial(u: seq<int>)
    ensures HashUnits(u) == Wrap32(PolyHash(u))
  {
    if |u| > 0 {
      var p, c := u[..|u| - 1], u[|u| - 1];
      var h := HashUnits(p);
      HashIsPolynomial(p);
      var q1 := (h * 32 + TwoTo31) / TwoTo32;
      assert ShiftLeft5(h) - h + c == (31 * h + c) + (-q1) * TwoTo32;
      Wrap32Shift(31 * h + c, -q1);
      var q2 := (PolyHash(p) + TwoTo31) / TwoTo32;
      assert 31 * h + c == (31 * PolyHash(p) + c) + (-31 * q2) * TwoTo32;
      Wrap32Shift(31 * PolyHash(p) + c, -31 * q2);
    }
  }

  /** `%` on numbers in JavaScript: the remainder takes the sign of the dividend. */
  function JsRem(a: int, m: int): int
    requires m > 0
  {
    if a >= 0 then a % m else -((-a) % m)
  }

  /** `Math.abs(x)` on integers. */
  function IntAbs(a: int): nat {
    if a < 0 then -a else a
  }

  /** `Math.abs(hash % 100000)`: the bucket of a name, the magnitude of its hash modulo 100000. */
  function Bucket(name: string): (n: nat)
    ensures n < IdBuckets
    ensures n == IntAbs(Wrap32(PolyHash(CodeUnits(name)))) % IdBuckets
  {
    HashIsPolynomial(CodeUnits(name));
    IntAbs(JsRem(HashUnits(CodeUnits(name)), IdBuckets))
  }

  /** The id `getServiceId` computes for a name it has not seen: `S_` and the decimal bucket. */
  function HashedId(name: string): (r: string)
    ensures |r| >= 3 && r[..2] == "S_"
    ensures AllDigits(r[2..]) && ParseDigits(r[2..]) < IdBuckets
    ensures ParseDigits(r[2..]) == Bucket(name)
  {
    var n := Bucket(name);
    ParseNatToString(n);
    assert ("S_" + NatToString(n))[2..] == NatToString(n);
    "S_" + NatToString(n)
  }

  // --------------------------------------------------------- service ids

  /**
   * How a name that has no service yet gets its id. `Hashed` is what the
   * code does; `HashedNamed` appends the name, so that distinct names can
   * never share an id.
   */
  datatype IdScheme = Hashed | HashedNamed

  function IdOf(scheme: IdScheme, name: string): (r: string)
    ensures r != ""
  {
    match scheme
    case Hashed => HashedId(name)
    case HashedNamed => HashedId(name) + "_" + name
  }

  /** The hash of a two-unit string is `31 * a + b`: no wrap-around happens yet. */
  lemma HashOfPair(a: int, b: int)
    requires 0 <= a < 0x1_0000 && 0 <= b < 0x1_0000
    ensures HashUnits([a, b]) == 31 * a + b
  {
    assert [a, b][..1] == [a] && [a][..0] == [];
    Wrap32OfInt32(a);
    assert HashUnits([a]) == a;
    Wrap32OfInt32(a * 32);
    Wrap32OfInt32(31 * a + b);
  }

  /** Names with the same hash share an id under the scheme the code uses. */
  lemma HashCollision()
    ensures "Aa" != "BB" && IdOf(Hashed, "Aa") == IdOf(Hashed, "BB")
  {
    assert "Aa"[..1] == "A" && "A"[..0] == "";
    assert "BB"[..1] == "B" && "B"[..0] == "";
    assert CodeUnits("Aa") == [65, 97];
    assert CodeUnits("BB") == [66, 66];
    HashOfPair(65, 97);
    HashOfPair(66, 66);
  }

  lemma HashedIdShape(name: string)
    ensures HashedId(name) == "S_" + NatToString(Bucket(name))
  {
  }

  /** `S_u_a` splits back into `u` and `a` when `u` has no underscore. */
  lemma NamedIdSplits(u: string, a: string, v: string, b: string)
    requires '_' !in u && '_' !in v
    requires ("S_" + u) + "_" + a == ("S_" + v) + "_" + b
    ensures u == v && a == b
  {
    assert ("S_" + u) + "_" + a == "S_" + (u + "_" + a);
    assert ("S_" + v) + "_" + b == "S_" + (v + "_" + b);
    Geometry.PrefixCancels("S_", u + "_" + a, v + "_" + b);
    Geometry.UnderscoreSplit(u, a, v, b);
  }

  /** With the name appended, the id determines the name. */
  lemma NamedIdsDistinct(a: string, b: string)
    requires IdOf(HashedNamed, a) == IdOf(HashedNamed, b)
    ensures a == b
  {
    HashedIdShape(a);
    HashedIdShape(b);
    Geometry.DigitsHaveNoUnderscore(Bucket(a));
    Geometry.DigitsHaveNoUnderscore(Bucket(b));
    NamedIdSplits(NatToString(Bucket(a)), a, NatToString(Bucket(b)), b);
  }

  // ----------------------------------------------------------------- rows

  /** A spreadsheet row as `sheet_to_json` yields it: cell text by column header. */
  type Row = map<string, string>

  /** `row[primary] || row[alt] || fallback`: the first non-empty of the two cells. */
  function Pick(row: Row, primary: string, alt: string, fallback: string): string {
    if primary in row && row[primary] != "" then row[primary]
    else if alt in row && row[alt] != "" then row[alt]
    else fallback
  }

  /** The top group given to rows that name none. */
  const DefaultUstGrup: string := "Genel"

  /** The columns of one data row, by their Turkish header or their letter. */
  datatype DataRow = DataRow(
    mudurluk: string, hizmetAdi: string, akis: string,
    ustGrup: string, grupEtiketi: string, durum: string,
    deger: string, degerTuru: string, islemTipi: string)

  function ReadDataRow(row: Row): (d: DataRow)
    ensures d.ustGrup != ""
    ensures Pick(row, "\U{DC}st Grup", "D", "") == "" ==> d.ustGrup == DefaultUstGrup
    ensures Pick(row, "\U{DC}st Grup", "D", "") != "" ==> d.ustGrup == Pick(row, "\U{DC}st Grup", "D", "")
  {
    DataRow(
      Pick(row, "M\U{FC}d\U{FC}rl\U{FC}k", "A", ""),
      Pick(row, "Hizmet Ad\U{131}", "B", ""),
      Pick(row, "Ak\U{131}\U{15F}", "C", ""),
      Pick(row, "\U{DC}st Grup", "D", DefaultUstGrup),
      Pick(row, "Grup Etiketi", "E", ""),
      Pick(row, "Durum", "F", ""),
      Pick(row, "De\U{11F}er", "G", ""),
      Pick(row, "De\U{11F}er T\U{FC}r\U{FC}", "H", ""),
      Pick(row, "\U{130}\U{15F}lem Tipi", "I", ""))
  }

  predicate Named(d: DataRow) {
    d.hizmetAdi != ""
  }

  function CellOf(d: DataRow): Cell {
    Cell(d.deger, d.degerTuru, d.islemTipi)
  }

  /** What identifies a rule within a node's matrix. */
  datatype RuleKey = RuleKey(ustGrup: string, grupEtiketi: string, durum: string)

  function KeyOf(r: Rule): RuleKey {
    RuleKey(r.ustGrup, r.grupEtiketi, r.durum)
  }

  function RowKey(d: DataRow): RuleKey {
    RuleKey(d.ustGrup, d.grupEtiketi, d.durum)
  }

  /**
   * `findNodeByAkis` followed by the truthiness test on its result: no node
   * for an empty flow name or an empty id. Which node a flow name matches
   * (upper-casing and substring tests on the node names) is the `matchNode`
   * parameter.
   */
  function NodeFor(akis: string, matchNode: string -> Option<string>): (r: Option<string>)
    ensures r.Some? ==> r.value != "" && akis != "" && matchNode(akis) == r
    ensures akis != "" && matchNode(akis).Some? && matchNode(akis).value != "" ==> r == matchNode(akis)
  {
    if akis == "" then None
    else match matchNode(akis)
      case None => None
      case Some(n) => if n != "" then Some(n) else None
  }

  // --------------------------------------------------------- import state

  /**
   * The `newServices` and `newMatrixData` objects being built, with the
   * insertion order of the service keys (`Object.keys` order) and the
   * counter of the rule-id supply.
   */
  datatype Import = Import(services: map<string, Service>, keys: seq<string>, matrix: map<string, seq<Rule>>, nextRule: nat)

  const EmptyImport: Import := Import(map[], [], map[], 0)

  /** `Object.keys(newServices).find(k => newServices[k].name === name)`. */
  function FindByName(services: map<string, Service>, keys: seq<string>, name: string): (r: Option<string>)
    ensures r.Some? ==> r.value in keys && r.value in services && services[r.value].name == name
    ensures r.None? ==> forall i :: 0 <= i < |keys| && keys[i] in services ==> services[keys[i]].name != name
  {
    if |keys| == 0 then None
    else if keys[0] in services && services[keys[0]].name == name then Some(keys[0])
    else FindByName(services, keys[1..], name)
  }

  /** `getServiceId`: the key of the service already carrying the name, else a computed id. */
  function ServiceId(st: Import, name: string, scheme: IdScheme): (r: string)
    ensures r != ""
    ensures (exists k :: k in st.keys && k in st.services && st.services[k].name == name) || r == IdOf(scheme, name)
  {
    match FindByName(st.services, st.keys, name)
    case Some(k) => if k != "" then k else IdOf(scheme, name)
    case None => IdOf(scheme, name)
  }

  /** Step 1 of a row: create the service, or add the node to its path when new. */
  function UpdateService(services: map<string, Service>, sId: string, d: DataRow, node: Option<string>): (r: map<string, Service>)
    ensures r.Keys == services.Keys + {sId}
    ensures forall k :: k in services && k != sId ==> r[k] == services[k]
    ensures sId in services ==> r[sId].name == services[sId].name && r[sId].mudurluk == services[sId].mudurluk
    ensures sId !in services ==> r[sId].name == d.hizmetAdi && r[sId].mudurluk == d.mudurluk
    ensures node.Some? ==> node.value in r[sId].path
    ensures sId in services ==> forall x :: x in services[sId].path ==> x in r[sId].path
    ensures forall x :: x in r[sId].path ==> (sId in services && x in services[sId].path) || node == Some(x)
    ensures sId in services && NoDup(services[sId].path) ==> NoDup(r[sId].path)
    ensures sId !in services ==> NoDup(r[sId].path)
  {
    if sId !in services then
      services[sId := Service(d.hizmetAdi, d.mudurluk, if node.Some? then [node.value] else [])]
    else if node.Some? && node.value !in services[sId].path then
      services[sId := services[sId].(path := services[sId].path + [node.value])]
    else services
  }

  /** The first rule with the given key, or `|rules|` when there is none. */
  function RuleIndex(rules: seq<Rule>, key: RuleKey): (i: nat)
    ensures i <= |rules|
    ensures i < |rules| ==> KeyOf(rules[i]) == key
    ensures forall j :: 0 <= j < i ==> KeyOf(rules[j]) != key
  {
    if |rules| == 0 then 0
    else if KeyOf(rules[0]) == key then 0
    else 1 + RuleIndex(rules[1..], key)
  }

  predicate UniqueKeys(rules: seq<Rule>) {
    forall i, j :: 0 <= i < j < |rules| ==> KeyOf(rules[i]) != KeyOf(rules[j])
  }

  /**
   * Step 2 of a row: find the node's rule with the row's key, creating it
   * (with id `newId`) when missing, and set the service's cell in it.
   */
  function Upsert(rules: seq<Rule>, key: RuleKey, sId: string, cell: Cell, newId: string): (r: seq<Rule>)
    ensures exists i :: 0 <= i < |r| && KeyOf(r[i]) == key && sId in r[i].values && r[i].values[sId] == cell
    ensures |r| == |rules| + 1 <==> forall i :: 0 <= i < |rules| ==> KeyOf(rules[i]) != key
    ensures |r| == |rules| || |r| == |rules| + 1
    ensures forall i :: 0 <= i < |rules| ==> KeyOf(r[i]) == KeyOf(rules[i]) && r[i].id == rules[i].id
    ensures forall i :: 0 <= i < |rules| && KeyOf(rules[i]) != key ==> r[i] == rules[i]
    ensures forall i, s :: 0 <= i < |r| && s in r[i].values ==> s == sId || (i < |rules| && s in rules[i].values)
    ensures UniqueKeys(rules) ==> UniqueKeys(r)
  {
    var i := RuleIndex(rules, key);
    if i == |rules| then
      var r := rules + [Rule(newId, key.ustGrup, key.grupEtiketi, key.durum, map[sId := cell])];
      assert KeyOf(r[|rules|]) == key;
      r
    else
      var r := rules[i := rules[i].(values := rules[i].values[sId := cell])];
      assert KeyOf(r[i]) == key;
      r
  }

  /** A node's rules, none when the node has no matrix entry yet. */
  function RulesAt(matrix: map<string, seq<Rule>>, n: string): seq<Rule> {
    if n in matrix then matrix[n] else []
  }

  /** Whether filing a row creates a rule (and so draws a rule id). */
  predicate CreatesRule(matrix: map<string, seq<Rule>>, node: Option<string>, key: RuleKey) {
    node.Some? && RuleIndex(RulesAt(matrix, node.value), key) == |RulesAt(matrix, node.value)|
  }

  /** Step 2 of a row: file the cell under the node's rule for the row's key; nothing without a node. */
  function FileCell(matrix: map<string, seq<Rule>>, node: Option<string>, key: RuleKey, sId: string, cell: Cell, newId: string): (r: map<string, seq<Rule>>)
    ensures r.Keys == matrix.Keys + (if node.Some? then {node.value} else {})
    ensures forall n :: n in matrix && node != Some(n) ==> r[n] == matrix[n]
    ensures node.Some? ==>
              exists i :: 0 <= i < |r[node.value]| && KeyOf(r[node.value][i]) == key
                          && sId in r[node.value][i].values && r[node.value][i].values[sId] == cell
  {
    if node.None? then matrix
    else matrix[node.value := Upsert(RulesAt(matrix, node.value), key, sId, cell, newId)]
  }

  /** One iteration of `processExcelData`'s `forEach` over the data rows. */
  function ProcessRow(st: Import, d: DataRow, scheme: IdScheme, matchNode: string -> Option<string>, ruleIds: nat -> string): (r: Import)
    ensures !Named(d) ==> r == st
    ensures Named(d) ==> ServiceId(st, d.hizmetAdi, scheme) in r.services
    ensures forall k :: k in st.services ==> k in r.services && r.services[k].name == st.services[k].name
    ensures forall k :: k in r.services && k !in st.services ==>
              Named(d) && k == ServiceId(st, d.hizmetAdi, scheme) && r.services[k].name == d.hizmetAdi
    ensures forall n :: n in st.matrix && NodeFor(d.akis, matchNode) != Some(n) ==> n in r.matrix && r.matrix[n] == st.matrix[n]
    ensures Named(d) && NodeFor(d.akis, matchNode).Some? ==>
              var n, sId := NodeFor(d.akis, matchNode).value, ServiceId(st, d.hizmetAdi, scheme);
              n in r.services[sId].path && n in r.matrix &&
              exists i :: 0 <= i < |r.matrix[n]| && KeyOf(r.matrix[n][i]) == RowKey(d)
                          && sId in r.matrix[n][i].values && r.matrix[n][i].values[sId] == CellOf(d)
  {
    if !Named(d) then st
    else
      var sId := ServiceId(st, d.hizmetAdi, scheme);
      var node := NodeFor(d.akis, matchNode);
      Import(
        UpdateService(st.services, sId, d, node),
        if sId in st.services then st.keys else st.keys + [sId],
        FileCell(st.matrix, node, RowKey(d), sId, CellOf(d), ruleIds(st.nextRule)),
        if CreatesRule(st.matrix, node, RowKey(d)) then st.nextRule + 1 else st.nextRule)
  }

  /** `data.forEach(...)`: the rows processed in order. */
  function ProcessRows(st: Import, rows: seq<DataRow>, scheme: IdScheme, matchNode: string -> Option<string>, ruleIds: nat -> string): Import
    decreases |rows|
  {
    if |rows| == 0 then st
    else ProcessRows(ProcessRow(st, rows[0], scheme, matchNode, ruleIds), rows[1..], scheme, matchNode, ruleIds)
  }

  // ----------------------------------------------------- import invariant

  /** No two services carry the same name. */
  predicate NamesUnique(services: map<string, Service>) {
    forall k1, k2 :: k1 in services && k2 in services && services[k1].name == services[k2].name ==> k1 == k2
  }

  /** Every service id used in a node's matrix names a service whose path contains that node. */
  predicate MatrixAgrees(services: map<string, Service>, matrix: map<string, seq<Rule>>) {
    forall n, i, sId :: n in matrix && 0 <= i < |matrix[n]| && sId in matrix[n][i].values ==>
      sId in services && n in services[sId].path
  }

  /** The key order lists each (non-empty) key once; names are unique; paths repeat no node. */
  predicate ServicesWf(services: map<string, Service>, keys: seq<string>) {
    && NoDup(keys)
    && (forall i :: 0 <= i < |keys| ==> keys[i] in services)
    && (forall k :: k in services ==> k in keys && k != "")
    && NamesUnique(services)
    && (forall k :: k in services ==> NoDup(services[k].path))
  }

  /** Each node has at most one rule per key, and the matrix only mentions services routed through the node. */
  predicate MatrixWf(services: map<string, Service>, matrix: map<string, seq<Rule>>) {
    && (forall n :: n in matrix ==> UniqueKeys(matrix[n]))
    && MatrixAgrees(services, matrix)
  }

  /** What holds of the objects under construction after any number of rows. */
  predicate Wf(st: Import) {
    ServicesWf(st.services, st.keys) && MatrixWf(st.services, st.matrix)
  }

  /** Every key is the id its service's name gets under the scheme. */
  predicate KeysFromNames(st: Import, scheme: IdScheme) {
    forall k :: k in st.services ==> k == IdOf(scheme, st.services[k].name)
  }

  /** A new key is only ever given to a name no service carries yet. */
  lemma NewKeyFreshName(st: Import, name: string, scheme: IdScheme)
    requires Wf(st)
    requires ServiceId(st, name, scheme) !in st.services
    ensures forall k :: k in st.services ==> st.services[k].name != name
    ensures ServiceId(st, name, scheme) == IdOf(scheme, name)
  {
    var f := FindByName(st.services, st.keys, name);
    assert f.None?;
    forall k | k in st.services ensures st.services[k].name != name {
      var i :| 0 <= i < |st.keys| && st.keys[i] == k;
    }
  }

  lemma ServicesStepWf(st: Import, d: DataRow, scheme: IdScheme, node: Option<string>, sId: string, services: map<string, Service>, keys: seq<string>)
    requires Wf(st) && Named(d)
    requires sId == ServiceId(st, d.hizmetAdi, scheme)
    requires services == UpdateService(st.services, sId, d, node)
    requires keys == if sId in st.services then st.keys else st.keys + [sId]
    ensures ServicesWf(services, keys)
  {
    if sId !in st.services {
      NewKeyFreshName(st, d.hizmetAdi, scheme);
      AddServiceWf(st.services, st.keys, sId, d.hizmetAdi, services, keys);
    } else {
      KeepServiceWf(st.services, keys, sId, services);
    }
  }

  /** Adding a service under a fresh key with a fresh name keeps the services well formed. */
  lemma AddServiceWf(before: map<string, Service>, beforeKeys: seq<string>, sId: string, name: string,
                     services: map<string, Service>, keys: seq<string>)
    requires ServicesWf(before, beforeKeys)
    requires sId !in before && sId != ""
    requires forall k :: k in before ==> before[k].name != name
    requires services.Keys == before.Keys + {sId}
    requires forall k :: k in before && k != sId ==> services[k] == before[k]
    requires services[sId].name == name && NoDup(services[sId].path)
    requires keys == beforeKeys + [sId]
    ensures ServicesWf(services, keys)
  {
    assert forall i :: 0 <= i < |beforeKeys| ==> beforeKeys[i] != sId;
    assert NoDup(keys);
    assert forall k :: k in services ==> k in keys && k != "";
  }

  /** Updating the path of an existing service keeps the services well formed. */
  lemma KeepServiceWf(before: map<string, Service>, keys: seq<string>, sId: string, services: map<string, Service>)
    requires ServicesWf(before, keys)
    requires sId in before
    requires services.Keys == before.Keys + {sId}
    requires forall k :: k in before && k != sId ==> services[k] == before[k]
    requires services[sId].name == before[sId].name && NoDup(services[sId].path)
    ensures ServicesWf(services, keys)
  {
    assert forall k :: k in before ==> services[k].name == before[k].name;
  }

  lemma MatrixStepWf(services: map<string, Service>, services': map<string, Service>, matrix: map<string, seq<Rule>>,
                     node: Option<string>, sId: string, d: DataRow, newId: string)
    requires MatrixWf(services, matrix)
    requires services.Keys <= services'.Keys
    requires forall k :: k in services ==> forall x :: x in services[k].path ==> x in services'[k].path
    requires node.Some? ==> sId in services' && node.value in services'[sId].path
    ensures MatrixWf(services', FileCell(matrix, node, RowKey(d), sId, CellOf(d), newId))
  {
    if node.Some? {
      var n := node.value;
      var rules := RulesAt(matrix, n);
      var rules' := Upsert(rules, RowKey(d), sId, CellOf(d), newId);
      var m': map<string, seq<Rule>> := matrix[n := rules'];
      forall m: string, i: int, s: string | m in m' && 0 <= i < |m'[m]| && s in m'[m][i].values
        ensures s in services' && m in services'[s].path
      {
        if m == n && s != sId {
          assert i < |rules| && s in rules[i].values;
        }
      }
    } else {
      assert MatrixAgrees(services', matrix);
    }
  }

  lemma ProcessRowWf(st: Import, d: DataRow, scheme: IdScheme, matchNode: string -> Option<string>, ruleIds: nat -> string)
    requires Wf(st)
    ensures Wf(ProcessRow(st, d, scheme, matchNode, ruleIds))
  {
    if Named(d) {
      var sId := ServiceId(st, d.hizmetAdi, scheme);
      var node := NodeFor(d.akis, matchNode);
      var services := UpdateService(st.services, sId, d, node);
      var keys := if sId in st.services then st.keys else st.keys + [sId];
      ServicesStepWf(st, d, scheme, node, sId, services, keys);
      MatrixStepWf(st.services, services, st.matrix, node, sId, d, ruleIds(st.nextRule));
    }
  }

  lemma {:induction false} ProcessRowsWf(st: Import, rows: seq<DataRow>, scheme: IdScheme, matchNode: string -> Option<string>, ruleIds: nat -> string)
    requires Wf(st)
    ensures Wf(ProcessRows(st, rows, scheme, matchNode, ruleIds))
    decreases |rows|
  {
    if |rows| > 0 {
      ProcessRowWf(st, rows[0], scheme, matchNode, ruleIds);
      ProcessRowsWf(ProcessRow(st, rows[0], scheme, matchNode, ruleIds), rows[1..], scheme, matchNode, ruleIds);
    }
  }

  /** Every import starts from empty objects, so the invariant holds of every import's result. */
  lemma ImportInvariants(rows: seq<DataRow>, scheme: IdScheme, matchNode: string -> Option<string>, ruleIds: nat -> string)
    ensures var r := ProcessRows(EmptyImport, rows, scheme, matchNode, ruleIds);
            && (forall k :: k in r.services ==> NoDup(r.services[k].path))
            && (forall n :: n in r.matrix ==> UniqueKeys(r.matrix[n]))
            && NamesUnique(r.services)
            && MatrixAgrees(r.services, r.matrix)
  {
    ProcessRowsWf(EmptyImport, rows, scheme, matchNode, ruleIds);
  }

  /** Rows without a service name contribute nothing: dropping them beforehand changes no result. */
  lemma {:induction false} SkipUnnamed(st: Import, rows: seq<DataRow>, scheme: IdScheme, matchNode: string -> Option<string>, ruleIds: nat -> string)
    ensures ProcessRows(st, rows, scheme, matchNode, ruleIds) == ProcessRows(st, Filter(rows, Named), scheme, matchNode, ruleIds)
    decreases |rows|
  {
    if |rows| > 0 {
      var st1 := ProcessRow(st, rows[0], scheme, matchNode, ruleIds);
      SkipUnnamed(st1, rows[1..], scheme, matchNode, ruleIds);
      var f := Filter(rows, Named);
      if Named(rows[0]) {
        assert f == [rows[0]] + Filter(rows[1..], Named);
        assert f[0] == rows[0] && f[1..] == Filter(rows[1..], Named);
      } else {
        assert st1 == st;
      }
    }
  }

  /** Services are never removed or renamed by later rows. */
  lemma {:induction false} ServicesKept(st: Import, rows: seq<DataRow>, scheme: IdScheme, matchNode: string -> Option<string>, ruleIds: nat -> string)
    ensures var r := ProcessRows(st, rows, scheme, matchNode, ruleIds);
            forall k :: k in st.services ==> k in r.services && r.services[k].name == st.services[k].name
    decreases |rows|
  {
    if |rows| > 0 {
      ServicesKept(ProcessRow(st, rows[0], scheme, matchNode, ruleIds), rows[1..], scheme, matchNode, ruleIds);
    }
  }

  /** The id of a name some service carries is that service's key. */
  lemma ServiceIdIsCarrier(st: Import, name: string, scheme: IdScheme, k: string)
    requires Wf(st) && k in st.services && st.services[k].name == name
    ensures ServiceId(st, name, scheme) == k
  {
    var i :| 0 <= i < |st.keys| && st.keys[i] == k;
    var f := FindByName(st.services, st.keys, name);
    assert f.Some?;
  }

  /** The id of a name no service carries is the computed one. */
  lemma ServiceIdUncarried(st: Import, name: string, scheme: IdScheme)
    requires Wf(st) && forall k :: k in st.services ==> st.services[k].name != name
    ensures ServiceId(st, name, scheme) == IdOf(scheme, name)
  {
  }

  /**
   * One row changes the id of neither its own name nor any name whose id
   * is already a key.
   */
  lemma ServiceIdAfterStep(st: Import, st1: Import, d: DataRow, name: string, scheme: IdScheme)
    requires Wf(st) && Wf(st1)
    requires forall k :: k in st.services ==> k in st1.services && st1.services[k].name == st.services[k].name
    requires forall k :: k in st1.services && k !in st.services ==>
               Named(d) && k == ServiceId(st, d.hizmetAdi, scheme) && st1.services[k].name == d.hizmetAdi
    requires Named(d) ==> ServiceId(st, d.hizmetAdi, scheme) in st1.services
    requires (Named(d) && name == d.hizmetAdi) || ServiceId(st, name, scheme) in st.services
    ensures ServiceId(st1, name, scheme) == ServiceId(st, name, scheme) && ServiceId(st1, name, scheme) in st1.services
  {
    if k :| k in st.services && st.services[k].name == name {
      ServiceIdIsCarrier(st, name, scheme, k);
      ServiceIdIsCarrier(st1, name, scheme, k);
    } else {
      ServiceIdUncarried(st, name, scheme);
      var sId := ServiceId(st, name, scheme);
      if k :| k in st1.services && st1.services[k].name == name {
        assert k !in st.services;
        ServiceIdIsCarrier(st1, name, scheme, k);
      } else {
        ServiceIdUncarried(st1, name, scheme);
      }
    }
  }

  /**
   * One row changes the id of neither its own name nor any name whose id
   * is already a key.
   */
  lemma ServiceIdAfterRow(st: Import, d: DataRow, name: string, scheme: IdScheme, matchNode: string -> Option<string>, ruleIds: nat -> string)
    requires Wf(st)
    requires (Named(d) && name == d.hizmetAdi) || ServiceId(st, name, scheme) in st.services
    ensures var st1 := ProcessRow(st, d, scheme, matchNode, ruleIds);
            ServiceId(st1, name, scheme) == ServiceId(st, name, scheme) && ServiceId(st1, name, scheme) in st1.services
  {
    ProcessRowWf(st, d, scheme, matchNode, ruleIds);
    ServiceIdAfterStep(st, ProcessRow(st, d, scheme, matchNode, ruleIds), d, name, scheme);
  }

  lemma {:induction false} ServiceIdAfterRows(st: Import, rows: seq<DataRow>, name: string, scheme: IdScheme, matchNode: string -> Option<string>, ruleIds: nat -> string)
    requires Wf(st) && ServiceId(st, name, scheme) in st.services
    ensures ServiceId(ProcessRows(st, rows, scheme, matchNode, ruleIds), name, scheme) == ServiceId(st, name, scheme)
    decreases |rows|
  {
    if |rows| > 0 {
      var st1 := ProcessRow(st, rows[0], scheme, matchNode, ruleIds);
      ServiceIdAfterRow(st, rows[0], name, scheme, matchNode, ruleIds);
      ProcessRowWf(st, rows[0], scheme, matchNode, ruleIds);
      ServiceIdAfterRows(st1, rows[1..], name, scheme, matchNode, ruleIds);
    }
  }

  /**
   * Within one import a service name keeps the id its first row got: every
   * later row with that name is filed under the same id.
   */
  lemma NameKeepsItsId(st: Import, d: DataRow, rows: seq<DataRow>, scheme: IdScheme, matchNode: string -> Option<string>, ruleIds: nat -> string)
    requires Wf(st) && Named(d)
    ensures ServiceId(ProcessRows(st, [d] + rows, scheme, matchNode, ruleIds), d.hizmetAdi, scheme) == ServiceId(st, d.hizmetAdi, scheme)
  {
    var st1 := ProcessRow(st, d, scheme, matchNode, ruleIds);
    assert ([d] + rows)[1..] == rows;
    ServiceIdAfterRow(st, d, d.hizmetAdi, scheme, matchNode, ruleIds);
    ProcessRowWf(st, d, scheme, matchNode, ruleIds);
    ServiceIdAfterRows(st1, rows, d.hizmetAdi, scheme, matchNode, ruleIds);
  }

  /** After a row, the one rule with the row's key in the row's node holds the row's cell. */
  lemma RowWritesCell(st: Import, d: DataRow, sId: string, n: string, scheme: IdScheme, matchNode: string -> Option<string>, ruleIds: nat -> string)
    requires Wf(st) && Named(d)
    requires NodeFor(d.akis, matchNode) == Some(n) && ServiceId(st, d.hizmetAdi, scheme) == sId
    ensures var r := ProcessRow(st, d, scheme, matchNode, ruleIds);
            n in r.matrix
            && (exists i :: 0 <= i < |r.matrix[n]| && KeyOf(r.matrix[n][i]) == RowKey(d))
            && forall i :: 0 <= i < |r.matrix[n]| && KeyOf(r.matrix[n][i]) == RowKey(d) ==>
                 sId in r.matrix[n][i].values && r.matrix[n][i].values[sId] == CellOf(d)
  {
    var r := ProcessRow(st, d, scheme, matchNode, ruleIds);
    ProcessRowWf(st, d, scheme, matchNode, ruleIds);
    assert UniqueKeys(r.matrix[n]);
  }

  lemma TwoRows(st: Import, d1: DataRow, d2: DataRow, scheme: IdScheme, matchNode: string -> Option<string>, ruleIds: nat -> string)
    ensures ProcessRows(st, [d1, d2], scheme, matchNode, ruleIds)
         == ProcessRow(ProcessRow(st, d1, scheme, matchNode, ruleIds), d2, scheme, matchNode, ruleIds)
  {
    var st1 := ProcessRow(st, d1, scheme, matchNode, ruleIds);
    assert [d1, d2][0] == d1 && [d1, d2][1..] == [d2];
    assert ProcessRows(st, [d1, d2], scheme, matchNode, ruleIds) == ProcessRows(st1, [d2], scheme, matchNode, ruleIds);
    assert [d2][0] == d2 && [d2][1..] == [];
    assert ProcessRows(st1, [d2], scheme, matchNode, ruleIds)
        == ProcessRows(ProcessRow(st1, d2, scheme, matchNode, ruleIds), [], scheme, matchNode, ruleIds);
  }

  /**
   * A later row for the same node, rule key and service overwrites the
   * cell the earlier row wrote, in the one rule that has that key.
   */
  lemma LaterRowWins(st: Import, d1: DataRow, d2: DataRow, scheme: IdScheme, matchNode: string -> Option<string>, ruleIds: nat -> string)
    requires Wf(st) && Named(d1)
    requires d2.hizmetAdi == d1.hizmetAdi && d2.akis == d1.akis && RowKey(d2) == RowKey(d1)
    requires NodeFor(d1.akis, matchNode).Some?
    ensures var r := ProcessRows(st, [d1, d2], scheme, matchNode, ruleIds);
            var n, sId := NodeFor(d1.akis, matchNode).value, ServiceId(st, d1.hizmetAdi, scheme);
            n in r.matrix
            && (exists i :: 0 <= i < |r.matrix[n]| && KeyOf(r.matrix[n][i]) == RowKey(d1))
            && forall i :: 0 <= i < |r.matrix[n]| && KeyOf(r.matrix[n][i]) == RowKey(d1) ==>
                 sId in r.matrix[n][i].values && r.matrix[n][i].values[sId] == CellOf(d2)
  {
    var st1 := ProcessRow(st, d1, scheme, matchNode, ruleIds);
    TwoRows(st, d1, d2, scheme, matchNode, ruleIds);
    ServiceIdAfterRow(st, d1, d1.hizmetAdi, scheme, matchNode, ruleIds);
    ProcessRowWf(st, d1, scheme, matchNode, ruleIds);
    RowWritesCell(st1, d2, ServiceId(st, d1.hizmetAdi, scheme), NodeFor(d1.akis, matchNode).value, scheme, matchNode, ruleIds);
  }

  // ------------------------------------------------ colliding service ids

  /**
   * As written, two service names whose hashes agree modulo 100000 share
   * one id: the second name never gets a service of its own and its rows
   * are filed under the first name's service.
   */
  lemma HashCollisionMergesServices(matchNode: string -> Option<string>, ruleIds: nat -> string)
    ensures var a := DataRow("", "Aa", "", DefaultUstGrup, "", "", "", "", "");
            var b := DataRow("", "BB", "", DefaultUstGrup, "", "", "", "", "");
            var r := ProcessRows(EmptyImport, [a, b], Hashed, matchNode, ruleIds);
            r.services.Keys == {IdOf(Hashed, "Aa")} && forall k :: k in r.services ==> r.services[k].name != "BB"
  {
    var a := DataRow("", "Aa", "", DefaultUstGrup, "", "", "", "", "");
    var b := DataRow("", "BB", "", DefaultUstGrup, "", "", "", "", "");
    var id := IdOf(Hashed, "Aa");
    HashCollision();
    var st1 := ProcessRow(EmptyImport, a, Hashed, matchNode, ruleIds);
    assert ServiceId(EmptyImport, "Aa", Hashed) == id;
    assert st1.services == map[id := Service("Aa", "", [])];
    assert st1.keys == [id];
    assert FindByName(st1.services, st1.keys, "BB").None? by {
      assert st1.keys[1..] == [];
    }
    assert ServiceId(st1, "BB", Hashed) == id;
    TwoRows(EmptyImport, a, b, Hashed, matchNode, ruleIds);
    var r := ProcessRow(st1, b, Hashed, matchNode, ruleIds);
    assert r.services == st1.services;
  }

  lemma KeysFromNamesStep(st: Import, d: DataRow, scheme: IdScheme, matchNode: string -> Option<string>, ruleIds: nat -> string)
    requires Wf(st) && KeysFromNames(st, scheme)
    ensures KeysFromNames(ProcessRow(st, d, scheme, matchNode, ruleIds), scheme)
  {
    var st1 := ProcessRow(st, d, scheme, matchNode, ruleIds);
    forall k | k in st1.services ensures k == IdOf(scheme, st1.services[k].name) {
      if k !in st.services {
        NewKeyFreshName(st, d.hizmetAdi, scheme);
      }
    }
  }

  /** Some service carries the name. */
  predicate Carries(services: map<string, Service>, name: string) {
    exists k :: k in services && services[k].name == name
  }

  /** A name some service carries is still carried after any further rows. */
  lemma NameCarried(st: Import, rows: seq<DataRow>, name: string, scheme: IdScheme, matchNode: string -> Option<string>, ruleIds: nat -> string)
    requires Carries(st.services, name)
    ensures Carries(ProcessRows(st, rows, scheme, matchNode, ruleIds).services, name)
  {
    var k :| k in st.services && st.services[k].name == name;
    ServicesKept(st, rows, scheme, matchNode, ruleIds);
    var r := ProcessRows(st, rows, scheme, matchNode, ruleIds);
    assert k in r.services && r.services[k].name == name;
  }

  /** With ids that carry the name, every named row leaves a service of that name behind. */
  lemma RowKeepsName(st: Import, d: DataRow, matchNode: string -> Option<string>, ruleIds: nat -> string)
    requires Wf(st) && KeysFromNames(st, HashedNamed) && Named(d)
    ensures Carries(ProcessRow(st, d, HashedNamed, matchNode, ruleIds).services, d.hizmetAdi)
  {
    var r := ProcessRow(st, d, HashedNamed, matchNode, ruleIds);
    var sId := ServiceId(st, d.hizmetAdi, HashedNamed);
    if k :| k in st.services && st.services[k].name == d.hizmetAdi {
      assert r.services[k].name == d.hizmetAdi;
    } else {
      ServiceIdUncarried(st, d.hizmetAdi, HashedNamed);
      if sId in st.services {
        NamedIdsDistinct(st.services[sId].name, d.hizmetAdi);
      }
      assert r.services[sId].name == d.hizmetAdi;
    }
  }

  lemma {:induction false} RowsKeepNames(st: Import, rows: seq<DataRow>, matchNode: string -> Option<string>, ruleIds: nat -> string)
    requires Wf(st) && KeysFromNames(st, HashedNamed)
    ensures forall i :: 0 <= i < |rows| && Named(rows[i]) ==>
              Carries(ProcessRows(st, rows, HashedNamed, matchNode, ruleIds).services, rows[i].hizmetAdi)
    decreases |rows|
  {
    if |rows| > 0 {
      var st1 := ProcessRow(st, rows[0], HashedNamed, matchNode, ruleIds);
      var r := ProcessRows(st1, rows[1..], HashedNamed, matchNode, ruleIds);
      assert r == ProcessRows(st, rows, HashedNamed, matchNode, ruleIds);
      ProcessRowWf(st, rows[0], HashedNamed, matchNode, ruleIds);
      KeysFromNamesStep(st, rows[0], HashedNamed, matchNode, ruleIds);
      RowsKeepNames(st1, rows[1..], matchNode, ruleIds);
      if Named(rows[0]) {
        RowKeepsName(st, rows[0], matchNode, ruleIds);
        NameCarried(st1, rows[1..], rows[0].hizmetAdi, HashedNamed, matchNode, ruleIds);
      }
      forall i | 0 <= i < |rows| && Named(rows[i]) ensures Carries(r.services, rows[i].hizmetAdi) {
        if i > 0 {
          assert rows[i] == rows[1..][i - 1];
        }
      }
    }
  }

  /**
   * Corrected import: with ids that carry the name, every named row of an
   * import has a service of its own name, whatever the hashes.
   */
  lemma CorrectedImportKeepsEveryName(rows: seq<DataRow>, matchNode: string -> Option<string>, ruleIds: nat -> string)
    ensures forall i :: 0 <= i < |rows| && Named(rows[i]) ==>
              Carries(ProcessRows(EmptyImport, rows, HashedNamed, matchNode, ruleIds).services, rows[i].hizmetAdi)
  {
    RowsKeepNames(EmptyImport, rows, matchNode, ruleIds);
  }

  // ------------------------------------------------------- merge into store

  /** The store's `services` and `matrixData` tables. */
  datatype Tables = Tables(services: map<string, Service>, matrix: map<string, seq<Rule>>)

  function ReadDataRows(rows: seq<Row>): seq<DataRow> {
    seq(|rows|, i requires 0 <= i < |rows| => ReadDataRow(rows[i]))
  }

  /**
   * `processExcelData(data)`: build fresh services and matrix from the rows,
   * then spread them over the store's tables, new keys winning.
   */
  function ProcessExcelData(t: Tables, rows: seq<Row>, scheme: IdScheme, matchNode: string -> Option<string>, ruleIds: nat -> string): (r: Tables)
    ensures var st := ProcessRows(EmptyImport, ReadDataRows(rows), scheme, matchNode, ruleIds);
            && (forall k :: k in r.services <==> k in t.services || k in st.services)
            && (forall k :: k in st.services ==> r.services[k] == st.services[k])
            && (forall k :: k in t.services && k !in st.services ==> r.services[k] == t.services[k])
            && (forall n :: n in r.matrix <==> n in t.matrix || n in st.matrix)
            && (forall n :: n in st.matrix ==> r.matrix[n] == st.matrix[n])
            && (forall n :: n in t.matrix && n !in st.matrix ==> r.matrix[n] == t.matrix[n])
  {
    var st := ProcessRows(EmptyImport, ReadDataRows(rows), scheme, matchNode, ruleIds);
    Tables(t.services + st.services, t.matrix + st.matrix)
  }

  // ---------------------------------------------------- node configuration

  /**
   * The columns of one configuration row. `x` and `y` are
   * `parseFloat(cell) || 0`: 0 when the cell is absent or not a number.
   */
  datatype ConfigRow = ConfigRow(nodeId: string, name: string, tag: string, x: real, y: real, links: string)

  /** Reads a configuration row; `num` is `parseFloat(...) || 0` on a present cell. */
  function ReadConfigRow(row: Row, num: string -> real): ConfigRow {
    ConfigRow(
      Pick(row, "Node ID", "ID", ""),
      Pick(row, "Node Ad\U{131}", "Name", ""),
      Pick(row, "Tip", "Type", ""),
      if "X" in row then num(row["X"]) else 0.0,
      if "Y" in row then num(row["Y"]) else 0.0,
      Pick(row, "Ba\U{11F}lant\U{131}lar", "Connections", ""))
  }

  /** The `type` string a node carries. */
  function TagOfType(t: NodeType): string {
    match t
    case Process => "process"
    case Hub => "hub"
    case Method => "method"
    case OtherType(tag) => tag
  }

  /** A type tag read from a sheet is written back unchanged. */
  lemma TagRoundTrip(tag: string)
    ensures TagOfType(TypeOfTag(tag)) == tag
  {
  }

  /** The type a configuration row gives a new node: `nodeType || 'process'`. */
  function TypeOfRow(tag: string): (t: NodeType)
    ensures TagOfType(t) == if tag == "" then "process" else tag
  {
    TypeOfTag(if tag == "" then "process" else tag)
  }

  /**
   * The node half of one configuration row: an existing node gets its
   * coordinates where they are non-zero and its name where one is given;
   * an unknown id with a name becomes a new node of the default width.
   */
  function ConfigNode(nodes: map<string, Node>, c: ConfigRow): (r: map<string, Node>)
    ensures forall k :: k in nodes && k != c.nodeId ==> k in r && r[k] == nodes[k]
    ensures c.nodeId != "" && c.nodeId in nodes ==>
              r.Keys == nodes.Keys &&
              var was, now := nodes[c.nodeId], r[c.nodeId];
              now.id == was.id && now.ntype == was.ntype && now.width == was.width
              && now.x == (if c.x != 0.0 then c.x else was.x)
              && now.y == (if c.y != 0.0 then c.y else was.y)
              && now.name == (if c.name != "" then c.name else was.name)
    ensures c.nodeId != "" && c.nodeId !in nodes && c.name != "" ==>
              r.Keys == nodes.Keys + {c.nodeId} &&
              var now := r[c.nodeId];
              now.id == c.nodeId && now.name == c.name && now.x == c.x && now.y == c.y
              && now.width == Nodes.DefaultWidth && TagOfType(now.ntype) == (if c.tag == "" then "process" else c.tag)
    ensures c.nodeId == "" || (c.nodeId !in nodes && c.name == "") ==> r == nodes
  {
    var id := c.nodeId;
    if id != "" && id in nodes then
      var n := nodes[id];
      var n1 := if c.x != 0.0 then n.(x := c.x) else n;
      var n2 := if c.y != 0.0 then n1.(y := c.y) else n1;
      var n3 := if c.name != "" then n2.(name := c.name) else n2;
      nodes[id := n3]
    else if id != "" && c.name != "" then
      nodes[id := Node(id, TypeOfRow(c.tag), c.name, c.x, c.y, Nodes.DefaultWidth)]
    else nodes
  }

  /** The connections added so far and the counter of the connection-id supply. */
  datatype Linked = Linked(conns: seq<Connection>, next: nat)

  /** A connection a links cell creates: from the row's node, to a trimmed non-empty target, right to left. */
  predicate LinkFrom(c: Connection, from: string) {
    c.from == from && c.to != "" && IsTrimmed(c.to) && c.fromPos == Some(Right) && c.toPos == Some(Left)
  }

  /**
   * The connection half of a configuration row, over the comma-separated
   * parts of its links cell: each trimmed, non-empty target not yet joined
   * from `from` gets a right-to-left connection with id `ids(next)`.
   */
  function AddLinks(conns: seq<Connection>, from: string, parts: seq<string>, ids: nat -> string, next: nat): (r: Linked)
    ensures |conns| <= |r.conns| && r.conns[..|conns|] == conns
    ensures r.next == next + (|r.conns| - |conns|)
    ensures forall i :: |conns| <= i < |r.conns| ==> LinkFrom(r.conns[i], from)
    decreases |parts|
  {
    if |parts| == 0 then Linked(conns, next)
    else
      var t := Trim(parts[0]);
      if t != "" && !Joined(conns, from, t) then
        var x := Connection(ids(next), from, t, Some(Right), Some(Left));
        var r := AddLinks(conns + [x], from, parts[1..], ids, next + 1);
        assert LinkFrom(x, from);
        AppendedPrefix(conns, x, r.conns, from);
        r
      else
        AddLinks(conns, from, parts[1..], ids, next)
  }

  /** A sequence that starts with `conns + [x]` starts with `conns`, followed by `x`. */
  lemma AppendedPrefix(conns: seq<Connection>, x: Connection, rc: seq<Connection>, from: string)
    requires |conns| + 1 <= |rc| && rc[..|conns| + 1] == conns + [x]
    requires LinkFrom(x, from)
    requires forall i :: |conns| + 1 <= i < |rc| ==> LinkFrom(rc[i], from)
    ensures rc[..|conns|] == conns && rc[|conns|] == x
    ensures forall i :: |conns| <= i < |rc| ==> LinkFrom(rc[i], from)
  {
    assert rc[..|conns|] == rc[..|conns| + 1][..|conns|];
    assert rc[|conns|] == rc[..|conns| + 1][|conns|];
  }

  /** One part of the links cell: the connection it adds, if any, then the rest. */
  lemma AddLinksStep(conns: seq<Connection>, from: string, parts: seq<string>, ids: nat -> string, next: nat)
    requires |parts| > 0
    ensures var t := Trim(parts[0]);
            AddLinks(conns, from, parts, ids, next)
            == if t != "" && !HasEdge(conns, from, t)
               then AddLinks(conns + [Connection(ids(next), from, t, Some(Right), Some(Left))], from, parts[1..], ids, next + 1)
               else AddLinks(conns, from, parts[1..], ids, next)
  {
    JoinedIsHasEdge(conns, from, Trim(parts[0]));
  }

  /** Whether `conns` joins `from` to `t`, by a scan from the front. */
  function Joined(conns: seq<Connection>, from: string, t: string): bool {
    if |conns| == 0 then false
    else (conns[0].from == from && conns[0].to == t) || Joined(conns[1..], from, t)
  }

  lemma {:induction false} JoinedIsHasEdge(conns: seq<Connection>, from: string, t: string)
    ensures Joined(conns, from, t) == HasEdge(conns, from, t)
  {
    if |conns| > 0 {
      HasEdgeCons(conns, from, t);
      JoinedIsHasEdge(conns[1..], from, t);
    }
  }

  lemma AddLinksKeepsEdge(conns: seq<Connection>, from: string, parts: seq<string>, ids: nat -> string, next: nat, a: string, b: string)
    requires HasEdge(conns, a, b)
    ensures HasEdge(AddLinks(conns, from, parts, ids, next).conns, a, b)
  {
    var r := AddLinks(conns, from, parts, ids, next).conns;
    var i :| 0 <= i < |conns| && conns[i].from == a && conns[i].to == b;
    assert r[i] == r[..|conns|][i] == conns[i];
  }

  /** Every non-empty trimmed part ends up joined from `from`. */
  lemma {:induction false} AddLinksCovers(conns: seq<Connection>, from: string, parts: seq<string>, ids: nat -> string, next: nat, j: nat)
    requires j < |parts| && Trim(parts[j]) != ""
    ensures HasEdge(AddLinks(conns, from, parts, ids, next).conns, from, Trim(parts[j]))
    decreases |parts|
  {
    if j == 0 {
      AddLinksCoversHead(conns, from, parts, ids, next);
    } else {
      var t := Trim(parts[0]);
      var added := t != "" && !HasEdge(conns, from, t);
      var c1 := if added then conns + [Connection(ids(next), from, t, Some(Right), Some(Left))] else conns;
      var n1 := if added then next + 1 else next;
      AddLinksStep(conns, from, parts, ids, next);
      assert parts[j] == parts[1..][j - 1];
      AddLinksCovers(c1, from, parts[1..], ids, n1, j - 1);
    }
  }

  /** The first part, when not blank, ends up joined from `from`. */
  lemma AddLinksCoversHead(conns: seq<Connection>, from: string, parts: seq<string>, ids: nat -> string, next: nat)
    requires |parts| > 0 && Trim(parts[0]) != ""
    ensures HasEdge(AddLinks(conns, from, parts, ids, next).conns, from, Trim(parts[0]))
  {
    var t := Trim(parts[0]);
    AddLinksStep(conns, from, parts, ids, next);
    if HasEdge(conns, from, t) {
      AddLinksKeepsEdge(conns, from, parts[1..], ids, next, from, t);
    } else {
      var c1 := conns + [Connection(ids(next), from, t, Some(Right), Some(Left))];
      assert c1[|conns|].from == from && c1[|conns|].to == t;
      AddLinksKeepsEdge(c1, from, parts[1..], ids, next + 1, from, t);
    }
  }

  /** No (from, to) pair is added twice, also when a links cell repeats a target. */
  lemma {:induction false} AddLinksKeepsEdgesUnique(conns: seq<Connection>, from: string, parts: seq<string>, ids: nat -> string, next: nat)
    requires Connections.UniqueEdges(conns)
    ensures Connections.UniqueEdges(AddLinks(conns, from, parts, ids, next).conns)
    decreases |parts|
  {
    if |parts| > 0 {
      var t := Trim(parts[0]);
      AddLinksStep(conns, from, parts, ids, next);
      if t != "" && !HasEdge(conns, from, t) {
        var c1 := conns + [Connection(ids(next), from, t, Some(Right), Some(Left))];
        forall i, j | 0 <= i < j < |c1|
          ensures !(c1[i].from == c1[j].from && c1[i].to == c1[j].to)
        {
          if j == |conns| {
            assert c1[i] == conns[i];
            assert !(conns[i].from == from && conns[i].to == t);
          }
        }
        AddLinksKeepsEdgesUnique(c1, from, parts[1..], ids, next + 1);
      } else {
        AddLinksKeepsEdgesUnique(conns, from, parts[1..], ids, next);
      }
    }
  }

  /** Parts that are blank or already joined from `from` add nothing and draw no ids. */
  lemma {:induction false} AddLinksNothingNew(conns: seq<Connection>, from: string, parts: seq<string>, ids: nat -> string, next: nat)
    requires forall j :: 0 <= j < |parts| ==> Trim(parts[j]) == "" || HasEdge(conns, from, Trim(parts[j]))
    ensures AddLinks(conns, from, parts, ids, next) == Linked(conns, next)
    decreases |parts|
  {
    if |parts| > 0 {
      AddLinksStep(conns, from, parts, ids, next);
      AddLinksNothingNew(conns, from, parts[1..], ids, next);
    }
  }

  /** The diagram after some configuration rows, and the connection-id counter. */
  datatype Configured = Configured(doc: Doc, next: nat)

  /** One iteration of `processNodeConfig`'s `forEach`. */
  function ConfigRowStep(doc: Doc, c: ConfigRow, ids: nat -> string, next: nat): Configured {
    var nodes := ConfigNode(doc.nodes, c);
    if c.links != "" && c.nodeId != "" then
      var l := AddLinks(doc.connections, c.nodeId, Split(c.links, ','), ids, next);
      Configured(Doc(nodes, l.conns), l.next)
    else Configured(Doc(nodes, doc.connections), next)
  }

  /** `processNodeConfig(rows)`. */
  function ProcessNodeConfig(doc: Doc, rows: seq<ConfigRow>, ids: nat -> string, next: nat): Configured
    decreases |rows|
  {
    if |rows| == 0 then Configured(doc, next)
    else
      var c := ConfigRowStep(doc, rows[0], ids, next);
      ProcessNodeConfig(c.doc, rows[1..], ids, c.next)
  }

  // ------------------------------------------------- configuration export

  lemma HasEdgeCons(conns: seq<Connection>, from: string, t: string)
    requires |conns| > 0
    ensures HasEdge(conns, from, t) <==> (conns[0].from == from && conns[0].to == t) || HasEdge(conns[1..], from, t)
  {
    if HasEdge(conns[1..], from, t) {
      var i :| 0 <= i < |conns[1..]| && conns[1..][i].from == from && conns[1..][i].to == t;
      assert conns[i + 1] == conns[1..][i];
    }
    if HasEdge(conns, from, t) && !(conns[0].from == from && conns[0].to == t) {
      var i :| 0 <= i < |conns| && conns[i].from == from && conns[i].to == t;
      assert conns[1..][i - 1] == conns[i];
    }
  }

  /** The targets of the connections leaving `from`, in connection order. */
  function Targets(conns: seq<Connection>, from: string): (r: seq<string>)
    ensures |r| <= |conns|
    ensures forall t :: t in r <==> HasEdge(conns, from, t)
  {
    if |conns| == 0 then []
    else
      var r := (if conns[0].from == from then [conns[0].to] else []) + Targets(conns[1..], from);
      assert forall t :: HasEdge(conns, from, t) <==> (conns[0].from == from && conns[0].to == t) || HasEdge(conns[1..], from, t) by {
        forall t ensures HasEdge(conns, from, t) <==> (conns[0].from == from && conns[0].to == t) || HasEdge(conns[1..], from, t) {
          HasEdgeCons(conns, from, t);
        }
      }
      r
  }

  /** The links cell written for a node: the targets of its connections joined by `", "`. */
  function ExportLinks(conns: seq<Connection>, from: string): string {
    Join(Targets(conns, from), ", ")
  }

  /** The configuration row written for a node; coordinates are not rounded here. */
  function ExportConfigRow(n: Node, conns: seq<Connection>): ConfigRow {
    ConfigRow(n.id, n.name, TagOfType(n.ntype), n.x, n.y, ExportLinks(conns, n.id))
  }

  /** The configuration sheet: one row per node, in `order` (the `Object.values` order of the node map). */
  function ExportConfig(doc: Doc, order: seq<string>): seq<ConfigRow>
    requires forall i :: 0 <= i < |order| ==> order[i] in doc.nodes
  {
    seq(|order|, i requires 0 <= i < |order| => ExportConfigRow(doc.nodes[order[i]], doc.connections))
  }

  /** Connection targets of `from` that survive a write and a read: non-empty, trimmed and comma-free. */
  predicate CleanTargets(conns: seq<Connection>, from: string) {
    forall i :: 0 <= i < |conns| && conns[i].from == from ==>
      conns[i].to != "" && IsTrimmed(conns[i].to) && ',' !in conns[i].to
  }

  lemma SplitBlankPrefix(s: string)
    ensures Split(" " + s, ',') == [" " + Split(s, ',')[0]] + Split(s, ',')[1..]
  {
    assert (" " + s)[1..] == s;
    assert (" " + s)[0] == ' ';
  }

  /** Splitting a `", "`-joined list on commas gives back the items, all but the first behind a blank. */
  lemma {:induction false} SplitJoin(ts: seq<string>)
    requires |ts| >= 1 && forall i :: 0 <= i < |ts| ==> ',' !in ts[i]
    ensures var p := Split(Join(ts, ", "), ',');
            |p| == |ts| && p[0] == ts[0] && forall i :: 1 <= i < |ts| ==> p[i] == " " + ts[i]
  {
    if |ts| == 1 {
      SplitNoSep(ts[0], ',');
    } else {
      var rest := Join(ts[1..], ", ");
      assert Join(ts, ", ") == ts[0] + [','] + (" " + rest);
      SplitAtFirst(ts[0], " " + rest, ',');
      SplitJoin(ts[1..]);
      SplitBlankPrefix(rest);
      var p := Split(Join(ts, ", "), ',');
      var q := Split(rest, ',');
      assert p == [ts[0]] + ([" " + q[0]] + q[1..]);
      forall i | 1 <= i < |ts| ensures p[i] == " " + ts[i] {
        if i > 1 {
          assert p[i] == q[i - 1];
          assert ts[i] == ts[1..][i - 1];
        }
      }
    }
  }

  /**
   * The links cell the export writes reads back as the node's targets:
   * it is empty exactly when there are none, and otherwise its trimmed
   * comma-separated parts are the targets, in order.
   */
  lemma LinksRoundTrip(conns: seq<Connection>, from: string)
    requires CleanTargets(conns, from)
    ensures ExportLinks(conns, from) == "" <==> Targets(conns, from) == []
    ensures Targets(conns, from) != [] ==>
              var p := Split(ExportLinks(conns, from), ',');
              |p| == |Targets(conns, from)| && forall i :: 0 <= i < |p| ==> Trim(p[i]) == Targets(conns, from)[i]
  {
    var ts := Targets(conns, from);
    forall i | 0 <= i < |ts| ensures ts[i] != "" && IsTrimmed(ts[i]) && ',' !in ts[i] {
      assert HasEdge(conns, from, ts[i]);
    }
    if |ts| > 0 {
      if |ts| > 1 {
        assert Join(ts, ", ") == ts[0] + ", " + Join(ts[1..], ", ");
      }
      assert |Join(ts, ", ")| >= |ts[0]|;
      SplitJoin(ts);
      var p := Split(ExportLinks(conns, from), ',');
      forall i | 0 <= i < |p| ensures Trim(p[i]) == ts[i] {
        if i == 0 {
          TrimOfTrimmed(ts[0]);
        } else {
          TrimLeadingBlank(ts[i]);
        }
      }
    }
  }

  /** Every connection leaving a node is written to its links cell and recreated when the cell is read back. */
  lemma ExportedLinksRecreated(conns: seq<Connection>, from: string, other: seq<Connection>, ids: nat -> string, next: nat, t: string)
    requires CleanTargets(conns, from) && HasEdge(conns, from, t)
    ensures ExportLinks(conns, from) != ""
    ensures HasEdge(AddLinks(other, from, Split(ExportLinks(conns, from), ','), ids, next).conns, from, t)
  {
    LinksRoundTrip(conns, from);
    var ts := Targets(conns, from);
    var j :| 0 <= j < |ts| && ts[j] == t;
    AddLinksCovers(other, from, Split(ExportLinks(conns, from), ','), ids, next, j);
  }

  /**
   * Reading back the row the export writes for a node leaves the diagram
   * as it is: the node's fields are rewritten with their own values, and
   * every listed target is already joined.
   */
  lemma ReimportRowKeepsDoc(doc: Doc, k: string, ids: nat -> string, next: nat)
    requires k in doc.nodes && doc.nodes[k].id == k && CleanTargets(doc.connections, k)
    ensures ConfigRowStep(doc, ExportConfigRow(doc.nodes[k], doc.connections), ids, next) == Configured(doc, next)
  {
    var n := doc.nodes[k];
    var c := ExportConfigRow(n, doc.connections);
    var nodes := ConfigNode(doc.nodes, c);
    if k != "" {
      assert nodes[k] == n;
      assert nodes == doc.nodes;
      if c.links != "" {
        LinksRoundTrip(doc.connections, k);
        var parts := Split(c.links, ',');
        forall j | 0 <= j < |parts| ensures Trim(parts[j]) == "" || HasEdge(doc.connections, k, Trim(parts[j])) {
          assert Trim(parts[j]) in Targets(doc.connections, k);
        }
        AddLinksNothingNew(doc.connections, k, parts, ids, next);
      }
    }
  }

  /** Reading back the whole configuration sheet the export writes changes nothing. */
  lemma {:induction false} ReimportKeepsDoc(doc: Doc, order: seq<string>, ids: nat -> string, next: nat)
    requires Nodes.KeyedById(doc)
    requires forall i :: 0 <= i < |order| ==> order[i] in doc.nodes
    requires forall k :: k in doc.nodes ==> CleanTargets(doc.connections, k)
    ensures ProcessNodeConfig(doc, ExportConfig(doc, order), ids, next) == Configured(doc, next)
    decreases |order|
  {
    if |order| > 0 {
      var rows := ExportConfig(doc, order);
      ReimportRowKeepsDoc(doc, order[0], ids, next);
      assert rows[0] == ExportConfigRow(doc.nodes[order[0]], doc.connections);
      assert rows[1..] == ExportConfig(doc, order[1..]);
      ReimportKeepsDoc(doc, order[1..], ids, next);
    }
  }

  /** A type whose tag is non-empty and reads back as the same type. */
  predicate Canonical(t: NodeType) {
    TagOfType(t) != "" && TypeOfTag(TagOfType(t)) == t
  }

  /**
   * A node missing from the diagram is recreated exactly from its exported
   * row when it has an id, a name, the default width and a canonical type.
   */
  lemma NewNodeRoundTrip(nodes: map<string, Node>, n: Node, conns: seq<Connection>)
    requires n.id != "" && n.id !in nodes && n.name != ""
    requires n.width == Nodes.DefaultWidth && Canonical(n.ntype)
    ensures ConfigNode(nodes, ExportConfigRow(n, conns)) == nodes[n.id := n]
  {
  }
}

=== FILE: filters.dfy ===
/**
 * The header filter system of js/filters.js: directorate (`müdürlük`) and
 * service (`hizmet`) selections, the method filter, the set logic behind node
 * and connection highlighting, and the attribute escaping of the dropdowns.
 * Empty selections mean "everything selected".
 */
module Filters {
  import opened Basics
  import opened Store

  /** The ids of the services run by directorate `m`. */
  function ServicesOf(services: map<string, Service>, m: string): (r: set<string>)
    ensures forall sId :: sId in r <==> sId in services && services[sId].mudurluk == m
  {
    set sId | sId in services && services[sId].mudurluk == m
  }

  /**
   * `toggleMudurluk(m)`: deselecting a directorate also deselects all of its
   * services; selecting it also selects all of them. Every other service's
   * membership and the hidden columns are untouched.
   */
  function ToggleMudurluk(f: HeaderFilters, services: map<string, Service>, m: string): (r: HeaderFilters)
    ensures m in r.mudurlukler <==> m !in f.mudurlukler
    ensures forall d :: d != m ==> (d in r.mudurlukler <==> d in f.mudurlukler)
    ensures forall sId :: sId in r.hizmetler <==>
              if sId in services && services[sId].mudurluk == m then m !in f.mudurlukler
              else sId in f.hizmetler
    ensures r.hiddenColumns == f.hiddenColumns
  {
    if m in f.mudurlukler then
      f.(mudurlukler := f.mudurlukler - {m}, hizmetler := f.hizmetler - ServicesOf(services, m))
    else
      f.(mudurlukler := f.mudurlukler + {m}, hizmetler := f.hizmetler + ServicesOf(services, m))
  }

  /**
   * Toggling a directorate on and off again restores the filters, provided
   * none of its services was selected on its own beforehand (those are
   * deselected together with the directorate).
   */
  lemma ToggleMudurlukTwice(f: HeaderFilters, services: map<string, Service>, m: string)
    requires m !in f.mudurlukler
    requires forall sId :: sId in f.hizmetler && sId in services ==> services[sId].mudurluk != m
    ensures ToggleMudurluk(ToggleMudurluk(f, services, m), services, m) == f
  {
    var g := ToggleMudurluk(ToggleMudurluk(f, services, m), services, m);
    assert g.mudurlukler == f.mudurlukler;
    assert g.hizmetler == f.hizmetler;
  }

  /** Every directorate named by some service, the empty name included. */
  function AllMudurlukler(services: map<string, Service>): (r: set<string>)
    ensures forall sId :: sId in services ==> services[sId].mudurluk in r
    ensures forall d :: d in r ==> exists sId :: sId in services && services[sId].mudurluk == d
  {
    set sId | sId in services :: services[sId].mudurluk
  }

  /**
   * `toggleAllMudurluk()`: when as many directorates are selected as there
   * are distinct ones, clears both selections; otherwise selects every
   * directorate and adds every service.
   */
  function ToggleAllMudurluk(f: HeaderFilters, services: map<string, Service>): (r: HeaderFilters)
    ensures |f.mudurlukler| == |AllMudurlukler(services)| ==> r.mudurlukler == {} && r.hizmetler == {}
    ensures |f.mudurlukler| != |AllMudurlukler(services)| ==>
              && r.mudurlukler == AllMudurlukler(services)
              && services.Keys <= r.hizmetler
              && f.hizmetler <= r.hizmetler
              && (forall sId :: sId in r.hizmetler && sId !in services ==> sId in f.hizmetler)
    ensures r.hiddenColumns == f.hiddenColumns
  {
    var all := AllMudurlukler(services);
    if |f.mudurlukler| == |all| then f.(mudurlukler := {}, hizmetler := {})
    else f.(mudurlukler := all, hizmetler := f.hizmetler + services.Keys)
  }

  /** A second `toggleAllMudurluk()` after a select-all clears both selections. */
  lemma ToggleAllMudurlukTwice(f: HeaderFilters, services: map<string, Service>)
    requires |f.mudurlukler| != |AllMudurlukler(services)|
    ensures ToggleAllMudurluk(ToggleAllMudurluk(f, services), services).mudurlukler == {}
    ensures ToggleAllMudurluk(ToggleAllMudurluk(f, services), services).hizmetler == {}
  {
  }

  /** `toggleHizmet(id)`: flips the membership of one service id. */
  function ToggleHizmet(f: HeaderFilters, id: string): (r: HeaderFilters)
    ensures id in r.hizmetler <==> id !in f.hizmetler
    ensures forall s :: s != id ==> (s in r.hizmetler <==> s in f.hizmetler)
    ensures r.mudurlukler == f.mudurlukler && r.hiddenColumns == f.hiddenColumns
  {
    if id in f.hizmetler then f.(hizmetler := f.hizmetler - {id})
    else f.(hizmetler := f.hizmetler + {id})
  }

  lemma ToggleHizmetInvolution(f: HeaderFilters, id: string)
    ensures ToggleHizmet(ToggleHizmet(f, id), id) == f
  {
    var g := ToggleHizmet(ToggleHizmet(f, id), id);
    assert g.hizmetler == f.hizmetler;
  }

  /** A directorate selection admits a directorate when it is empty or names it. */
  predicate MudurlukAdmits(f: HeaderFilters, d: string) {
    |f.mudurlukler| == 0 || d in f.mudurlukler
  }

  /** The service ids the service dropdown lists: those admitted by the directorate selection. */
  function RelevantServices(f: HeaderFilters, services: map<string, Service>): (r: set<string>)
    ensures r <= services.Keys
    ensures |f.mudurlukler| == 0 ==> r == services.Keys
    ensures forall sId :: sId in services ==> (sId in r <==> services[sId].mudurluk in f.mudurlukler || |f.mudurlukler| == 0)
  {
    set sId | sId in services && MudurlukAdmits(f, services[sId].mudurluk)
  }

  /**
   * `toggleAllHizmet()`: if every relevant service is selected, deselects
   * them all; otherwise selects them all. Irrelevant ids keep their state.
   */
  function ToggleAllHizmet(f: HeaderFilters, services: map<string, Service>): (r: HeaderFilters)
    ensures RelevantServices(f, services) <= f.hizmetler ==>
              forall sId :: sId in RelevantServices(f, services) ==> sId !in r.hizmetler
    ensures !(RelevantServices(f, services) <= f.hizmetler) ==> RelevantServices(f, services) <= r.hizmetler
    ensures forall sId :: sId !in RelevantServices(f, services) ==> (sId in r.hizmetler <==> sId in f.hizmetler)
    ensures r.mudurlukler == f.mudurlukler && r.hiddenColumns == f.hiddenColumns
  {
    var relevant := RelevantServices(f, services);
    if relevant <= f.hizmetler then f.(hizmetler := f.hizmetler - relevant)
    else f.(hizmetler := f.hizmetler + relevant)
  }

  /** A select-all on services followed by a second toggle removes exactly the relevant ones. */
  lemma ToggleAllHizmetTwice(f: HeaderFilters, services: map<string, Service>)
    requires !(RelevantServices(f, services) <= f.hizmetler)
    ensures ToggleAllHizmet(ToggleAllHizmet(f, services), services).hizmetler
            == f.hizmetler - RelevantServices(f, services)
  {
  }

  /** `filterByMethod(id)`: the method filter is cleared if it already names `id`, and set to `id` otherwise. */
  function FilterByMethod(current: Option<string>, methodId: string): (r: Option<string>)
    ensures current == Some(methodId) ==> r == None
    ensures current != Some(methodId) ==> r == Some(methodId)
  {
    if current == Some(methodId) then None else Some(methodId)
  }

  lemma FilterByMethodTwice(current: Option<string>, methodId: string)
    requires current.None?
    ensures FilterByMethod(FilterByMethod(current, methodId), methodId) == current
  {
  }

  /** JavaScript truthiness of the method filter: the empty id counts as no filter. */
  predicate MethodActive(methodFilter: Option<string>) {
    methodFilter.Some? && methodFilter.value != ""
  }

  /** Whether any header filter narrows the view. */
  predicate FiltersActive(methodFilter: Option<string>, f: HeaderFilters) {
    MethodActive(methodFilter) || |f.mudurlukler| > 0 || |f.hizmetler| > 0
  }

  /** One service passes the methodFilter, directorate and service filters. */
  predicate Passes(methodFilter: Option<string>, f: HeaderFilters, sId: string, s: Service) {
    && (MethodActive(methodFilter) ==> methodFilter.value in s.path)
    && MudurlukAdmits(f, s.mudurluk)
    && (|f.hizmetler| == 0 || sId in f.hizmetler)
  }

  /** The active services of `updateNodeHighlights`. */
  function ActiveServices(services: map<string, Service>, methodFilter: Option<string>, f: HeaderFilters): (r: set<string>)
    ensures r <= services.Keys
    ensures !FiltersActive(methodFilter, f) ==> r == services.Keys
    ensures forall sId :: sId in r ==> Passes(methodFilter, f, sId, services[sId])
    ensures forall sId :: sId in services && Passes(methodFilter, f, sId, services[sId]) ==> sId in r
  {
    set sId | sId in services && Passes(methodFilter, f, sId, services[sId])
  }

  /** The union of the paths of the active services. */
  function TouchedNodes(services: map<string, Service>, active: set<string>): (r: set<string>)
    requires active <= services.Keys
    ensures forall n :: n in r <==> exists sId :: sId in active && n in services[sId].path
  {
    set sId, n | sId in active && n in services[sId].path :: n
  }

  /** The active services whose path passes through `nodeId`. */
  function ServicesThrough(services: map<string, Service>, active: set<string>, nodeId: string): (r: set<string>)
    requires active <= services.Keys
    ensures r <= active
  {
    set sId | sId in active && nodeId in services[sId].path
  }

  /** The highlight class a node card or connection line ends up with. */
  datatype Mark = Plain | Highlight | Dimmed

  /** The highlight of node `nodeId` and the count its service badge shows. */
  datatype NodeView = NodeView(mark: Mark, badge: nat)

  function NodeHighlight(services: map<string, Service>, methodFilter: Option<string>, f: HeaderFilters, nodeId: string): (r: NodeView)
    ensures !FiltersActive(methodFilter, f) ==> r == NodeView(Plain, 0)
    ensures FiltersActive(methodFilter, f) ==>
              (r.mark == Highlight <==> exists sId :: sId in ActiveServices(services, methodFilter, f) && nodeId in services[sId].path)
    ensures r.mark != Plain ==> FiltersActive(methodFilter, f)
    ensures FiltersActive(methodFilter, f) && r.mark != Highlight ==> r.mark == Dimmed
    ensures r.badge > 0 <==> r.mark == Highlight
    ensures r.badge == (if r.mark == Highlight then |ServicesThrough(services, ActiveServices(services, methodFilter, f), nodeId)| else 0)
  {
    var active := ActiveServices(services, methodFilter, f);
    var touched := TouchedNodes(services, active);
    if !FiltersActive(methodFilter, f) then NodeView(Plain, 0)
    else if nodeId in touched then
      var through := ServicesThrough(services, active, nodeId);
      var sId :| sId in active && nodeId in services[sId].path;
      assert sId in through;
      NodeView(Highlight, |through|)
    else NodeView(Dimmed, 0)
  }

  /** `updateConnectionHighlights`: a connection lights up when both its ends are touched. */
  function ConnectionHighlight(services: map<string, Service>, methodFilter: Option<string>, f: HeaderFilters, c: Connection): (r: Mark)
    ensures !FiltersActive(methodFilter, f) ==> r == Plain
  {
    var touched := TouchedNodes(services, ActiveServices(services, methodFilter, f));
    if !FiltersActive(methodFilter, f) then Plain
    else if c.from in touched && c.to in touched then Highlight
    else Dimmed
  }

  /** A connection is highlighted exactly when both of its end nodes are. */
  lemma ConnectionHighlightMatchesEnds(services: map<string, Service>, methodFilter: Option<string>, f: HeaderFilters, c: Connection)
    ensures ConnectionHighlight(services, methodFilter, f, c) == Highlight
        <==> NodeHighlight(services, methodFilter, f, c.from).mark == Highlight
             && NodeHighlight(services, methodFilter, f, c.to).mark == Highlight
    ensures ConnectionHighlight(services, methodFilter, f, c) == Dimmed
        <==> FiltersActive(methodFilter, f) && ConnectionHighlight(services, methodFilter, f, c) != Highlight
  {
  }

  /** `clearAllFilters()`: no method filter and both selections empty; hidden columns stay. */
  function ClearAllFilters(f: HeaderFilters): (r: HeaderFilters)
    ensures |r.mudurlukler| == 0 && |r.hizmetler| == 0
    ensures r.hiddenColumns == f.hiddenColumns
  {
    f.(mudurlukler := {}, hizmetler := {})
  }

  /** After clearing every filter no node or connection is highlighted or dimmed. */
  lemma ClearedFiltersShowEverything(services: map<string, Service>, f: HeaderFilters, nodeId: string, c: Connection)
    ensures NodeHighlight(services, None, ClearAllFilters(f), nodeId) == NodeView(Plain, 0)
    ensures ConnectionHighlight(services, None, ClearAllFilters(f), c) == Plain
    ensures ActiveServices(services, None, ClearAllFilters(f)) == services.Keys
  {
  }

  // ---------------------------------------------------------------------
  // Escaping of dropdown attribute values
  // ---------------------------------------------------------------------

  /** `str.replace(/c/g, rep)`. */
  function ReplaceAll(s: string, c: char, rep: string): (r: string)
    ensures c !in rep ==> c !in r
    decreases |s|
  {
    if |s| == 0 then ""
    else (if s[0] == c then rep else [s[0]]) + ReplaceAll(s[1..], c, rep)
  }

  /**
   * `escapeForHtml` of `renderDropdowns`: five successive global
   * replacements, backslash first.
   */
  function EscapeForHtml(s: string): (r: string)
    ensures s == "" ==> r == ""
  {
    var a := ReplaceAll(s, '\\', "\\\\");
    var b := ReplaceAll(a, '\'', "\\'");
    var c := ReplaceAll(b, '"', "&quot;");
    var d := ReplaceAll(c, '<', "&lt;");
    ReplaceAll(d, '>', "&gt;")
  }

  /** What each input character becomes after all five passes. */
  function EscapeCharForHtml(c: char): string {
    if c == '\\' then "\\\\"
    else if c == '\'' then "\\'"
    else if c == '"' then "&quot;"
    else if c == '<' then "&lt;"
    else if c == '>' then "&gt;"
    else [c]
  }

  /** Maps a per-character escape over a string. */
  function MapChars(s: string, esc: char -> string): string
    decreases |s|
  {
    if |s| == 0 then "" else esc(s[0]) + MapChars(s[1..], esc)
  }

  /** A character no single escape produces does not occur in the mapped string. */
  lemma {:induction false} MapCharsAvoids(s: string, esc: char -> string, ch: char)
    requires forall c :: ch !in esc(c)
    ensures ch !in MapChars(s, esc)
    decreases |s|
  {
    if |s| > 0 {
      MapCharsAvoids(s[1..], esc, ch);
    }
  }

  lemma {:induction false} ReplaceAllAppend(a: string, b: string, c: char, rep: string)
    ensures ReplaceAll(a + b, c, rep) == ReplaceAll(a, c, rep) + ReplaceAll(b, c, rep)
    decreases |a|
  {
    if |a| > 0 {
      assert (a + b)[1..] == a[1..] + b;
      ReplaceAllAppend(a[1..], b, c, rep);
    } else {
      assert a + b == b;
    }
  }

  lemma ReplaceAllOther(s: string, c: char, rep: string)
    requires c !in s
    ensures ReplaceAll(s, c, rep) == s
    decreases |s|
  {
    if |s| > 0 {
      ReplaceAllOther(s[1..], c, rep);
    }
  }

  /** The five passes of one character, carried out one after another. */
  function PassesOn(s: string): string {
    ReplaceAll(ReplaceAll(ReplaceAll(ReplaceAll(ReplaceAll(s, '\\', "\\\\"), '\'', "\\'"), '"', "&quot;"), '<', "&lt;"), '>', "&gt;")
  }

  lemma PassesOnAppend(a: string, b: string)
    ensures PassesOn(a + b) == PassesOn(a) + PassesOn(b)
  {
    ReplaceAllAppend(a, b, '\\', "\\\\");
    var a1, b1 := ReplaceAll(a, '\\', "\\\\"), ReplaceAll(b, '\\', "\\\\");
    ReplaceAllAppend(a1, b1, '\'', "\\'");
    var a2, b2 := ReplaceAll(a1, '\'', "\\'"), ReplaceAll(b1, '\'', "\\'");
    ReplaceAllAppend(a2, b2, '"', "&quot;");
    var a3, b3 := ReplaceAll(a2, '"', "&quot;"), ReplaceAll(b2, '"', "&quot;");
    ReplaceAllAppend(a3, b3, '<', "&lt;");
    var a4, b4 := ReplaceAll(a3, '<', "&lt;"), ReplaceAll(b3, '<', "&lt;");
    ReplaceAllAppend(a4, b4, '>', "&gt;");
  }

  lemma ReplaceAllChar(c: char, x: char, rep: string)
    ensures ReplaceAll([c], x, rep) == if c == x then rep else [c]
  {
    assert [c][1..] == [];
  }

  /** One character through the five passes, given what the first `k` passes leave of it. */
  lemma PassesFrom(c: char, s1: string, s2: string, s3: string, s4: string)
    requires s1 == ReplaceAll([c], '\\', "\\\\")
    requires s2 == ReplaceAll(s1, '\'', "\\'")
    requires s3 == ReplaceAll(s2, '"', "&quot;")
    requires s4 == ReplaceAll(s3, '<', "&lt;")
    ensures PassesOn([c]) == ReplaceAll(s4, '>', "&gt;")
  {
  }

  /** Each character goes through the five passes; only its own pass rewrites it. */
  lemma PassesOnChar(c: char)
    ensures PassesOn([c]) == EscapeCharForHtml(c)
  {
    if c == '\\' {
      PassesOnBackslash();
    } else if c == '\'' {
      PassesOnApostrophe();
    } else if c == '"' {
      PassesOnQuote();
    } else if c == '<' {
      PassesOnLess();
    } else if c == '>' {
      PassesOnGreater();
    } else {
      PassesOnPlain(c);
    }
  }

  lemma PassesOnPlain(c: char)
    requires c != '\\' && c != '\'' && c != '"' && c != '<' && c != '>'
    ensures PassesOn([c]) == [c]
  {
    ReplaceAllChar(c, '\\', "\\\\");
    ReplaceAllChar(c, '\'', "\\'");
    ReplaceAllChar(c, '"', "&quot;");
    ReplaceAllChar(c, '<', "&lt;");
    ReplaceAllChar(c, '>', "&gt;");
    PassesFrom(c, [c], [c], [c], [c]);
  }

  lemma PassesOnQuote()
    ensures PassesOn("\"") == "&quot;"
  {
    var c := '"';
    ReplaceAllChar(c, '\\', "\\\\");
    ReplaceAllChar(c, '\'', "\\'");
    ReplaceAllChar(c, '"', "&quot;");
    assert '<' !in "&quot;" && '>' !in "&quot;";
    ReplaceAllOther("&quot;", '<', "&lt;");
    ReplaceAllOther("&quot;", '>', "&gt;");
    PassesFrom(c, [c], [c], "&quot;", "&quot;");
  }

  lemma PassesOnLess()
    ensures PassesOn("<") == "&lt;"
  {
    var c := '<';
    ReplaceAllChar(c, '\\', "\\\\");
    ReplaceAllChar(c, '\'', "\\'");
    ReplaceAllChar(c, '"', "&quot;");
    ReplaceAllChar(c, '<', "&lt;");
    ReplaceAllOther("&lt;", '>', "&gt;");
    PassesFrom(c, [c], [c], [c], "&lt;");
  }

  lemma PassesOnGreater()
    ensures PassesOn(">") == "&gt;"
  {
    var c := '>';
    ReplaceAllChar(c, '\\', "\\\\");
    ReplaceAllChar(c, '\'', "\\'");
    ReplaceAllChar(c, '"', "&quot;");
    ReplaceAllChar(c, '<', "&lt;");
    ReplaceAllChar(c, '>', "&gt;");
    PassesFrom(c, [c], [c], [c], [c]);
  }

  lemma PassesOnBackslash()
    ensures PassesOn("\\") == "\\\\"
  {
    var b := "\\\\";
    ReplaceAllChar('\\', '\\', b);
    ReplaceAllOther(b, '\'', "\\'");
    ReplaceAllOther(b, '"', "&quot;");
    ReplaceAllOther(b, '<', "&lt;");
    ReplaceAllOther(b, '>', "&gt;");
    PassesFrom('\\', b, b, b, b);
  }

  lemma PassesOnApostrophe()
    ensures PassesOn("'") == "\\'"
  {
    var a := "\\'";
    ReplaceAllChar('\'', '\\', "\\\\");
    ReplaceAllChar('\'', '\'', a);
    ReplaceAllOther(a, '"', "&quot;");
    ReplaceAllOther(a, '<', "&lt;");
    ReplaceAllOther(a, '>', "&gt;");
    PassesFrom('\'', "'", a, a, a);
  }

  /**
   * The chained replacements amount to escaping each character on its own:
   * no pass ever rewrites what an earlier pass produced.
   */
  lemma {:induction false} EscapeForHtmlPerChar(s: string)
    ensures EscapeForHtml(s) == MapChars(s, EscapeCharForHtml)
    decreases |s|
  {
    assert EscapeForHtml(s) == PassesOn(s);
    if |s| > 0 {
      assert s == [s[0]] + s[1..];
      PassesOnAppend([s[0]], s[1..]);
      PassesOnChar(s[0]);
      EscapeForHtmlPerChar(s[1..]);
    }
  }

  /** The escaped value holds no raw `<`, `>` or `"`, so it cannot end the attribute or open a tag. */
  lemma EscapeForHtmlSafe(s: string)
    ensures '<' !in EscapeForHtml(s) && '>' !in EscapeForHtml(s) && '"' !in EscapeForHtml(s)
  {
    EscapeForHtmlPerChar(s);
    MapCharsAvoids(s, EscapeCharForHtml, '<');
    MapCharsAvoids(s, EscapeCharForHtml, '>');
    MapCharsAvoids(s, EscapeCharForHtml, '"');
  }

  /**
   * How a browser reads an attribute value back (`element.dataset`):
   * character references are decoded; backslashes are ordinary characters.
   * Only the four references the escapers produce are recognised here.
   */
  function AttrDecode(s: string): string
    decreases |s|
  {
    if |s| == 0 then ""
    else if s[0] != '&' then [s[0]] + AttrDecode(s[1..])
    else if |s| >= 6 && s[..6] == "&quot;" then "\"" + AttrDecode(s[6..])
    else if |s| >= 5 && s[..5] == "&amp;" then "&" + AttrDecode(s[5..])
    else if |s| >= 4 && s[..4] == "&lt;" then "<" + AttrDecode(s[4..])
    else if |s| >= 4 && s[..4] == "&gt;" then ">" + AttrDecode(s[4..])
    else "&" + AttrDecode(s[1..])
  }

  /** Character references aside, decoding leaves a string alone. */
  lemma AttrDecodePlain(s: string)
    requires '&' !in s
    ensures AttrDecode(s) == s
    decreases |s|
  {
    if |s| > 0 {
      AttrDecodePlain(s[1..]);
    }
  }

  /** A character that neither escaper nor the decoder treats specially. */
  predicate PlainChar(c: char) {
    c != '\\' && c != '\'' && c != '"' && c != '<' && c != '>' && c != '&'
  }

  lemma {:induction false} PassesOnPlainString(s: string)
    requires forall i :: 0 <= i < |s| ==> PlainChar(s[i])
    ensures PassesOn(s) == s
    decreases |s|
  {
    if |s| > 0 {
      assert s == [s[0]] + s[1..];
      PassesOnAppend([s[0]], s[1..]);
      PassesOnPlain(s[0]);
      PassesOnPlainString(s[1..]);
    } else {
      assert PassesOn(s) == "";
    }
  }

  /**
   * The directorate name a click on a dropdown option hands to
   * `toggleMudurluk`, for the name the option was rendered from: any
   * apostrophe comes back with a backslash in front of it, so the click
   * toggles a directorate no service has.
   */
  lemma EscapeForHtmlApostropheDoesNotRoundTrip(x: string, y: string)
    requires forall i :: 0 <= i < |x| ==> PlainChar(x[i])
    requires forall i :: 0 <= i < |y| ==> PlainChar(y[i])
    ensures EscapeForHtml(x + "'" + y) == x + "\\'" + y
    ensures AttrDecode(EscapeForHtml(x + "'" + y)) == x + "\\'" + y
    ensures AttrDecode(EscapeForHtml(x + "'" + y)) != x + "'" + y
  {
    var s := x + "'" + y;
    assert EscapeForHtml(s) == PassesOn(s);
    PassesOnAppend(x + "'", y);
    PassesOnAppend(x, "'");
    PassesOnPlainString(x);
    PassesOnPlainString(y);
    PassesOnApostrophe();
    var e := x + "\\'" + y;
    assert '&' !in e by {
      assert forall i :: 0 <= i < |e| ==> e[i] != '&' by {
        forall i | 0 <= i < |e| ensures e[i] != '&' {
          if i < |x| { assert e[i] == x[i]; }
          else if i < |x| + 2 { }
          else { assert e[i] == y[i - |x| - 2]; }
        }
      }
    }
    AttrDecodePlain(e);
    assert |e| != |s|;
  }

  /** The smallest such name: a lone apostrophe. */
  lemma ApostropheCounterexample()
    ensures AttrDecode(EscapeForHtml("'")) == "\\'"
  {
    EscapeForHtmlApostropheDoesNotRoundTrip("", "");
    assert "" + "'" + "" == "'";
    assert "" + "\\'" + "" == "\\'";
  }

  /** Attribute escaping with character references only, which the browser undoes exactly. */
  function EscapeAttrChar(c: char): string {
    if c == '&' then "&amp;"
    else if c == '"' then "&quot;"
    else if c == '<' then "&lt;"
    else if c == '>' then "&gt;"
    else [c]
  }

  function EscapeAttr(s: string): (r: string)
    ensures '<' !in r && '>' !in r && '"' !in r
    ensures s == "" ==> r == ""
    decreases |s|
  {
    if |s| == 0 then "" else EscapeAttrChar(s[0]) + EscapeAttr(s[1..])
  }

  lemma DecodeEscapedChar(c: char, rest: string)
    ensures AttrDecode(EscapeAttrChar(c) + rest) == [c] + AttrDecode(rest)
  {
    var s := EscapeAttrChar(c) + rest;
    if c == '&' {
      assert s[..5] == "&amp;" && s[5..] == rest;
      assert s[1] == 'a';
      assert |s| >= 6 ==> s[..6] != "&quot;" by { assert |s| >= 6 ==> s[..6][1] == 'a'; }
    } else if c == '"' {
      assert s[..6] == "&quot;" && s[6..] == rest;
    } else if c == '<' {
      assert s[..4] == "&lt;" && s[4..] == rest;
      assert |s| >= 6 ==> s[..6] != "&quot;" by { assert |s| >= 6 ==> s[..6][1] == 'l'; }
      assert |s| >= 5 ==> s[..5] != "&amp;" by { assert |s| >= 5 ==> s[..5][1] == 'l'; }
    } else if c == '>' {
      assert s[..4] == "&gt;" && s[4..] == rest;
      assert |s| >= 6 ==> s[..6] != "&quot;" by { assert |s| >= 6 ==> s[..6][1] == 'g'; }
      assert |s| >= 5 ==> s[..5] != "&amp;" by { assert |s| >= 5 ==> s[..5][1] == 'g'; }
      assert s[..4] != "&lt;" by { assert s[..4][1] == 'g'; }
    } else {
      assert s[0] == c && s[1..] == rest;
    }
  }

  /** Every directorate name survives the render-and-click round trip unchanged. */
  lemma {:induction false} EscapeAttrRoundTrip(s: string)
    ensures AttrDecode(EscapeAttr(s)) == s
    decreases |s|
  {
    if |s| > 0 {
      DecodeEscapedChar(s[0], EscapeAttr(s[1..]));
      EscapeAttrRoundTrip(s[1..]);
      assert s == [s[0]] + s[1..];
    }
  }

  /** A click on the dropdown option rendered for directorate `m`. */
  function MudurlukOptionClick(f: HeaderFilters, services: map<string, Service>, m: string): (r: HeaderFilters)
    ensures r == ToggleMudurluk(f, services, m)
  {
    EscapeAttrRoundTrip(m);
    ToggleMudurluk(f, services, AttrDecode(EscapeAttr(m)))
  }
}

=== FILE: geometry.dfy ===
/**
 * The pure helpers of js/utils.js: type-derived card height and connection
 * anchors, the generic `sortBy`, and identifier generation with the clock
 * reading and the random draw passed in.
 */
module Geometry {
  import opened Basics
  import opened Store

  /** The four anchor points of a node card. */
  datatype Anchors = Anchors(top: Point, bottom: Point, left: Point, right: Point)

  /** The card height the anchor maths assumes: method cards are shorter than the rest. */
  function Height(t: NodeType): (h: real)
    ensures t == Method ==> h == 80.0
    ensures t != Method ==> h == 100.0
  {
    if t == Hub then 100.0 else if t == Method then 80.0 else 100.0
  }

  /**
   * `getConnectionPoints`: top and bottom sit on the vertical centre line,
   * left and right on the horizontal one, and the anchors span exactly the
   * card's width and type-derived height.
   */
  function ConnectionPoints(n: Node): (r: Anchors)
    ensures r.top.x == r.bottom.x == n.x + n.width / 2.0
    ensures r.left.y == r.right.y == n.y + Height(n.ntype) / 2.0
    ensures r.left.x == n.x && r.top.y == n.y
    ensures r.right.x - r.left.x == n.width
    ensures r.bottom.y - r.top.y == Height(n.ntype)
  {
    var h := Height(n.ntype);
    Anchors(
      Point(n.x + n.width / 2.0, n.y),
      Point(n.x + n.width / 2.0, n.y + h),
      Point(n.x, n.y + h / 2.0),
      Point(n.x + n.width, n.y + h / 2.0))
  }

  /**
   * `sortBy(arr, key)`: a stable ascending sort of `arr` by its key. The
   * source compares property values with `>`; here the key is an integer.
   */
  function SortBy<T>(arr: seq<T>, key: T -> int): (r: seq<T>)
    ensures SortedBy(r, key)
    ensures multiset(r) == multiset(arr)
  {
    SortByKey(arr, key)
  }

  lemma SortByStable<T>(arr: seq<T>, key: T -> int, k: int)
    ensures WithKey(SortBy(arr, key), key, k) == WithKey(arr, key, k)
  {
    SortByKeyStable(arr, key, k);
  }

  /** `Math.floor(random * 1000)` for a draw `random` in [0, 1). */
  function RandomBucket(random: real): (n: nat)
    requires 0.0 <= random < 1.0
    ensures n <= 999
    ensures n as real <= random * 1000.0 < n as real + 1.0
  {
    (random * 1000.0).Floor
  }

  /** The default prefix of `generateId()`. */
  const DefaultIdPrefix := "id"

  /**
   * `generateId(prefix)` with `Date.now()` and `Math.random()` passed in as
   * `now` and `random`: `prefix_now_n` with `n` the random bucket.
   */
  function GenerateId(prefix: Option<string>, now: nat, random: real): (r: string)
    requires 0.0 <= random < 1.0
    ensures |r| > |prefix.GetOr(DefaultIdPrefix)| + 1
    ensures prefix.None? ==> r[..|DefaultIdPrefix| + 1] == DefaultIdPrefix + "_"
    ensures prefix.Some? ==> r[..|prefix.value| + 1] == prefix.value + "_"
    ensures r[|prefix.GetOr(DefaultIdPrefix)| + 1..] == NatToString(now) + "_" + NatToString(RandomBucket(random))
  {
    var p := prefix.GetOr(DefaultIdPrefix);
    p + "_" + NatToString(now) + "_" + NatToString(RandomBucket(random))
  }

  /** The index of the first `c` in `s`, or `|s|` when there is none. */
  function IndexOf(s: string, c: char): (i: nat)
    ensures i <= |s|
  {
    if |s| == 0 then 0 else if s[0] == c then 0 else 1 + IndexOf(s[1..], c)
  }

  lemma {:induction false} IndexOfJoin(x: string, y: string, c: char)
    requires c !in x
    ensures IndexOf(x + [c] + y, c) == |x|
  {
    if |x| > 0 {
      assert (x + [c] + y)[1..] == x[1..] + [c] + y;
      IndexOfJoin(x[1..], y, c);
    }
  }

  /** Two strings joined by `_` split back uniquely when the first holds no `_`. */
  lemma UnderscoreSplit(x: string, y: string, u: string, v: string)
    requires '_' !in x && '_' !in u
    requires x + "_" + y == u + "_" + v
    ensures x == u && y == v
  {
    var s := x + "_" + y;
    IndexOfJoin(x, y, '_');
    IndexOfJoin(u, v, '_');
    assert |x| == |u|;
    assert x == s[..|x|] == u;
    assert y == s[|x| + 1..] == v;
  }

  lemma DigitsHaveNoUnderscore(n: nat)
    ensures '_' !in NatToString(n)
  {
    var d := NatToString(n);
    assert forall i :: 0 <= i < |d| ==> d[i] != '_';
  }

  /** A common prefix cancels on the left. */
  lemma PrefixCancels(p: string, s1: string, s2: string)
    requires p + s1 == p + s2
    ensures s1 == s2
  {
    assert s1 == (p + s1)[|p|..];
    assert s2 == (p + s2)[|p|..];
  }

  /** Two ids with one prefix split back into their clock digits and bucket digits. */
  lemma IdPartsEqual(p: string, a1: string, b1: string, a2: string, b2: string)
    requires '_' !in a1 && '_' !in a2
    requires (p + "_") + (a1 + "_" + b1) == (p + "_") + (a2 + "_" + b2)
    ensures a1 == a2 && b1 == b2
  {
    PrefixCancels(p + "_", a1 + "_" + b1, a2 + "_" + b2);
    UnderscoreSplit(a1, b1, a2, b2);
  }

  /** An id is its prefix and `_`, followed by its clock and bucket parts. */
  lemma GenerateIdParts(prefix: Option<string>, now: nat, random: real)
    requires 0.0 <= random < 1.0
    ensures GenerateId(prefix, now, random)
         == (prefix.GetOr(DefaultIdPrefix) + "_") + (NatToString(now) + "_" + NatToString(RandomBucket(random)))
  {
    var p, g := prefix.GetOr(DefaultIdPrefix), GenerateId(prefix, now, random);
    assert g == g[..|p| + 1] + g[|p| + 1..];
  }

  /**
   * Ids generated with one prefix coincide exactly when the clock readings
   * and the random buckets do: a collision needs the same millisecond and
   * the same bucket out of 1000.
   */
  lemma GenerateIdInjective(prefix: Option<string>, t1: nat, r1: real, t2: nat, r2: real)
    requires 0.0 <= r1 < 1.0 && 0.0 <= r2 < 1.0
    ensures GenerateId(prefix, t1, r1) == GenerateId(prefix, t2, r2)
        <==> t1 == t2 && RandomBucket(r1) == RandomBucket(r2)
  {
    var n1, n2 := RandomBucket(r1), RandomBucket(r2);
    if GenerateId(prefix, t1, r1) == GenerateId(prefix, t2, r2) {
      GenerateIdParts(prefix, t1, r1);
      GenerateIdParts(prefix, t2, r2);
      DigitsHaveNoUnderscore(t1);
      DigitsHaveNoUnderscore(t2);
      IdPartsEqual(prefix.GetOr(DefaultIdPrefix), NatToString(t1), NatToString(n1), NatToString(t2), NatToString(n2));
      NatToStringInjective(t1, t2);
      NatToStringInjective(n1, n2);
    }
  }
}

=== FILE: history.dfy ===
/**
 * The undo/redo snapshot manager of js/state.js (`HistoryManager`): two
 * stacks of deep copies of the diagram, the undo stack bounded by
 * `MAX_HISTORY`. Stack tops are the last elements of the sequences. The
 * clock reading stamped on each snapshot is passed in as `now`.
 */
module History {
  import opened Store

  /** `MAX_HISTORY`. */
  const MaxHistory: nat := 50

  /** A deep copy of nodes and connections, tagged with an action label and a timestamp. */
  datatype Snapshot = Snapshot(action: string, timestamp: int, doc: Doc)

  datatype History = History(undo: seq<Snapshot>, redo: seq<Snapshot>)

  /** The result of `undo()`/`redo()`: the returned flag and the new history and diagram. */
  datatype Step = Step(ok: bool, history: History, doc: Doc)

  const Initial := History([], [])

  /** Together the two stacks never hold more than `MAX_HISTORY` snapshots. */
  predicate Bounded(h: History) {
    |h.undo| + |h.redo| <= MaxHistory
  }

  /** The last `MAX_HISTORY` entries of a sequence. */
  function Newest<T>(s: seq<T>): (r: seq<T>)
    ensures |r| <= MaxHistory
  {
    if |s| <= MaxHistory then s else s[|s| - MaxHistory..]
  }

  /**
   * `saveState(action)`: pushes a snapshot of the current diagram, empties
   * the redo stack, and drops the oldest undo entry when the stack has
   * grown past `MAX_HISTORY`.
   */
  function SaveState(h: History, doc: Doc, action: string, now: int): (r: History)
    ensures r.redo == []
    ensures |r.undo| > 0 && r.undo[|r.undo| - 1] == Snapshot(action, now, doc)
    ensures |r.undo| == (if |h.undo| + 1 > MaxHistory then |h.undo| else |h.undo| + 1)
    ensures r.undo == (h.undo + [Snapshot(action, now, doc)])[|h.undo| + 1 - |r.undo|..]
    ensures |h.undo| <= MaxHistory ==> Bounded(r)
  {
    var pushed := h.undo + [Snapshot(action, now, doc)];
    var trimmed := if |pushed| > MaxHistory then pushed[1..] else pushed;
    History(trimmed, [])
  }

  /**
   * `undo()`: with an empty undo stack, reports failure and changes nothing;
   * otherwise the current diagram goes onto the redo stack and the newest
   * undo snapshot becomes current.
   */
  function Undo(h: History, doc: Doc, now: int): (r: Step)
    ensures |h.undo| == 0 ==> !r.ok && r.history == h && r.doc == doc
    ensures |h.undo| > 0 ==>
              && r.ok && r.doc == h.undo[|h.undo| - 1].doc
              && r.history.undo == h.undo[..|h.undo| - 1]
              && r.history.redo == h.redo + [Snapshot("redo", now, doc)]
    ensures |r.history.undo| + |r.history.redo| == |h.undo| + |h.redo|
  {
    if |h.undo| == 0 then Step(false, h, doc)
    else
      var redo := h.redo + [Snapshot("redo", now, doc)];
      var prev := h.undo[|h.undo| - 1];
      Step(true, History(h.undo[..|h.undo| - 1], redo), prev.doc)
  }

  /** `redo()`: the mirror image of `undo()`, consuming the redo stack. */
  function Redo(h: History, doc: Doc, now: int): (r: Step)
    ensures |h.redo| == 0 ==> !r.ok && r.history == h && r.doc == doc
    ensures |h.redo| > 0 ==>
              && r.ok && r.doc == h.redo[|h.redo| - 1].doc
              && r.history.redo == h.redo[..|h.redo| - 1]
              && r.history.undo == h.undo + [Snapshot("undo", now, doc)]
    ensures |r.history.undo| + |r.history.redo| == |h.undo| + |h.redo|
  {
    if |h.redo| == 0 then Step(false, h, doc)
    else
      var undo := h.undo + [Snapshot("undo", now, doc)];
      var next := h.redo[|h.redo| - 1];
      Step(true, History(undo, h.redo[..|h.redo| - 1]), next.doc)
  }

  function CanUndo(h: History): bool {
    |h.undo| > 0
  }

  function CanRedo(h: History): bool {
    |h.redo| > 0
  }

  /** `canUndo()` holds exactly when `undo()` would succeed, and likewise for redo. */
  lemma CanUndoRedoMeansSuccess(h: History, doc: Doc, now: int)
    ensures CanUndo(h) <==> Undo(h, doc, now).ok
    ensures CanRedo(h) <==> Redo(h, doc, now).ok
  {
  }

  /** Every history operation keeps the two stacks within `MAX_HISTORY` together. */
  lemma BoundedPreserved(h: History, doc: Doc, action: string, now: int)
    requires Bounded(h)
    ensures Bounded(SaveState(h, doc, action, now))
    ensures Bounded(Undo(h, doc, now).history)
    ensures Bounded(Redo(h, doc, now).history)
  {
  }

  /**
   * `saveState(); mutate; undo()` restores the diagram as it was before the
   * mutation; the undo stack is back where it started unless the save had
   * to drop the oldest entry.
   */
  lemma SaveMutateUndo(h: History, before: Doc, after: Doc, action: string, t1: int, t2: int)
    ensures Undo(SaveState(h, before, action, t1), after, t2).ok
    ensures Undo(SaveState(h, before, action, t1), after, t2).doc == before
    ensures |h.undo| < MaxHistory ==> Undo(SaveState(h, before, action, t1), after, t2).history.undo == h.undo
    ensures Undo(SaveState(h, before, action, t1), after, t2).history.redo == [Snapshot("redo", t2, after)]
  {
    var s := SaveState(h, before, action, t1);
    if |h.undo| < MaxHistory {
      assert s.undo == h.undo + [Snapshot(action, t1, before)];
      assert s.undo[..|s.undo| - 1] == h.undo;
    }
  }

  /** A successful `undo()` followed by `redo()` restores the undone diagram and the redo stack. */
  lemma UndoThenRedo(h: History, doc: Doc, t1: int, t2: int)
    requires Undo(h, doc, t1).ok
    ensures Redo(Undo(h, doc, t1).history, Undo(h, doc, t1).doc, t2).ok
    ensures Redo(Undo(h, doc, t1).history, Undo(h, doc, t1).doc, t2).doc == doc
    ensures Redo(Undo(h, doc, t1).history, Undo(h, doc, t1).doc, t2).history.redo == h.redo
    ensures |Redo(Undo(h, doc, t1).history, Undo(h, doc, t1).doc, t2).history.undo| == |h.undo|
  {
    var u := Undo(h, doc, t1);
    assert u.history.redo[..|u.history.redo| - 1] == h.redo;
  }

  /** A successful `redo()` followed by `undo()` restores the redone-over diagram and the undo stack. */
  lemma RedoThenUndo(h: History, doc: Doc, t1: int, t2: int)
    requires Redo(h, doc, t1).ok
    ensures Undo(Redo(h, doc, t1).history, Redo(h, doc, t1).doc, t2).ok
    ensures Undo(Redo(h, doc, t1).history, Redo(h, doc, t1).doc, t2).doc == doc
    ensures Undo(Redo(h, doc, t1).history, Redo(h, doc, t1).doc, t2).history.undo == h.undo
    ensures |Undo(Redo(h, doc, t1).history, Redo(h, doc, t1).doc, t2).history.redo| == |h.redo|
  {
    var r := Redo(h, doc, t1);
    assert r.history.undo[..|r.history.undo| - 1] == h.undo;
  }

  /** Applies `saveState` once per snapshot in `entries`, oldest first. */
  function SaveAll(h: History, entries: seq<Snapshot>): History
    decreases |entries|
  {
    if |entries| == 0 then h
    else SaveAll(SaveState(h, entries[0].doc, entries[0].action, entries[0].timestamp), entries[1..])
  }

  lemma NewestOfNewest<T>(s: seq<T>, t: seq<T>)
    ensures Newest(Newest(s) + t) == Newest(s + t)
  {
    if |s| > MaxHistory {
      var k := Newest(s);
      if |s + t| > MaxHistory {
        assert (k + t)[|k + t| - MaxHistory..] == (s + t)[|s + t| - MaxHistory..];
      }
    }
  }

  /** Keeping the newest entries after the first push and again after the rest is keeping them once. */
  lemma NewestStep<T>(u: seq<T>, entries: seq<T>)
    requires |entries| > 0
    ensures Newest(Newest(u + [entries[0]]) + entries[1..]) == Newest(u + entries)
  {
    NewestOfNewest(u + [entries[0]], entries[1..]);
    assert u + [entries[0]] + entries[1..] == u + entries;
  }

  /** One save keeps the newest `MAX_HISTORY` entries of the stack with the snapshot pushed. */
  lemma SaveStateIsNewest(h: History, e: Snapshot)
    requires |h.undo| <= MaxHistory
    ensures SaveState(h, e.doc, e.action, e.timestamp).undo == Newest(h.undo + [e])
  {
    assert e == Snapshot(e.action, e.timestamp, e.doc);
  }

  /** `SaveAll` over a non-empty sequence saves its first snapshot, which empties the redo stack, then the rest. */
  lemma SaveAllStep(h: History, entries: seq<Snapshot>)
    requires |h.undo| <= MaxHistory && |entries| > 0
    ensures var h1 := SaveState(h, entries[0].doc, entries[0].action, entries[0].timestamp);
            && SaveAll(h, entries) == SaveAll(h1, entries[1..])
            && h1.undo == Newest(h.undo + [entries[0]])
            && h1.redo == []
  {
    SaveStateIsNewest(h, entries[0]);
  }

  /**
   * After any number of guarded mutations the undo stack holds exactly the
   * newest `MAX_HISTORY` snapshots, in order: sixty saves from an empty
   * history leave fifty, the oldest ten discarded.
   */
  lemma {:induction false} SaveAllKeepsNewest(h: History, entries: seq<Snapshot>)
    requires |h.undo| <= MaxHistory
    ensures SaveAll(h, entries).undo == Newest(h.undo + entries)
    ensures |entries| > 0 ==> SaveAll(h, entries).redo == []
    decreases |entries|
  {
    if |entries| == 0 {
      assert h.undo + entries == h.undo;
    } else {
      var e, rest := entries[0], entries[1..];
      var h1 := SaveState(h, e.doc, e.action, e.timestamp);
      SaveAllStep(h, entries);
      SaveAllKeepsNewest(h1, rest);
      NewestStep(h.undo, entries);
    }
  }
}

=== FILE: modal.dfy ===
/**
 * The comparison-matrix modal of js/modal.js: the rule filter and sort
 * pipeline shared by the table and the spreadsheet export, the column set
 * of the table, the column and row filter toggles, the dropdown
 * selections, the expansion state, grouping by detail level and the rows
 * the export builds. HTML markup is not modelled, only the data it shows.
 */
module Modal {
  import opened Basics
  import opened Store
  import Filters
  import Nodes

  /** `AppState.modal.detailLevel`: `'ustgrup'`, `'grupetiket'` or `'durum'`. */
  datatype Level = UstGrupLevel | GrupEtiketLevel | DurumLevel

  /**
   * The label of rules without a top group. The source file's literal is
   * the UTF-8 bytes of "Diğer" read back as Mac Roman, and the program
   * shows exactly those characters.
   */
  const OtherGroupLabel: string := "Di\U{192}\U{FC}er"

  /** The label of rules without a group label. */
  const GeneralLabel: string := "Genel"

  /**
   * The separator between label parts in exported row labels: a space,
   * the Mac Roman reading of the UTF-8 bytes of "›", and a space.
   */
  const LabelSeparator: string := " \U{201A}\U{C4}\U{222B} "

  /**
   * The modal part of `AppState.modal`. Expansion maps hold only `true`
   * entries that matter, so they are sets of keys. The row filter key
   * `row-N` is kept as `N`. Undeclared fields start out `undefined`,
   * here `None`.
   */
  datatype ModalState = ModalState(
    detailLevel: Level,
    showDeger: bool,
    showTur: bool,
    showIslem: bool,
    ustGruplar: set<string>,
    turler: set<string>,
    hizmetler: set<string>,
    expandedUstGrup: set<string>,
    expandedGrupEtiketi: set<string>,
    columnFilter: Option<string>,
    rowFilter: Option<nat>,
    rowFilterRules: Option<seq<Rule>>)

  /** The initial `AppState.modal`. */
  const InitialModal := ModalState(DurumLevel, true, true, true, {}, {}, {}, {}, {}, None, None, None)

  /** `AppState.matrixData[nodeId] || []`. */
  function RulesOf(matrix: map<string, seq<Rule>>, nodeId: string): (r: seq<Rule>)
    ensures nodeId !in matrix ==> r == []
  {
    if nodeId in matrix then matrix[nodeId] else []
  }

  // ---------------------------------------------------------------------
  // Rule filter and sort pipeline (renderTable and exportToExcel)
  // ---------------------------------------------------------------------

  /** The column filter is active when it holds a non-empty service id. */
  predicate ColumnFilterActive(m: ModalState) {
    m.columnFilter.Some? && m.columnFilter.value != ""
  }

  /** The row filter is active when both its key and its rules are set. */
  predicate RowFilterActive(m: ModalState) {
    m.rowFilter.Some? && m.rowFilterRules.Some?
  }

  /** Whether some cell of the rule carries a type from `turler`. */
  predicate HasTypeIn(r: Rule, turler: set<string>) {
    exists sId :: sId in r.values && r.values[sId].vtype != "" && r.values[sId].vtype in turler
  }

  /** The top-group stage: keeps rules whose top group is selected. */
  function UstGrupSelected(sel: set<string>): Rule -> bool {
    (r: Rule) => r.ustGrup in sel
  }

  /** The type stage: keeps rules with a cell of a selected type. */
  function TypeSelected(sel: set<string>): Rule -> bool {
    (r: Rule) => HasTypeIn(r, sel)
  }

  /** The column stage: keeps rules with a filled cell for the service. */
  function FilledFor(sId: string): Rule -> bool {
    (r: Rule) => HasFilled(r, sId)
  }

  /** The three stages in the order the source applies them, each only when its filter is active. */
  function FilterRules(m: ModalState, rules: seq<Rule>): (r: seq<Rule>)
    ensures |r| <= |rules|
    ensures multiset(r) <= multiset(rules)
  {
    var byGroup := if |m.ustGruplar| > 0 then Filter(rules, UstGrupSelected(m.ustGruplar)) else rules;
    var byType := if |m.turler| > 0 then Filter(byGroup, TypeSelected(m.turler)) else byGroup;
    if ColumnFilterActive(m) then Filter(byType, FilledFor(m.columnFilter.value)) else byType
  }

  /** A rule survives the pipeline when it passes every active stage. */
  predicate Keep(m: ModalState, r: Rule) {
    && (|m.ustGruplar| > 0 ==> r.ustGrup in m.ustGruplar)
    && (|m.turler| > 0 ==> HasTypeIn(r, m.turler))
    && (ColumnFilterActive(m) ==> HasFilled(r, m.columnFilter.value))
  }

  function KeepFn(m: ModalState): Rule -> bool {
    (r: Rule) => Keep(m, r)
  }

  function TypeStage(m: ModalState): Rule -> bool {
    (r: Rule) => (|m.ustGruplar| > 0 ==> r.ustGrup in m.ustGruplar) && (|m.turler| > 0 ==> HasTypeIn(r, m.turler))
  }

  /**
   * The staged filter is one filter by `Keep`: the result is an
   * order-preserving selection of the node's rules, and each stage only
   * has an effect when its filter is active.
   */
  lemma FilterRulesIsKeep(m: ModalState, rules: seq<Rule>)
    ensures FilterRules(m, rules) == Filter(rules, KeepFn(m))
  {
    var byGroup := if |m.ustGruplar| > 0 then Filter(rules, UstGrupSelected(m.ustGruplar)) else rules;
    var byType := if |m.turler| > 0 then Filter(byGroup, TypeSelected(m.turler)) else byGroup;
    GroupStageIsFilter(m, rules);
    TypeStageIsFilter(m, rules, byGroup);
    ColumnStageIsFilter(m, rules, byType);
  }

  function GroupStage(m: ModalState): Rule -> bool {
    (r: Rule) => |m.ustGruplar| > 0 ==> r.ustGrup in m.ustGruplar
  }

  lemma GroupStageIsFilter(m: ModalState, rules: seq<Rule>)
    ensures (if |m.ustGruplar| > 0 then Filter(rules, UstGrupSelected(m.ustGruplar)) else rules) == Filter(rules, GroupStage(m))
  {
    var all := (r: Rule) => true;
    FilterAll(rules, all);
    if |m.ustGruplar| > 0 {
      FilterFilter(rules, all, UstGrupSelected(m.ustGruplar), GroupStage(m));
    } else {
      FilterAll(rules, GroupStage(m));
    }
  }

  lemma TypeStageIsFilter(m: ModalState, rules: seq<Rule>, byGroup: seq<Rule>)
    requires byGroup == Filter(rules, GroupStage(m))
    ensures (if |m.turler| > 0 then Filter(byGroup, TypeSelected(m.turler)) else byGroup) == Filter(rules, TypeStage(m))
  {
    if |m.turler| > 0 {
      FilterFilter(rules, GroupStage(m), TypeSelected(m.turler), TypeStage(m));
    } else {
      var all := (r: Rule) => true;
      FilterFilter(rules, GroupStage(m), all, TypeStage(m));
      FilterAll(byGroup, all);
    }
  }

  lemma ColumnStageIsFilter(m: ModalState, rules: seq<Rule>, byType: seq<Rule>)
    requires byType == Filter(rules, TypeStage(m))
    ensures (if ColumnFilterActive(m) then Filter(byType, FilledFor(m.columnFilter.value)) else byType) == Filter(rules, KeepFn(m))
  {
    if ColumnFilterActive(m) {
      FilterFilter(rules, TypeStage(m), FilledFor(m.columnFilter.value), KeepFn(m));
    } else {
      var all := (r: Rule) => true;
      FilterFilter(rules, TypeStage(m), all, KeepFn(m));
      FilterAll(byType, all);
    }
  }

  /** Membership in the filtered rules, both directions. */
  lemma FilterRulesMembers(m: ModalState, rules: seq<Rule>)
    ensures forall i :: 0 <= i < |FilterRules(m, rules)| ==>
              FilterRules(m, rules)[i] in rules && Keep(m, FilterRules(m, rules)[i])
    ensures forall i :: 0 <= i < |rules| && Keep(m, rules[i]) ==> rules[i] in FilterRules(m, rules)
  {
    FilterRulesIsKeep(m, rules);
  }

  /** With no filter active, no rule is dropped. */
  lemma InactiveFiltersKeepAll(m: ModalState, rules: seq<Rule>)
    requires |m.ustGruplar| == 0 && |m.turler| == 0 && !ColumnFilterActive(m)
    ensures FilterRules(m, rules) == rules
  {
    FilterRulesIsKeep(m, rules);
    FilterAll(rules, KeepFn(m));
  }

  /** The sort key of the table: most filled rules first. */
  function FillKey(): Rule -> int {
    (r: Rule) => -(FillCount(r) as int)
  }

  /**
   * The rules the table shows and the export writes: filtered, then
   * stably sorted by the number of filled cells, largest first.
   */
  function TableRules(m: ModalState, rules: seq<Rule>): (r: seq<Rule>)
    ensures multiset(r) == multiset(Filter(rules, KeepFn(m)))
    ensures SortedBy(r, FillKey())
  {
    FilterRulesIsKeep(m, rules);
    SortByKey(FilterRules(m, rules), FillKey())
  }

  /**
   * The table shows exactly the node's rules that pass every active
   * filter, most filled first.
   */
  lemma TableRulesSpec(m: ModalState, rules: seq<Rule>)
    ensures forall i :: 0 <= i < |TableRules(m, rules)| ==> TableRules(m, rules)[i] in rules && Keep(m, TableRules(m, rules)[i])
    ensures forall i :: 0 <= i < |rules| && Keep(m, rules[i]) ==> rules[i] in TableRules(m, rules)
    ensures forall i, j :: 0 <= i < j < |TableRules(m, rules)| ==> FillCount(TableRules(m, rules)[i]) >= FillCount(TableRules(m, rules)[j])
  {
    var r := TableRules(m, rules);
    PermutedKeepMembers(m, rules, Filter(rules, KeepFn(m)), r);
    SortedByFill(r);
  }

  /** A permutation of the kept rules holds exactly the rules that pass. */
  lemma PermutedKeepMembers(m: ModalState, rules: seq<Rule>, kept: seq<Rule>, r: seq<Rule>)
    requires forall i :: 0 <= i < |kept| ==> kept[i] in rules && Keep(m, kept[i])
    requires forall i :: 0 <= i < |rules| && Keep(m, rules[i]) ==> rules[i] in kept
    requires multiset(r) == multiset(kept)
    ensures forall i :: 0 <= i < |r| ==> r[i] in rules && Keep(m, r[i])
    ensures forall i :: 0 <= i < |rules| && Keep(m, rules[i]) ==> rules[i] in r
  {
    forall i | 0 <= i < |r| ensures r[i] in rules && Keep(m, r[i]) {
      assert r[i] in multiset(kept);
    }
    forall i | 0 <= i < |rules| && Keep(m, rules[i]) ensures rules[i] in r {
      assert rules[i] in multiset(kept);
    }
  }

  /** Sorted by `FillKey` means fill counts never increase. */
  lemma SortedByFill(r: seq<Rule>)
    requires SortedBy(r, FillKey())
    ensures forall i, j :: 0 <= i < j < |r| ==> FillCount(r[i]) >= FillCount(r[j])
  {
    forall i, j | 0 <= i < j < |r| ensures FillCount(r[i]) >= FillCount(r[j]) {
      assert FillKey()(r[i]) <= FillKey()(r[j]);
    }
  }

  /**
   * The sort is stable: the rules of any one fill count (key `k` is minus
   * the count) keep the order the filter left them in.
   */
  lemma TableRulesStable(m: ModalState, rules: seq<Rule>, k: int)
    ensures WithKey(TableRules(m, rules), FillKey(), k) == WithKey(Filter(rules, KeepFn(m)), FillKey(), k)
  {
    FilterRulesIsKeep(m, rules);
    SortStableOf(TableRules(m, rules), Filter(rules, KeepFn(m)), FillKey(), k);
  }

  // ---------------------------------------------------------------------
  // Columns: getTargetServices and getTargetServicesForModal
  // ---------------------------------------------------------------------

  /** A service is a target of node `nodeId` when its path contains the node and it passes the directorate and method filters. */
  predicate IsTarget(services: map<string, Service>, methodFilter: Option<string>, f: HeaderFilters, nodeId: string, sId: string) {
    && sId in services
    && nodeId in services[sId].path
    && Filters.MudurlukAdmits(f, services[sId].mudurluk)
    && (Filters.MethodActive(methodFilter) ==> methodFilter.value in services[sId].path)
  }

  function TargetFn(services: map<string, Service>, methodFilter: Option<string>, f: HeaderFilters, nodeId: string): string -> bool {
    (sId: string) => IsTarget(services, methodFilter, f, nodeId, sId)
  }

  /**
   * `getTargetServices(nodeId)` over the services' key order `order`. The
   * header service selection plays no part here.
   */
  function TargetServices(services: map<string, Service>, order: seq<string>, methodFilter: Option<string>, f: HeaderFilters, nodeId: string): (r: seq<string>)
    ensures forall i :: 0 <= i < |r| ==> IsTarget(services, methodFilter, f, nodeId, r[i])
    ensures forall i :: 0 <= i < |order| && IsTarget(services, methodFilter, f, nodeId, order[i]) ==> order[i] in r
  {
    Filter(order, TargetFn(services, methodFilter, f, nodeId))
  }

  /**
   * The modal's columns are the services a node card lists when the
   * header service selection is ignored.
   */
  lemma TargetServicesAreCardServices(services: map<string, Service>, order: seq<string>, methodFilter: Option<string>, f: HeaderFilters, nodeId: string)
    requires forall sId :: sId in services ==> sId in order
    ensures (set i | 0 <= i < |TargetServices(services, order, methodFilter, f, nodeId)| :: TargetServices(services, order, methodFilter, f, nodeId)[i])
         == Nodes.ServicesForNode(services, methodFilter, f.(hizmetler := {}), nodeId)
  {
    var t := TargetServices(services, order, methodFilter, f, nodeId);
    var lhs := set i | 0 <= i < |t| :: t[i];
    var rhs := Nodes.ServicesForNode(services, methodFilter, f.(hizmetler := {}), nodeId);
    forall sId | sId in rhs ensures sId in lhs {
      var i :| 0 <= i < |order| && order[i] == sId;
      assert IsTarget(services, methodFilter, f, nodeId, order[i]);
      var j :| 0 <= j < |t| && t[j] == sId;
    }
  }

  /** The number of the node's rules with a filled cell for `sId`. */
  function ServiceFill(rules: seq<Rule>, sId: string): (n: nat)
    ensures n <= |rules|
  {
    |Filter(rules, FilledFor(sId))|
  }

  /** Whether one of `rules` has a filled cell for `sId`. */
  predicate FilledInSome(rules: seq<Rule>, sId: string) {
    exists i :: 0 <= i < |rules| && HasFilled(rules[i], sId)
  }

  function InSet(sel: set<string>): string -> bool {
    (sId: string) => sId in sel
  }

  function FilledInSomeFn(rules: seq<Rule>): string -> bool {
    (sId: string) => FilledInSome(rules, sId)
  }

  function ServiceFillKey(rules: seq<Rule>): string -> int {
    (sId: string) => -(ServiceFill(rules, sId) as int)
  }

  /** Whether the modal service selection and the row filter admit service `sId`. */
  predicate ModalAdmits(m: ModalState, sId: string) {
    && (|m.hizmetler| > 0 ==> sId in m.hizmetler)
    && (RowFilterActive(m) ==> FilledInSome(m.rowFilterRules.value, sId))
  }

  function AdmitsFn(m: ModalState): string -> bool {
    (sId: string) => ModalAdmits(m, sId)
  }

  function SelectionStage(m: ModalState): string -> bool {
    (sId: string) => |m.hizmetler| > 0 ==> sId in m.hizmetler
  }

  /** The two narrowing steps of `getTargetServicesForModal`, each only when active. */
  function Narrow(m: ModalState, base: seq<string>): (r: seq<string>)
    ensures |r| <= |base|
  {
    var chosen := if |m.hizmetler| > 0 then Filter(base, InSet(m.hizmetler)) else base;
    if RowFilterActive(m) then Filter(chosen, FilledInSomeFn(m.rowFilterRules.value)) else chosen
  }

  /** The staged narrowing is one filter by `ModalAdmits`. */
  lemma NarrowIsAdmits(m: ModalState, base: seq<string>)
    ensures Narrow(m, base) == Filter(base, AdmitsFn(m))
  {
    var all := (sId: string) => true;
    FilterAll(base, all);
    var chosen := if |m.hizmetler| > 0 then Filter(base, InSet(m.hizmetler)) else base;
    if |m.hizmetler| > 0 {
      FilterFilter(base, all, InSet(m.hizmetler), SelectionStage(m));
    } else {
      FilterAll(base, SelectionStage(m));
    }
    assert chosen == Filter(base, SelectionStage(m));
    if RowFilterActive(m) {
      FilterFilter(base, SelectionStage(m), FilledInSomeFn(m.rowFilterRules.value), AdmitsFn(m));
    } else {
      FilterFilter(base, SelectionStage(m), all, AdmitsFn(m));
      FilterAll(chosen, all);
    }
  }

  /**
   * `getTargetServicesForModal(nodeId)`: the targets, narrowed to the
   * modal service selection when it is non-empty and to the services the
   * row filter's rules fill when that filter is on, then stably sorted by
   * how many of the node's rules fill them, largest first.
   */
  function ModalTargets(m: ModalState, services: map<string, Service>, order: seq<string>, methodFilter: Option<string>, f: HeaderFilters, nodeId: string, matrix: map<string, seq<Rule>>): (r: seq<string>)
    ensures multiset(r) == multiset(Filter(TargetServices(services, order, methodFilter, f, nodeId), AdmitsFn(m)))
    ensures SortedBy(r, ServiceFillKey(RulesOf(matrix, nodeId)))
  {
    NarrowIsAdmits(m, TargetServices(services, order, methodFilter, f, nodeId));
    SortByKey(Narrow(m, TargetServices(services, order, methodFilter, f, nodeId)), ServiceFillKey(RulesOf(matrix, nodeId)))
  }

  /**
   * The modal's columns are exactly the node's target services that the
   * modal selection and the row filter admit.
   */
  lemma ModalTargetsMembers(m: ModalState, services: map<string, Service>, order: seq<string>, methodFilter: Option<string>, f: HeaderFilters, nodeId: string, matrix: map<string, seq<Rule>>)
    ensures forall sId :: sId in ModalTargets(m, services, order, methodFilter, f, nodeId, matrix) <==>
              sId in TargetServices(services, order, methodFilter, f, nodeId) && ModalAdmits(m, sId)
  {
    var base := TargetServices(services, order, methodFilter, f, nodeId);
    PermutedAdmitMembers(m, base, Filter(base, AdmitsFn(m)), ModalTargets(m, services, order, methodFilter, f, nodeId, matrix));
  }

  /** A permutation of the admitted services holds exactly the admitted services. */
  lemma PermutedAdmitMembers(m: ModalState, base: seq<string>, narrowed: seq<string>, r: seq<string>)
    requires forall i :: 0 <= i < |narrowed| ==> narrowed[i] in base && ModalAdmits(m, narrowed[i])
    requires forall i :: 0 <= i < |base| && ModalAdmits(m, base[i]) ==> base[i] in narrowed
    requires multiset(r) == multiset(narrowed)
    ensures forall sId :: sId in r <==> sId in base && ModalAdmits(m, sId)
  {
    forall sId ensures sId in r <==> sId in base && ModalAdmits(m, sId) {
      assert sId in r <==> sId in multiset(r);
      assert sId in narrowed <==> sId in multiset(narrowed);
      if sId in base && ModalAdmits(m, sId) {
        var i :| 0 <= i < |base| && base[i] == sId;
      }
      if sId in narrowed {
        var i :| 0 <= i < |narrowed| && narrowed[i] == sId;
      }
    }
  }

  /** The modal's columns are ordered by fill count, largest first. */
  lemma ModalTargetsOrder(m: ModalState, services: map<string, Service>, order: seq<string>, methodFilter: Option<string>, f: HeaderFilters, nodeId: string, matrix: map<string, seq<Rule>>)
    ensures forall i, j :: 0 <= i < j < |ModalTargets(m, services, order, methodFilter, f, nodeId, matrix)| ==>
              ServiceFill(RulesOf(matrix, nodeId), ModalTargets(m, services, order, methodFilter, f, nodeId, matrix)[i])
              >= ServiceFill(RulesOf(matrix, nodeId), ModalTargets(m, services, order, methodFilter, f, nodeId, matrix)[j])
  {
    var r := ModalTargets(m, services, order, methodFilter, f, nodeId, matrix);
    var key := ServiceFillKey(RulesOf(matrix, nodeId));
    assert SortedBy(r, key);
    forall i, j | 0 <= i < j < |r| ensures ServiceFill(RulesOf(matrix, nodeId), r[i]) >= ServiceFill(RulesOf(matrix, nodeId), r[j]) {
      assert key(r[i]) <= key(r[j]);
    }
  }

  /** The table's columns: the modal targets without the hidden ones. */
  function VisibleColumns(targets: seq<string>, hidden: set<string>): (r: seq<string>)
    ensures forall i :: 0 <= i < |r| ==> r[i] in targets && r[i] !in hidden
    ensures forall i :: 0 <= i < |targets| && targets[i] !in hidden ==> targets[i] in r
  {
    Filter(targets, (sId: string) => sId !in hidden)
  }

  /** `hideColumn(sId)`. */
  function HideColumn(f: HeaderFilters, sId: string): (r: HeaderFilters)
    ensures r.hiddenColumns == f.hiddenColumns + {sId}
    ensures r.mudurlukler == f.mudurlukler && r.hizmetler == f.hizmetler
  {
    f.(hiddenColumns := f.hiddenColumns + {sId})
  }

  /** `showColumn(sId)`. */
  function ShowColumn(f: HeaderFilters, sId: string): (r: HeaderFilters)
    ensures r.hiddenColumns == f.hiddenColumns - {sId}
    ensures r.mudurlukler == f.mudurlukler && r.hizmetler == f.hizmetler
  {
    f.(hiddenColumns := f.hiddenColumns - {sId})
  }

  /** Hiding a column removes exactly that column from the table; showing it again brings the table back. */
  lemma HideThenShow(targets: seq<string>, f: HeaderFilters, sId: string)
    requires sId !in f.hiddenColumns
    ensures VisibleColumns(targets, HideColumn(f, sId).hiddenColumns)
         == Filter(VisibleColumns(targets, f.hiddenColumns), (x: string) => x != sId)
    ensures ShowColumn(HideColumn(f, sId), sId) == f
  {
    var shown := (x: string) => x !in f.hiddenColumns;
    var other := (x: string) => x != sId;
    var both := (x: string) => x !in HideColumn(f, sId).hiddenColumns;
    FilterFilter(targets, shown, other, both);
  }

  // ---------------------------------------------------------------------
  // Column and row filters
  // ---------------------------------------------------------------------

  /** `toggleColumnFilter(sId)`: the same id clears the filter, another sets it; the row filter key is cleared. */
  function ToggleColumnFilter(m: ModalState, sId: string): (r: ModalState)
    ensures r.columnFilter == (if m.columnFilter == Some(sId) then None else Some(sId))
    ensures r.rowFilter.None?
    ensures r.rowFilterRules == m.rowFilterRules
    ensures r == m.(columnFilter := r.columnFilter, rowFilter := None)
  {
    var column := if m.columnFilter == Some(sId) then None else Some(sId);
    m.(columnFilter := column, rowFilter := None)
  }

  /** `toggleRowFilter(rowIndex, rules)`: the same row clears the filter, another sets it with its rules; the column filter is cleared. */
  function ToggleRowFilter(m: ModalState, row: nat, rules: seq<Rule>): (r: ModalState)
    ensures m.rowFilter == Some(row) ==> r.rowFilter.None? && r.rowFilterRules.None?
    ensures m.rowFilter != Some(row) ==> r.rowFilter == Some(row) && r.rowFilterRules == Some(rules)
    ensures r.columnFilter.None?
    ensures r == m.(columnFilter := None, rowFilter := r.rowFilter, rowFilterRules := r.rowFilterRules)
  {
    if m.rowFilter == Some(row) then m.(rowFilter := None, rowFilterRules := None, columnFilter := None)
    else m.(rowFilter := Some(row), rowFilterRules := Some(rules), columnFilter := None)
  }

  /** Clicking the first header cell clears an active column filter. */
  function ClearColumnFilter(m: ModalState): (r: ModalState)
    ensures !ColumnFilterActive(r)
    ensures ColumnFilterActive(m) ==> r == m.(columnFilter := None)
    ensures !ColumnFilterActive(m) ==> r == m
  {
    if ColumnFilterActive(m) then m.(columnFilter := None) else m
  }

  /** The column filter and the row filter are never on together. */
  predicate NotBoth(m: ModalState) {
    !(ColumnFilterActive(m) && RowFilterActive(m))
  }

  lemma TogglesKeepNotBoth(m: ModalState, sId: string, row: nat, rules: seq<Rule>)
    ensures NotBoth(ToggleColumnFilter(m, sId))
    ensures NotBoth(ToggleRowFilter(m, row, rules))
    ensures NotBoth(ClearColumnFilter(m))
  {
  }

  /** Toggling the same column twice, or the same row twice, turns that filter off again. */
  lemma ToggleFilterTwice(m: ModalState, sId: string, row: nat, rules: seq<Rule>)
    requires m.columnFilter != Some(sId) && m.rowFilter != Some(row)
    ensures ToggleColumnFilter(ToggleColumnFilter(m, sId), sId).columnFilter.None?
    ensures !RowFilterActive(ToggleRowFilter(ToggleRowFilter(m, row, rules), row, rules))
  {
  }

  // ---------------------------------------------------------------------
  // Dropdown selections
  // ---------------------------------------------------------------------

  /** `toggleModalUstGrup`, `toggleModalTur`, `toggleModalHizmet`: flip one value's membership. */
  function ToggleIn(sel: set<string>, x: string): (r: set<string>)
    ensures x in r <==> x !in sel
    ensures forall y :: y != x ==> (y in r <==> y in sel)
  {
    if x in sel then sel - {x} else sel + {x}
  }

  lemma ToggleInTwice(sel: set<string>, x: string)
    ensures ToggleIn(ToggleIn(sel, x), x) == sel
  {
  }

  /**
   * The `toggleAllModal*` rule: a selection as large as the full value
   * set is cleared, any other is replaced by the full set.
   */
  function ToggleAll(sel: set<string>, all: set<string>): (r: set<string>)
    ensures r == {} || r == all
    ensures |sel| == |all| ==> r == {}
    ensures |sel| != |all| ==> r == all
  {
    if |sel| == |all| then {} else all
  }

  /** For a selection drawn from the full set, the size test means "everything is selected". */
  lemma ToggleAllMeansAllSelected(sel: set<string>, all: set<string>)
    requires sel <= all
    ensures ToggleAll(sel, all) == (if sel == all then {} else all)
  {
    if |sel| == |all| {
      SubsetSameSize(sel, all);
    }
  }

  lemma SubsetSameSize(a: set<string>, b: set<string>)
    requires a <= b && |a| == |b|
    ensures a == b
  {
    assert b == a + (b - a);
    assert |b - a| == 0;
  }

  /** The top groups present in the rules (empty ones left out). */
  function AllUstGruplar(rules: seq<Rule>): (r: set<string>)
    ensures forall i :: 0 <= i < |rules| && rules[i].ustGrup != "" ==> rules[i].ustGrup in r
    ensures forall x :: x in r ==> x != "" && exists i :: 0 <= i < |rules| && rules[i].ustGrup == x
  {
    set i | 0 <= i < |rules| && rules[i].ustGrup != "" :: rules[i].ustGrup
  }

  /** The cell types present in the rules (empty ones left out). */
  function AllTurler(rules: seq<Rule>): (r: set<string>)
    ensures forall i, sId :: 0 <= i < |rules| && sId in rules[i].values && rules[i].values[sId].vtype != "" ==> rules[i].values[sId].vtype in r
    ensures forall t :: t in r ==> t != "" && exists i, sId :: 0 <= i < |rules| && sId in rules[i].values && rules[i].values[sId].vtype == t
  {
    set i, sId | 0 <= i < |rules| && sId in rules[i].values && rules[i].values[sId].vtype != "" :: rules[i].values[sId].vtype
  }

  /** The elements of a sequence as a set. */
  function Elements(s: seq<string>): (r: set<string>)
    ensures forall i :: 0 <= i < |s| ==> s[i] in r
    ensures forall x :: x in r ==> exists i :: 0 <= i < |s| && s[i] == x
  {
    set i | 0 <= i < |s| :: s[i]
  }

  function ToggleAllUstGrup(m: ModalState, rules: seq<Rule>): (r: ModalState)
  {
    m.(ustGruplar := ToggleAll(m.ustGruplar, AllUstGruplar(rules)))
  }

  function ToggleAllTur(m: ModalState, rules: seq<Rule>): (r: ModalState)
  {
    m.(turler := ToggleAll(m.turler, AllTurler(rules)))
  }

  function ToggleAllHizmet(m: ModalState, targets: seq<string>): (r: ModalState)
  {
    m.(hizmetler := ToggleAll(m.hizmetler, Elements(targets)))
  }

  // ---------------------------------------------------------------------
  // Expansion state, detail level and opening the modal
  // ---------------------------------------------------------------------

  /** The key of a group label's expansion entry: top group and label joined by `|`. */
  function GroupLabelKey(ug: string, ge: string): string {
    ug + "|" + ge
  }

  /** The group-label keys present in the rules: one per rule with a non-empty label, its raw top group in front. */
  function AllGroupLabelKeys(rules: seq<Rule>): (r: set<string>)
    ensures forall i :: 0 <= i < |rules| && rules[i].grupEtiketi != "" ==> GroupLabelKey(rules[i].ustGrup, rules[i].grupEtiketi) in r
    ensures forall x :: x in r ==> exists i :: 0 <= i < |rules| && rules[i].grupEtiketi != "" && x == GroupLabelKey(rules[i].ustGrup, rules[i].grupEtiketi)
  {
    set i | 0 <= i < |rules| && rules[i].grupEtiketi != "" :: GroupLabelKey(rules[i].ustGrup, rules[i].grupEtiketi)
  }

  /** `toggleUstGrup(ug)`: flips one top group's expansion. */
  function ToggleUstGrup(m: ModalState, ug: string): (r: ModalState)
    ensures r.expandedUstGrup == ToggleIn(m.expandedUstGrup, ug)
    ensures r.(expandedUstGrup := m.expandedUstGrup) == m
  {
    m.(expandedUstGrup := ToggleIn(m.expandedUstGrup, ug))
  }

  /** `toggleGrupEtiketi(ug, ge)`: flips one group label's expansion. */
  function ToggleGrupEtiketi(m: ModalState, ug: string, ge: string): (r: ModalState)
    ensures r.expandedGrupEtiketi == ToggleIn(m.expandedGrupEtiketi, GroupLabelKey(ug, ge))
    ensures r.(expandedGrupEtiketi := m.expandedGrupEtiketi) == m
  {
    m.(expandedGrupEtiketi := ToggleIn(m.expandedGrupEtiketi, GroupLabelKey(ug, ge)))
  }

  /** `expandAll()`: adds every top group and group label present; nothing is collapsed. */
  function ExpandAll(m: ModalState, rules: seq<Rule>): (r: ModalState)
    ensures m.expandedUstGrup <= r.expandedUstGrup && m.expandedGrupEtiketi <= r.expandedGrupEtiketi
    ensures forall i :: 0 <= i < |rules| && rules[i].ustGrup != "" ==> rules[i].ustGrup in r.expandedUstGrup
    ensures forall i :: 0 <= i < |rules| && rules[i].grupEtiketi != "" ==> GroupLabelKey(rules[i].ustGrup, rules[i].grupEtiketi) in r.expandedGrupEtiketi
    ensures r.(expandedUstGrup := m.expandedUstGrup, expandedGrupEtiketi := m.expandedGrupEtiketi) == m
  {
    m.(expandedUstGrup := m.expandedUstGrup + AllUstGruplar(rules),
       expandedGrupEtiketi := m.expandedGrupEtiketi + AllGroupLabelKeys(rules))
  }

  /** `collapseAll()`: both expansion maps are emptied. */
  function CollapseAll(m: ModalState): (r: ModalState)
    ensures r.expandedUstGrup == {} && r.expandedGrupEtiketi == {}
    ensures r.(expandedUstGrup := m.expandedUstGrup, expandedGrupEtiketi := m.expandedGrupEtiketi) == m
  {
    m.(expandedUstGrup := {}, expandedGrupEtiketi := {})
  }

  /**
   * `setDetailLevel(level)`: records the level; the top level collapses
   * everything, the group-label level expands exactly the top groups
   * present, the durum level expands everything present on top of what
   * was already open.
   */
  function SetDetailLevel(m: ModalState, level: Level, rules: seq<Rule>): (r: ModalState)
    ensures r.detailLevel == level
    ensures level == UstGrupLevel ==> r.expandedUstGrup == {} && r.expandedGrupEtiketi == {}
    ensures level == GrupEtiketLevel ==> r.expandedUstGrup == AllUstGruplar(rules) && r.expandedGrupEtiketi == {}
    ensures level == DurumLevel ==> r == ExpandAll(m, rules).(detailLevel := level)
    ensures r.(detailLevel := m.detailLevel, expandedUstGrup := m.expandedUstGrup, expandedGrupEtiketi := m.expandedGrupEtiketi) == m
  {
    var m1 := m.(detailLevel := level);
    match level
    case UstGrupLevel => m1.(expandedUstGrup := {}, expandedGrupEtiketi := {})
    case GrupEtiketLevel => m1.(expandedUstGrup := AllUstGruplar(rules), expandedGrupEtiketi := {})
    case DurumLevel => ExpandAll(m1, rules)
  }

  /**
   * `initModalFilters(nodeId)`: every top group, type and target service
   * selected, and everything present expanded.
   */
  function InitModalFilters(m: ModalState, rules: seq<Rule>, targets: seq<string>): (r: ModalState)
    ensures r.ustGruplar == AllUstGruplar(rules) && r.turler == AllTurler(rules) && r.hizmetler == Elements(targets)
    ensures r.expandedUstGrup == AllUstGruplar(rules) && r.expandedGrupEtiketi == AllGroupLabelKeys(rules)
    ensures r.(ustGruplar := m.ustGruplar, turler := m.turler, hizmetler := m.hizmetler,
               expandedUstGrup := m.expandedUstGrup, expandedGrupEtiketi := m.expandedGrupEtiketi) == m
  {
    m.(ustGruplar := AllUstGruplar(rules), turler := AllTurler(rules), hizmetler := Elements(targets),
       expandedUstGrup := AllUstGruplar(rules), expandedGrupEtiketi := AllGroupLabelKeys(rules))
  }

  /**
   * Right after the filters are initialised, the selections hide nothing:
   * the top-group and type stages keep every rule that has a top group
   * and a typed cell, and the modal selection admits every target.
   */
  lemma FreshFiltersHideNothing(m: ModalState, rules: seq<Rule>, targets: seq<string>, i: nat)
    requires i < |rules|
    requires rules[i].ustGrup != "" && exists sId :: sId in rules[i].values && rules[i].values[sId].vtype != ""
    requires !ColumnFilterActive(m)
    ensures Keep(InitModalFilters(m, rules, targets), rules[i])
    ensures forall j :: 0 <= j < |targets| ==> (|InitModalFilters(m, rules, targets).hizmetler| > 0 ==> targets[j] in InitModalFilters(m, rules, targets).hizmetler)
  {
    var sId :| sId in rules[i].values && rules[i].values[sId].vtype != "";
    assert rules[i].values[sId].vtype in AllTurler(rules);
  }

  /** After opening, expanding everything changes nothing, and the durum level leaves expansion as it is. */
  lemma InitThenExpandAll(m: ModalState, rules: seq<Rule>, targets: seq<string>)
    ensures ExpandAll(InitModalFilters(m, rules, targets), rules) == InitModalFilters(m, rules, targets)
    ensures SetDetailLevel(InitModalFilters(m, rules, targets), DurumLevel, rules)
         == InitModalFilters(m, rules, targets).(detailLevel := DurumLevel)
  {
  }

  /** What `open(nodeId)` leaves behind in the three parts of the state it touches. */
  datatype Opened = Opened(ui: Ui, filters: HeaderFilters, modal: ModalState)

  /**
   * `open(nodeId)`: records the node as the modal's node; for an unknown
   * node the title lookup throws and nothing else happens. Otherwise the
   * hidden columns are cleared and the dropdown filters initialised. The
   * column and row filters of an earlier opening are not reset.
   */
  function Open(ui: Ui, f: HeaderFilters, m: ModalState, nodes: map<string, Node>, nodeId: string, rules: seq<Rule>, targets: seq<string>): (r: Opened)
    ensures r.ui == ui.(modalNode := Some(nodeId))
    ensures nodeId !in nodes ==> r.filters == f && r.modal == m
    ensures nodeId in nodes ==> r.filters == f.(hiddenColumns := {}) && r.modal == InitModalFilters(m, rules, targets)
    ensures r.modal.columnFilter == m.columnFilter && r.modal.rowFilter == m.rowFilter
  {
    var ui1 := ui.(modalNode := Some(nodeId));
    if nodeId !in nodes then Opened(ui1, f, m)
    else Opened(ui1, f.(hiddenColumns := {}), InitModalFilters(m, rules, targets))
  }

  /**
   * As written, a column filter chosen in an earlier opening survives
   * `open`: reopening on another node hides every rule that leaves the
   * stale column unfilled, here the node's only rule.
   */
  lemma ReopenKeepsStaleColumnFilter()
    ensures var rule := Rule("r1", "G", "", "", map["S2" := Cell("1", "T", "")]);
            var m := InitialModal.(columnFilter := Some("S1"));
            var nodes := map["B" := Node("B", Process, "B", 0.0, 0.0, 260.0)];
            var o := Open(Ui(None, {}, None, false), HeaderFilters({}, {}, {}), m, nodes, "B", [rule], ["S2"]);
            TableRules(o.modal, [rule]) == []
  {
    var rule := Rule("r1", "G", "", "", map["S2" := Cell("1", "T", "")]);
    var m := InitialModal.(columnFilter := Some("S1"));
    var nodes := map["B" := Node("B", Process, "B", 0.0, 0.0, 260.0)];
    var o := Open(Ui(None, {}, None, false), HeaderFilters({}, {}, {}), m, nodes, "B", [rule], ["S2"]);
    assert ColumnFilterActive(o.modal) && !HasFilled(rule, "S1");
    assert !Keep(o.modal, rule);
    assert [rule][1..] == [];
    assert Filter([rule], KeepFn(o.modal)) == [];
  }

  /**
   * `open(nodeId)` with the reset the code evidently means to do: the
   * column and row filters are cleared along with the hidden columns.
   */
  function OpenFresh(ui: Ui, f: HeaderFilters, m: ModalState, nodes: map<string, Node>, nodeId: string, rules: seq<Rule>, targets: seq<string>): (r: Opened)
    ensures r.ui == ui.(modalNode := Some(nodeId))
    ensures nodeId !in nodes ==> r.filters == f && r.modal == m
    ensures nodeId in nodes ==> !ColumnFilterActive(r.modal) && !RowFilterActive(r.modal) && r.filters.hiddenColumns == {}
  {
    var ui1 := ui.(modalNode := Some(nodeId));
    if nodeId !in nodes then Opened(ui1, f, m)
    else
      var cleared := m.(columnFilter := None, rowFilter := None, rowFilterRules := None);
      Opened(ui1, f.(hiddenColumns := {}), InitModalFilters(cleared, rules, targets))
  }

  /**
   * After a fresh opening the table shows every rule of the node that has
   * a top group and a typed cell, whatever the previous opening filtered.
   */
  lemma OpenFreshShowsNodeRules(ui: Ui, f: HeaderFilters, m: ModalState, nodes: map<string, Node>, nodeId: string, rules: seq<Rule>, targets: seq<string>, i: nat)
    requires nodeId in nodes && i < |rules|
    requires rules[i].ustGrup != "" && exists sId :: sId in rules[i].values && rules[i].values[sId].vtype != ""
    ensures rules[i] in TableRules(OpenFresh(ui, f, m, nodes, nodeId, rules, targets).modal, rules)
  {
    var cleared := m.(columnFilter := None, rowFilter := None, rowFilterRules := None);
    FreshFiltersHideNothing(cleared, rules, targets, i);
    TableRulesSpec(InitModalFilters(cleared, rules, targets), rules);
  }

  /** `close()`: the modal no longer has a node. */
  function Close(ui: Ui): (r: Ui)
    ensures r.modalNode.None?
    ensures r.(modalNode := ui.modalNode) == ui
  {
    ui.(modalNode := None)
  }

  /** `clearAllFilters()` of the modal: every column is shown again. */
  function ClearModalFilters(f: HeaderFilters): (r: HeaderFilters)
    ensures r.hiddenColumns == {}
    ensures forall t :: VisibleColumns(t, r.hiddenColumns) == t
    ensures r.(hiddenColumns := f.hiddenColumns) == f
  {
    var r := f.(hiddenColumns := {});
    forall t ensures VisibleColumns(t, r.hiddenColumns) == t {
      FilterAll(t, (sId: string) => sId !in r.hiddenColumns);
    }
    r
  }

  // ---------------------------------------------------------------------
  // Grouping by detail level (groupRulesByDetailLevel)
  // ---------------------------------------------------------------------

  /** The top group a rule is shown under. */
  function UgOf(r: Rule): (ug: string)
    ensures ug != ""
    ensures r.ustGrup != "" ==> ug == r.ustGrup
  {
    if r.ustGrup != "" then r.ustGrup else OtherGroupLabel
  }

  /** The group label a rule is shown under. */
  function GeOf(r: Rule): (ge: string)
    ensures ge != ""
    ensures r.grupEtiketi != "" ==> ge == r.grupEtiketi
  {
    if r.grupEtiketi != "" then r.grupEtiketi else GeneralLabel
  }

  /**
   * The group a rule falls in: `groups[ug]` at the top level and
   * `groups[ug][ge]` below it. The top level's keys carry an empty label.
   */
  datatype GroupKey = GroupKey(ug: string, ge: string)

  function KeyOf(level: Level, r: Rule): (k: GroupKey)
    ensures k.ug == UgOf(r)
    ensures level == UstGrupLevel ==> k.ge == ""
    ensures level != UstGrupLevel ==> k.ge == GeOf(r)
  {
    if level == UstGrupLevel then GroupKey(UgOf(r), "") else GroupKey(UgOf(r), GeOf(r))
  }

  function InGroup(level: Level, k: GroupKey): Rule -> bool {
    (r: Rule) => KeyOf(level, r) == k
  }

  /** `groupRulesByDetailLevel(rules)`: each rule pushed onto its group's list, in input order. */
  function GroupRules(level: Level, rules: seq<Rule>): map<GroupKey, seq<Rule>>
    decreases |rules|
  {
    if |rules| == 0 then map[]
    else
      var g := GroupRules(level, rules[..|rules| - 1]);
      var r := rules[|rules| - 1];
      var k := KeyOf(level, r);
      g[k := (if k in g then g[k] else []) + [r]]
  }

  /** Some rule of `rules` falls in group `k`. */
  predicate KeyUsed(level: Level, rules: seq<Rule>, k: GroupKey) {
    exists i :: 0 <= i < |rules| && KeyOf(level, rules[i]) == k
  }

  /** A group exists exactly for the keys of the rules. */
  lemma {:induction false} GroupRulesKeys(level: Level, rules: seq<Rule>)
    ensures forall k :: k in GroupRules(level, rules) <==> KeyUsed(level, rules, k)
    decreases |rules|
  {
    if |rules| > 0 {
      var prefix := rules[..|rules| - 1];
      var r := rules[|rules| - 1];
      assert rules == prefix + [r];
      GroupRulesKeys(level, prefix);
      GroupRulesSnoc(level, prefix, r);
      forall k ensures k in GroupRules(level, rules) <==> KeyUsed(level, rules, k) {
        KeyUsedSnoc(level, prefix, r, k);
      }
    }
  }

  /** The fold's last step: the last rule's group gains it, the other groups are as before. */
  lemma GroupRulesSnoc(level: Level, prefix: seq<Rule>, r: Rule)
    ensures var g := GroupRules(level, prefix);
            var k := KeyOf(level, r);
            GroupRules(level, prefix + [r]) == g[k := (if k in g then g[k] else []) + [r]]
  {
    assert (prefix + [r])[..|prefix|] == prefix;
  }

  lemma KeyUsedSnoc(level: Level, prefix: seq<Rule>, r: Rule, k: GroupKey)
    ensures KeyUsed(level, prefix + [r], k) <==> KeyUsed(level, prefix, k) || KeyOf(level, r) == k
  {
    var rules := prefix + [r];
    if KeyUsed(level, prefix, k) {
      var i :| 0 <= i < |prefix| && KeyOf(level, prefix[i]) == k;
      assert rules[i] == prefix[i];
    }
    if KeyOf(level, r) == k {
      assert rules[|prefix|] == r;
    }
    if KeyUsed(level, rules, k) && KeyOf(level, r) != k {
      var i :| 0 <= i < |rules| && KeyOf(level, rules[i]) == k;
      assert i < |prefix| && prefix[i] == rules[i];
    }
  }

  /** Filtering a single rule by its group. */
  lemma FilterOne(level: Level, r: Rule, k: GroupKey)
    ensures Filter([r], InGroup(level, k)) == if KeyOf(level, r) == k then [r] else []
  {
    assert [r][1..] == [];
  }

  /** One step of the fold: the last rule's push onto its group extends that group's filter. */
  lemma GroupRulesStep(level: Level, prefix: seq<Rule>, r: Rule, k: GroupKey)
    requires k in GroupRules(level, prefix + [r])
    requires forall k' :: k' in GroupRules(level, prefix) ==> GroupRules(level, prefix)[k'] == Filter(prefix, InGroup(level, k'))
    ensures GroupRules(level, prefix + [r])[k] == Filter(prefix + [r], InGroup(level, k))
  {
    var rules := prefix + [r];
    assert rules[..|rules| - 1] == prefix;
    assert rules[|rules| - 1] == r;
    var g := GroupRules(level, prefix);
    var p := InGroup(level, k);
    FilterAppend(prefix, [r], p);
    FilterOne(level, r, k);
    if k !in g {
      GroupRulesKeys(level, prefix);
      assert forall i :: 0 <= i < |prefix| ==> !p(prefix[i]);
      FilterNone(prefix, p);
    }
  }

  /**
   * Each group lists exactly the rules with its key, in input order; with
   * `GroupRulesKeys`, every rule lies in exactly one group.
   */
  lemma {:induction false} GroupRulesPartition(level: Level, rules: seq<Rule>)
    ensures forall k :: k in GroupRules(level, rules) ==> GroupRules(level, rules)[k] == Filter(rules, InGroup(level, k))
    decreases |rules|
  {
    if |rules| > 0 {
      var prefix := rules[..|rules| - 1];
      GroupRulesPartition(level, prefix);
      assert rules == prefix + [rules[|rules| - 1]];
      forall k | k in GroupRules(level, rules)
        ensures GroupRules(level, rules)[k] == Filter(rules, InGroup(level, k))
      {
        GroupRulesStep(level, prefix, rules[|rules| - 1], k);
      }
    }
  }

  // ---------------------------------------------------------------------
  // Group order: Object.keys(...).sort()
  // ---------------------------------------------------------------------

  /** The default string order of `sort()`: lexicographic by character. */
  predicate StrLt(a: string, b: string)
    decreases |a|
  {
    if |a| == 0 then |b| > 0
    else if |b| == 0 then false
    else if a[0] != b[0] then a[0] < b[0]
    else StrLt(a[1..], b[1..])
  }

  lemma StrLtIrreflexive(a: string)
    ensures !StrLt(a, a)
  {
  }

  lemma StrLtTotal(a: string, b: string)
    requires a != b
    ensures StrLt(a, b) || StrLt(b, a)
  {
    if |a| > 0 && |b| > 0 && a[0] == b[0] {
      assert a == [a[0]] + a[1..];
      assert b == [b[0]] + b[1..];
      StrLtTotal(a[1..], b[1..]);
    }
  }

  lemma StrLtTransitive(a: string, b: string, c: string)
    requires StrLt(a, b) && StrLt(b, c)
    ensures StrLt(a, c)
  {
    if |a| > 0 && |b| > 0 && |c| > 0 && a[0] == b[0] && b[0] == c[0] {
      StrLtTransitive(a[1..], b[1..], c[1..]);
    }
  }

  lemma StrLtAsymmetric(a: string, b: string)
    requires StrLt(a, b)
    ensures !StrLt(b, a)
  {
    if |a| > 0 && |b| > 0 && a[0] == b[0] {
      StrLtAsymmetric(a[1..], b[1..]);
    }
  }

  /** Groups are visited by top group, then by label. */
  predicate KeyLt(a: GroupKey, b: GroupKey) {
    StrLt(a.ug, b.ug) || (a.ug == b.ug && StrLt(a.ge, b.ge))
  }

  lemma KeyLtTotal(a: GroupKey, b: GroupKey)
    requires a != b
    ensures KeyLt(a, b) || KeyLt(b, a)
  {
    if a.ug != b.ug {
      StrLtTotal(a.ug, b.ug);
    } else {
      StrLtTotal(a.ge, b.ge);
    }
  }

  lemma KeyLtTransitive(a: GroupKey, b: GroupKey, c: GroupKey)
    requires KeyLt(a, b) && KeyLt(b, c)
    ensures KeyLt(a, c)
  {
    if StrLt(a.ug, b.ug) && StrLt(b.ug, c.ug) {
      StrLtTransitive(a.ug, b.ug, c.ug);
    } else if a.ug == b.ug && b.ug == c.ug {
      StrLtTransitive(a.ge, b.ge, c.ge);
    }
  }

  predicate StrictlySorted(ks: seq<GroupKey>) {
    forall i, j :: 0 <= i < j < |ks| ==> KeyLt(ks[i], ks[j])
  }

  function InsertKey(k: GroupKey, ks: seq<GroupKey>): (r: seq<GroupKey>)
    requires StrictlySorted(ks) && k !in ks
    ensures StrictlySorted(r)
    ensures multiset(r) == multiset(ks) + multiset{k}
  {
    if |ks| == 0 then [k]
    else if KeyLt(k, ks[0]) then
      forall j | 0 < j < |ks| ensures KeyLt(k, ks[j]) {
        KeyLtTransitive(k, ks[0], ks[j]);
      }
      assert ks == [ks[0]] + ks[1..];
      [k] + ks
    else
      KeyLtTotal(k, ks[0]);
      var t := InsertKey(k, ks[1..]);
      assert ks == [ks[0]] + ks[1..];
      forall j | 0 <= j < |t| ensures KeyLt(ks[0], t[j]) {
        assert t[j] in multiset(ks[1..]) + multiset{k};
        if t[j] != k {
          assert t[j] in ks[1..];
        }
      }
      [ks[0]] + t
  }

  /** Insertion sort of distinct keys into the visiting order. */
  function SortKeys(ks: seq<GroupKey>): (r: seq<GroupKey>)
    requires NoDup(ks)
    ensures StrictlySorted(r)
    ensures multiset(r) == multiset(ks)
  {
    if |ks| == 0 then []
    else
      var t := SortKeys(ks[1..]);
      assert ks == [ks[0]] + ks[1..];
      assert ks[0] !in multiset(ks[1..]);
      InsertKey(ks[0], t)
  }

  /** The groups of the rules, in the order the table and the export visit them. */
  function OrderedKeys(level: Level, rules: seq<Rule>): (r: seq<GroupKey>)
    ensures StrictlySorted(r)
    ensures forall k :: k in r <==> KeyUsed(level, rules, k)
  {
    var all := seq(|rules|, i requires 0 <= i < |rules| => KeyOf(level, rules[i]));
    var d := Distinct(all);
    var r := SortKeys(d);
    SameKeys(r, d);
    KeysOfRules(level, rules, all, d);
    r
  }

  /** Sequences with one multiset hold the same keys. */
  lemma SameKeys(r: seq<GroupKey>, d: seq<GroupKey>)
    requires multiset(r) == multiset(d)
    ensures forall k :: k in r <==> k in d
  {
    forall k ensures k in r <==> k in d {
      assert k in r <==> k in multiset(r);
      assert k in d <==> k in multiset(d);
    }
  }

  /** The distinct keys of the rules are the keys some rule falls in. */
  lemma KeysOfRules(level: Level, rules: seq<Rule>, all: seq<GroupKey>, d: seq<GroupKey>)
    requires |all| == |rules| && forall i :: 0 <= i < |rules| ==> all[i] == KeyOf(level, rules[i])
    requires forall i :: 0 <= i < |d| ==> d[i] in all
    requires forall i :: 0 <= i < |all| ==> all[i] in d
    ensures forall k :: k in d <==> KeyUsed(level, rules, k)
  {
    forall k ensures k in d <==> KeyUsed(level, rules, k) {
      if k in d {
        var j :| 0 <= j < |d| && d[j] == k;
        var i :| 0 <= i < |all| && all[i] == k;
        assert KeyOf(level, rules[i]) == k;
      }
      if KeyUsed(level, rules, k) {
        var i :| 0 <= i < |rules| && KeyOf(level, rules[i]) == k;
        assert all[i] == k;
      }
    }
  }

  /** A strictly sorted key list repeats no key. */
  lemma StrictlySortedNoDup(ks: seq<GroupKey>)
    requires StrictlySorted(ks)
    ensures NoDup(ks)
  {
    forall i, j | 0 <= i < j < |ks| ensures ks[i] != ks[j] {
      StrLtIrreflexive(ks[i].ug);
      StrLtIrreflexive(ks[i].ge);
    }
  }

  /** The rules of the groups `keys`, one group after the other. */
  function Flatten(keys: seq<GroupKey>, g: map<GroupKey, seq<Rule>>): seq<Rule>
    requires forall i :: 0 <= i < |keys| ==> keys[i] in g
  {
    if |keys| == 0 then [] else g[keys[0]] + Flatten(keys[1..], g)
  }

  /** The groups of distinct keys hold, between them, each rule whose key is listed as often as the input does. */
  lemma {:induction false} FlattenMultiplicity(level: Level, rules: seq<Rule>, keys: seq<GroupKey>, x: Rule)
    requires NoDup(keys)
    requires forall i :: 0 <= i < |keys| ==> keys[i] in GroupRules(level, rules)
    ensures multiset(Flatten(keys, GroupRules(level, rules)))[x] == (if KeyOf(level, x) in keys then multiset(rules)[x] else 0)
  {
    var g := GroupRules(level, rules);
    if |keys| > 0 {
      GroupRulesPartition(level, rules);
      FlattenMultiplicity(level, rules, keys[1..], x);
      FilterMultiplicity(rules, InGroup(level, keys[0]), x);
      assert keys[0] !in keys[1..];
      assert KeyOf(level, x) in keys <==> KeyOf(level, x) == keys[0] || KeyOf(level, x) in keys[1..];
    }
  }

  /** Every group the visiting order names exists. */
  lemma OrderedKeysExist(level: Level, rules: seq<Rule>)
    ensures forall i :: 0 <= i < |OrderedKeys(level, rules)| ==> OrderedKeys(level, rules)[i] in GroupRules(level, rules)
  {
    var keys := OrderedKeys(level, rules);
    var g := GroupRules(level, rules);
    GroupRulesKeys(level, rules);
    forall i | 0 <= i < |keys| ensures keys[i] in g {
      var k := keys[i];
      assert k in keys;
      var j :| 0 <= j < |rules| && KeyOf(level, rules[j]) == k;
    }
  }

  lemma FlattenCountsRule(level: Level, rules: seq<Rule>, x: Rule)
    requires forall i :: 0 <= i < |OrderedKeys(level, rules)| ==> OrderedKeys(level, rules)[i] in GroupRules(level, rules)
    ensures multiset(Flatten(OrderedKeys(level, rules), GroupRules(level, rules)))[x] == multiset(rules)[x]
  {
    var keys := OrderedKeys(level, rules);
    StrictlySortedNoDup(keys);
    FlattenMultiplicity(level, rules, keys, x);
    if x in rules {
      var i :| 0 <= i < |rules| && rules[i] == x;
      assert KeyOf(level, rules[i]) in keys;
    }
  }

  /**
   * Walking the groups in order meets every rule exactly once: the
   * durum-level rows are a rearrangement of the table's rules.
   */
  lemma FlattenIsPermutation(level: Level, rules: seq<Rule>)
    ensures forall i :: 0 <= i < |OrderedKeys(level, rules)| ==> OrderedKeys(level, rules)[i] in GroupRules(level, rules)
    ensures multiset(Flatten(OrderedKeys(level, rules), GroupRules(level, rules))) == multiset(rules)
  {
    OrderedKeysExist(level, rules);
    forall x ensures multiset(Flatten(OrderedKeys(level, rules), GroupRules(level, rules)))[x] == multiset(rules)[x] {
      FlattenCountsRule(level, rules, x);
    }
  }

  // ---------------------------------------------------------------------
  // Export rows (exportToExcel)
  // ---------------------------------------------------------------------

  /** A spreadsheet cell: a count, or text. */
  datatype CellOut = Count(n: nat) | Text(s: string)

  /** One exported row: the criterion label (`title`) and one cell per column. */
  datatype ExportRow = ExportRow(title: string, cells: seq<CellOut>)

  /** `rule.durum || rule.grupEtiketi || ''`. */
  function DurumText(r: Rule): string {
    if r.durum != "" then r.durum else r.grupEtiketi
  }

  /** The parts of a cell that the show options ask for, empty ones left out. */
  function ValueParts(m: ModalState, c: Cell): (parts: seq<string>)
    ensures forall i :: 0 <= i < |parts| ==> parts[i] != ""
    ensures |parts| <= 3
  {
    (if m.showDeger && c.val != "" then [c.val] else [])
    + (if m.showTur && c.vtype != "" then [c.vtype] else [])
    + (if m.showIslem && c.proc != "" then [c.proc] else [])
  }

  /** The top-level cell: the number of the group's rules that fill the column, blank for none. */
  function CountCell(group: seq<Rule>, sId: string): (c: CellOut)
    ensures c.Count? <==> ServiceFill(group, sId) > 0
    ensures c.Count? ==> c.n == ServiceFill(group, sId)
    ensures c.Text? ==> c.s == ""
  {
    var n := ServiceFill(group, sId);
    if n > 0 then Count(n) else Text("")
  }

  /** The entries of a group-label cell: one per filled rule, durum first. */
  function CombinedEntries(m: ModalState, group: seq<Rule>, sId: string): (r: seq<string>)
    ensures |r| == ServiceFill(group, sId)
  {
    var filled := Filter(group, FilledFor(sId));
    seq(|filled|, i requires 0 <= i < |filled| =>
      var durum := DurumText(filled[i]);
      Join((if durum != "" then [durum + ":"] else []) + ValueParts(m, filled[i].values[sId]), " "))
  }

  /** The durum-level cell: the parts of a filled cell joined by spaces, blank otherwise. */
  function DurumCell(m: ModalState, r: Rule, sId: string): (c: CellOut)
    ensures c.Text?
    ensures !HasFilled(r, sId) ==> c.s == ""
  {
    if HasFilled(r, sId) then Text(Join(ValueParts(m, r.values[sId]), " ")) else Text("")
  }

  /** With values and types shown, a durum cell is blank exactly when the rule leaves the column unfilled. */
  lemma DurumCellBlankIffUnfilled(m: ModalState, r: Rule, sId: string)
    requires m.showDeger && m.showTur
    ensures DurumCell(m, r, sId).s == "" <==> !HasFilled(r, sId)
  {
    if HasFilled(r, sId) {
      var parts := ValueParts(m, r.values[sId]);
      assert |parts| > 0;
      if |parts| > 1 {
        assert Join(parts, " ") == parts[0] + " " + Join(parts[1..], " ");
      }
    }
  }

  /** The row of one group at the top or group-label level. */
  function GroupRow(m: ModalState, k: GroupKey, group: seq<Rule>, ids: seq<string>): (row: ExportRow)
    ensures |row.cells| == |ids|
  {
    if m.detailLevel == UstGrupLevel then
      ExportRow(k.ug, seq(|ids|, j requires 0 <= j < |ids| => CountCell(group, ids[j])))
    else
      ExportRow(k.ug + LabelSeparator + k.ge, seq(|ids|, j requires 0 <= j < |ids| => Text(Join(CombinedEntries(m, group, ids[j]), "; "))))
  }

  function GroupRows(m: ModalState, keys: seq<GroupKey>, g: map<GroupKey, seq<Rule>>, ids: seq<string>): (rows: seq<ExportRow>)
    requires forall i :: 0 <= i < |keys| ==> keys[i] in g
    ensures |rows| == |keys|
    ensures forall i :: 0 <= i < |rows| ==> rows[i] == GroupRow(m, keys[i], g[keys[i]], ids)
  {
    if |keys| == 0 then [] else [GroupRow(m, keys[0], g[keys[0]], ids)] + GroupRows(m, keys[1..], g, ids)
  }

  /** The row of one rule at the durum level. */
  function DurumRow(m: ModalState, r: Rule, ids: seq<string>): (row: ExportRow)
    ensures |row.cells| == |ids|
  {
    ExportRow(UgOf(r) + LabelSeparator + GeOf(r) + LabelSeparator + DurumText(r),
              seq(|ids|, j requires 0 <= j < |ids| => DurumCell(m, r, ids[j])))
  }

  /**
   * The rows `exportToExcel` builds from the table's rules and the modal's
   * columns (hidden columns included): one per group at the top and
   * group-label levels, one per rule at the durum level, groups in sorted
   * order.
   */
  function ExportRows(m: ModalState, rules: seq<Rule>, ids: seq<string>): (rows: seq<ExportRow>)
    ensures forall i :: 0 <= i < |rows| ==> |rows[i].cells| == |ids|
  {
    var level := m.detailLevel;
    var g := GroupRules(level, rules);
    var keys := OrderedKeys(level, rules);
    FlattenIsPermutation(level, rules);
    if level == DurumLevel then
      var flat := Flatten(keys, g);
      seq(|flat|, i requires 0 <= i < |flat| => DurumRow(m, flat[i], ids))
    else
      GroupRows(m, keys, g, ids)
  }

  /**
   * The number of exported rows: the number of distinct groups at the top
   * and group-label levels, the number of rules at the durum level. So the
   * export is empty (and only alerts) exactly when no rule survives.
   */
  lemma ExportRowCount(m: ModalState, rules: seq<Rule>, ids: seq<string>)
    ensures m.detailLevel != DurumLevel ==> |ExportRows(m, rules, ids)| == |OrderedKeys(m.detailLevel, rules)|
    ensures m.detailLevel == DurumLevel ==> |ExportRows(m, rules, ids)| == |rules|
    ensures |ExportRows(m, rules, ids)| == 0 <==> |rules| == 0
  {
    var level := m.detailLevel;
    FlattenIsPermutation(level, rules);
    var keys := OrderedKeys(level, rules);
    var flat := Flatten(keys, GroupRules(level, rules));
    assert |multiset(flat)| == |multiset(rules)|;
    if |rules| > 0 {
      assert KeyOf(level, rules[0]) in keys;
    }
  }

  /** The total of the fill counts over the groups `keys`, for column `sId`. */
  function CountSum(keys: seq<GroupKey>, g: map<GroupKey, seq<Rule>>, sId: string): nat
    requires forall i :: 0 <= i < |keys| ==> keys[i] in g
  {
    if |keys| == 0 then 0 else ServiceFill(g[keys[0]], sId) + CountSum(keys[1..], g, sId)
  }

  lemma {:induction false} CountSumFlatten(keys: seq<GroupKey>, g: map<GroupKey, seq<Rule>>, sId: string)
    requires forall i :: 0 <= i < |keys| ==> keys[i] in g
    ensures CountSum(keys, g, sId) == ServiceFill(Flatten(keys, g), sId)
  {
    if |keys| > 0 {
      CountSumFlatten(keys[1..], g, sId);
      FilterAppend(g[keys[0]], Flatten(keys[1..], g), FilledFor(sId));
    }
  }

  /**
   * At the top level the per-group counts of a column add up to the number
   * of the table's rules that fill it: grouping loses and doubles nothing.
   */
  lemma UstGrupCountsAddUp(rules: seq<Rule>, sId: string)
    ensures forall i :: 0 <= i < |OrderedKeys(UstGrupLevel, rules)| ==> OrderedKeys(UstGrupLevel, rules)[i] in GroupRules(UstGrupLevel, rules)
    ensures CountSum(OrderedKeys(UstGrupLevel, rules), GroupRules(UstGrupLevel, rules), sId) == ServiceFill(rules, sId)
  {
    FlattenIsPermutation(UstGrupLevel, rules);
    var keys := OrderedKeys(UstGrupLevel, rules);
    var g := GroupRules(UstGrupLevel, rules);
    CountSumFlatten(keys, g, sId);
    FilterPermutation(Flatten(keys, g), rules, FilledFor(sId));
  }

  /** The export of the open modal: the table's rules and all of the modal's columns, hidden ones included. */
  function Export(m: ModalState, services: map<string, Service>, order: seq<string>, methodFilter: Option<string>, f: HeaderFilters, nodeId: string, matrix: map<string, seq<Rule>>): (rows: seq<ExportRow>)
    ensures |rows| == 0 <==> |TableRules(m, RulesOf(matrix, nodeId))| == 0
  {
    var rules := TableRules(m, RulesOf(matrix, nodeId));
    var ids := ModalTargets(m, services, order, methodFilter, f, nodeId, matrix);
    ExportRowCount(m, rules, ids);
    ExportRows(m, rules, ids)
  }
}

=== FILE: nodes.dfy ===
/**
 * Node operations of js/nodes.js: adding, renaming and deleting nodes (each
 * guarded by an undo snapshot), the per-node service list that feeds a
 * card's tags, and the tag-list truncation and expansion rules.
 *
 * The prompt and confirm dialogs are inputs (`answer`, `confirmed`); so are
 * the clock reading and random draw behind `generateId('node')`, the
 * viewport's scroll offsets and client size, and the Turkish collation
 * order of service names (`rank`).
 */
module Nodes {
  import opened Basics
  import opened Store
  import History
  import Filters
  import Geometry

  /** `VISIBLE_SERVICES_COUNT`: tags shown on a collapsed card. */
  const VisibleServicesCount: nat := 6
  /** Tag labels longer than this are shortened. */
  const MaxLabelLength: nat := 15
  /** The width of a newly added card. */
  const DefaultWidth: real := 260.0

  /** The diagram and the undo history, which every node operation updates together. */
  datatype Edit = Edit(doc: Doc, history: History.History)

  /** Every node is stored under its own id. */
  predicate KeyedById(doc: Doc) {
    forall id :: id in doc.nodes ==> doc.nodes[id].id == id
  }

  /** Every connection joins two nodes of the diagram. */
  predicate NoDangling(doc: Doc) {
    forall i :: 0 <= i < |doc.connections| ==> doc.connections[i].from in doc.nodes && doc.connections[i].to in doc.nodes
  }

  // ---------------------------------------------------------------------
  // Add, rename, delete
  // ---------------------------------------------------------------------

  datatype Added = Added(edit: Edit, id: string)

  /**
   * `addNode(type, name)`: snapshots, generates `node_<now>_<n>`, and places
   * a 260-wide card centred in the visible area (the card's assumed height
   * is 100). A generated id that happens to be taken replaces that node.
   */
  function AddNode(e: Edit, ntype: NodeType, name: string, now: nat, random: real,
                   scrollLeft: real, scrollTop: real, clientWidth: real, clientHeight: real): (r: Added)
    requires 0.0 <= random < 1.0
    ensures r.id == Geometry.GenerateId(Some("node"), now, random)
    ensures r.edit.history == History.SaveState(e.history, e.doc, "Add node", now)
    ensures r.id in r.edit.doc.nodes
    ensures var n := r.edit.doc.nodes[r.id];
      && n.id == r.id && n.ntype == ntype && n.name == name && n.width == DefaultWidth
      && n.x + n.width / 2.0 == scrollLeft + clientWidth / 2.0
      && n.y + 50.0 == scrollTop + clientHeight / 2.0
    ensures r.edit.doc.nodes.Keys == e.doc.nodes.Keys + {r.id}
    ensures forall id :: id in e.doc.nodes && id != r.id ==> r.edit.doc.nodes[id] == e.doc.nodes[id]
    ensures r.edit.doc.connections == e.doc.connections
  {
    var h := History.SaveState(e.history, e.doc, "Add node", now);
    var id := Geometry.GenerateId(Some("node"), now, random);
    var x := scrollLeft + clientWidth / 2.0 - 130.0;
    var y := scrollTop + clientHeight / 2.0 - 50.0;
    var n := Node(id, ntype, name, x, y, DefaultWidth);
    Added(Edit(Doc(e.doc.nodes[id := n], e.doc.connections), h), id)
  }

  /** Adding keeps nodes keyed by their ids and leaves no dangling connection. */
  lemma AddNodeKeepsInvariants(e: Edit, ntype: NodeType, name: string, now: nat, random: real,
                               scrollLeft: real, scrollTop: real, clientWidth: real, clientHeight: real)
    requires 0.0 <= random < 1.0
    requires KeyedById(e.doc) && NoDangling(e.doc)
    ensures var r := AddNode(e, ntype, name, now, random, scrollLeft, scrollTop, clientWidth, clientHeight);
      KeyedById(r.edit.doc) && NoDangling(r.edit.doc)
  {
  }

  /**
   * `renameNode(id)` with the prompt's result as `answer` (`None` when
   * cancelled): nothing happens for an unknown node or a blank answer;
   * otherwise it snapshots and stores the trimmed answer as the name.
   */
  function RenameNode(e: Edit, nodeId: string, answer: Option<string>, now: int): (r: Edit)
    ensures nodeId !in e.doc.nodes || answer.None? || AllSpace(answer.GetOr("")) ==> r == e
    ensures nodeId in e.doc.nodes && answer.Some? && !AllSpace(answer.value) ==>
              && r.history == History.SaveState(e.history, e.doc, "Rename node", now)
              && r.doc.nodes == e.doc.nodes[nodeId := e.doc.nodes[nodeId].(name := Trim(answer.value))]
              && r.doc.connections == e.doc.connections
              && r.doc.nodes[nodeId].name != "" && IsTrimmed(r.doc.nodes[nodeId].name)
  {
    if nodeId !in e.doc.nodes || answer.None? || answer.value == "" || Trim(answer.value) == "" then
      assert answer.Some? && Trim(answer.value) == "" ==> AllSpace(answer.value) by {
        if answer.Some? { TrimEmptyIffAllSpace(answer.value); }
      }
      e
    else
      TrimEmptyIffAllSpace(answer.value);
      TrimIdempotent(answer.value);
      var n := e.doc.nodes[nodeId].(name := Trim(answer.value));
      Edit(Doc(e.doc.nodes[nodeId := n], e.doc.connections), History.SaveState(e.history, e.doc, "Rename node", now))
  }

  /** Renaming with an answer that is already trimmed and non-blank stores it verbatim; padding is dropped. */
  lemma RenameStoresTrimmed(e: Edit, nodeId: string, answer: string, now: int)
    requires nodeId in e.doc.nodes && !AllSpace(answer)
    ensures RenameNode(e, nodeId, Some(answer), now).doc.nodes[nodeId].name == Trim(answer)
    ensures IsTrimmed(answer) ==> RenameNode(e, nodeId, Some(answer), now).doc.nodes[nodeId].name == answer
  {
    var r := RenameNode(e, nodeId, Some(answer), now);
    assert r.doc.nodes[nodeId] == e.doc.nodes[nodeId].(name := Trim(answer));
    if IsTrimmed(answer) {
      TrimOfTrimmed(answer);
    }
  }
  /** An answer made only of Unicode spaces and line separators is blank, so nothing is renamed. */
  lemma RenameIgnoresUnicodeBlank(e: Edit, nodeId: string, now: int)
    ensures RenameNode(e, nodeId, Some("\U{3000}\U{2028}\U{00A0}\U{2003}"), now) == e
  {
    var a := "\U{3000}\U{2028}\U{00A0}\U{2003}";
    assert IsSpace(a[0]) && IsSpace(a[1]) && IsSpace(a[2]) && IsSpace(a[3]);
    assert AllSpace(a);
  }


  /** Whether a connection touches the node. */
  predicate Touches(c: Connection, nodeId: string) {
    c.from == nodeId || c.to == nodeId
  }

  /** The connections that survive the deletion of `nodeId`, in order. */
  function Detach(conns: seq<Connection>, nodeId: string): (r: seq<Connection>)
    ensures forall i :: 0 <= i < |r| ==> !Touches(r[i], nodeId) && r[i] in conns
    ensures forall c :: c in conns && !Touches(c, nodeId) ==> c in r
    ensures Subsequence(r, conns)
  {
    Filter(conns, (c: Connection) => !Touches(c, nodeId))
  }

  /**
   * `deleteNode(id)` with the confirm dialog's answer: cancelled, nothing
   * happens; confirmed, it snapshots, removes the node (known or not) and
   * every connection from or to it. The selection is left as it was.
   */
  function DeleteNode(e: Edit, nodeId: string, confirmed: bool, now: int): (r: Edit)
    ensures !confirmed ==> r == e
    ensures confirmed ==>
              && r.history == History.SaveState(e.history, e.doc, "Delete node", now)
              && r.doc.nodes == e.doc.nodes - {nodeId}
              && r.doc.connections == Detach(e.doc.connections, nodeId)
  {
    if !confirmed then e
    else Edit(Doc(e.doc.nodes - {nodeId}, Detach(e.doc.connections, nodeId)),
              History.SaveState(e.history, e.doc, "Delete node", now))
  }

  /** Deleting keeps the diagram free of dangling connections and leaves no connection at the removed node. */
  lemma DeleteNodeKeepsInvariants(e: Edit, nodeId: string, now: int)
    requires KeyedById(e.doc) && NoDangling(e.doc)
    ensures var r := DeleteNode(e, nodeId, true, now).doc;
      && KeyedById(r) && NoDangling(r)
      && nodeId !in r.nodes
      && forall i :: 0 <= i < |r.connections| ==> !Touches(r.connections[i], nodeId)
  {
    var r := DeleteNode(e, nodeId, true, now).doc;
    forall i | 0 <= i < |r.connections|
      ensures r.connections[i].from in r.nodes && r.connections[i].to in r.nodes
    {
      var c := r.connections[i];
      assert c in e.doc.connections && !Touches(c, nodeId);
      var j :| 0 <= j < |e.doc.connections| && e.doc.connections[j] == c;
    }
  }

  /** Deleting a node nothing connects to keeps every connection, in order. */
  lemma {:induction false} DeleteIsolatedKeepsConnections(e: Edit, nodeId: string, now: int)
    requires forall i :: 0 <= i < |e.doc.connections| ==> !Touches(e.doc.connections[i], nodeId)
    ensures DeleteNode(e, nodeId, true, now).doc.connections == e.doc.connections
  {
    FilterAll(e.doc.connections, (c: Connection) => !Touches(c, nodeId));
  }

  /** Adding a node under a fresh id and then deleting it gives back the diagram. */
  lemma AddThenDelete(e: Edit, ntype: NodeType, name: string, now: nat, random: real,
                      scrollLeft: real, scrollTop: real, clientWidth: real, clientHeight: real, later: int)
    requires 0.0 <= random < 1.0
    requires NoDangling(e.doc)
    requires Geometry.GenerateId(Some("node"), now, random) !in e.doc.nodes
    ensures var a := AddNode(e, ntype, name, now, random, scrollLeft, scrollTop, clientWidth, clientHeight);
      DeleteNode(a.edit, a.id, true, later).doc == e.doc
  {
    var a := AddNode(e, ntype, name, now, random, scrollLeft, scrollTop, clientWidth, clientHeight);
    var id := a.id;
    forall i | 0 <= i < |e.doc.connections|
      ensures !Touches(e.doc.connections[i], id)
    {
    }
    DeleteIsolatedKeepsConnections(a.edit, id, later);
    assert a.edit.doc.nodes - {id} == e.doc.nodes;
  }

  /** Each of the three operations can be undone: undo brings back the diagram as it was before the call. */
  lemma NodeEditsUndo(e: Edit, nodeId: string, answer: string, now: int, later: int)
    requires nodeId in e.doc.nodes && !AllSpace(answer)
    ensures var r := RenameNode(e, nodeId, Some(answer), now);
      History.Undo(r.history, r.doc, later).doc == e.doc
    ensures var r := DeleteNode(e, nodeId, true, now);
      History.Undo(r.history, r.doc, later).doc == e.doc
  {
    var r1 := RenameNode(e, nodeId, Some(answer), now);
    History.SaveMutateUndo(e.history, e.doc, r1.doc, "Rename node", now, later);
    var r2 := DeleteNode(e, nodeId, true, now);
    History.SaveMutateUndo(e.history, e.doc, r2.doc, "Delete node", now, later);
  }

  // ---------------------------------------------------------------------
  // Service tags
  // ---------------------------------------------------------------------

  /**
   * `getServicesForNode(id)`: the services whose path passes through the
   * node and which pass the method, directorate and service filters.
   */
  function ServicesForNode(services: map<string, Service>, methodFilter: Option<string>, f: HeaderFilters, nodeId: string): (r: set<string>)
    ensures forall sId :: sId in r <==>
              && sId in services
              && nodeId in services[sId].path
              && (Filters.MethodActive(methodFilter) ==> methodFilter.value in services[sId].path)
              && (|f.mudurlukler| == 0 || services[sId].mudurluk in f.mudurlukler)
              && (|f.hizmetler| == 0 || sId in f.hizmetler)
  {
    set sId | sId in services && nodeId in services[sId].path && Filters.Passes(methodFilter, f, sId, services[sId])
  }

  /**
   * The card's tag list agrees with the highlight pass: when a filter is
   * active its size is the node's badge count, and it is non-empty exactly
   * when the node is highlighted.
   */
  lemma ServicesForNodeMatchesBadge(services: map<string, Service>, methodFilter: Option<string>, f: HeaderFilters, nodeId: string)
    ensures ServicesForNode(services, methodFilter, f, nodeId)
         == Filters.ServicesThrough(services, Filters.ActiveServices(services, methodFilter, f), nodeId)
    ensures Filters.FiltersActive(methodFilter, f) ==>
              |ServicesForNode(services, methodFilter, f, nodeId)| == Filters.NodeHighlight(services, methodFilter, f, nodeId).badge
  {
    var mine := ServicesForNode(services, methodFilter, f, nodeId);
    var theirs := Filters.ServicesThrough(services, Filters.ActiveServices(services, methodFilter, f), nodeId);
    assert mine == theirs;
  }

  /** `toggleExpand(id)`: flips the node's membership in the expanded set. */
  function ToggleExpand(expanded: set<string>, nodeId: string): (r: set<string>)
    ensures nodeId in r <==> nodeId !in expanded
    ensures forall n :: n != nodeId ==> (n in r <==> n in expanded)
  {
    if nodeId in expanded then expanded - {nodeId} else expanded + {nodeId}
  }

  lemma ToggleExpandInvolution(expanded: set<string>, nodeId: string)
    ensures ToggleExpand(ToggleExpand(expanded, nodeId), nodeId) == expanded
  {
  }

  /** The UTF-16 code units of `...`. */
  const Ellipsis: seq<int> := [0x2E, 0x2E, 0x2E]

  /**
   * A tag label, measured and cut in UTF-16 code units as `name.length`
   * and `substring(0, 14)` do: a name longer than 15 units keeps its first
   * 14 units and gains `...`. The cut may split a surrogate pair, so labels
   * are code-unit sequences rather than strings.
   */
  function ShortName(name: string): (r: seq<int>)
    ensures |CodeUnits(name)| <= MaxLabelLength ==> r == CodeUnits(name)
    ensures |CodeUnits(name)| > MaxLabelLength ==> |r| == 17 && r[..14] == CodeUnits(name)[..14] && r[14..] == Ellipsis
  {
    ShortUnits(CodeUnits(name))
  }

  /** The shortening rule on code units. */
  function ShortUnits(u: seq<int>): (r: seq<int>)
    ensures |u| <= MaxLabelLength ==> r == u
    ensures |u| > MaxLabelLength ==> |r| == 17 && r[..14] == u[..14] && r[14..] == Ellipsis
    ensures |r| <= 17
  {
    if |u| > MaxLabelLength then u[..14] + Ellipsis else u
  }

  /** Shortening a label twice changes nothing more. */
  lemma ShortUnitsIdempotent(u: seq<int>)
    ensures ShortUnits(ShortUnits(u)) == ShortUnits(u)
  {
    if |u| > MaxLabelLength {
      var s := ShortUnits(u);
      assert s[..14] == u[..14];
      assert ShortUnits(s) == s[..14] + Ellipsis;
      assert s == s[..14] + s[14..];
    }
  }

  /**
   * Eight copies of a character outside the Basic Multilingual Plane (such
   * as U+1F600) are sixteen code units, so the label keeps seven of them and
   * gains `...`, although the name has only eight characters.
   */
  lemma {:induction false} AstralNameShortened(e: string)
    requires |e| == 1 && e[0] as int >= 0x1_0000
    ensures |e + e + e + e + e + e + e + e| == 8
    ensures ShortName(e + e + e + e + e + e + e + e) == CodeUnits(e + e + e + e + e + e + e) + Ellipsis
  {
    AstralUnits(e);
    SevenCopies(e);
    ShortNameOfLonger(e + e + e + e + e + e + e, e);
  }

  /** A character outside the Basic Multilingual Plane is two code units. */
  lemma AstralUnits(e: string)
    requires |e| == 1 && e[0] as int >= 0x1_0000
    ensures |CodeUnits(e)| == 2
  {
    assert e[..0] == [];
  }

  /** Seven copies of a two-unit string are fourteen code units. */
  lemma SevenCopies(e: string)
    requires |CodeUnits(e)| == 2
    ensures |CodeUnits(e + e + e + e + e + e + e)| == 14
  {
    var s2 := e + e;
    CodeUnitsAppend(e, e);
    var s3 := s2 + e;
    CodeUnitsAppend(s2, e);
    var s4 := s3 + e;
    CodeUnitsAppend(s3, e);
    var s5 := s4 + e;
    CodeUnitsAppend(s4, e);
    var s6 := s5 + e;
    CodeUnitsAppend(s5, e);
    CodeUnitsAppend(s6, e);
  }

  /** A name of fourteen code units followed by two more keeps the fourteen and gains `...`. */
  lemma ShortNameOfLonger(s: string, e: string)
    requires |CodeUnits(s)| == 14 && |CodeUnits(e)| == 2
    ensures ShortName(s + e) == CodeUnits(s) + Ellipsis
  {
    CodeUnitsAppend(s, e);
    var r := ShortName(s + e);
    assert r[..14] == CodeUnits(s);
    assert r == r[..14] + r[14..];
  }

  /** The expand/collapse control under the tags. */
  datatype Toggle = NoToggle | Collapse | More(remaining: nat)

  /** What `populateServiceTags` shows: total badge, visible tags (id and label), and the toggle. */
  datatype TagView = TagView(total: nat, visible: seq<string>, labels: seq<seq<int>>, toggle: Toggle)

  /** The listed services of a card, ordered by collation rank of their names. */
  function SortedServices(services: map<string, Service>, order: seq<string>, listed: set<string>, rank: string -> int): (r: seq<string>)
    ensures forall i :: 0 <= i < |r| ==> r[i] in listed && r[i] in services
    ensures multiset(r) == multiset(Filter(order, (sId: string) => sId in listed && sId in services))
    ensures forall i, j :: 0 <= i < j < |r| ==> rank(services[r[i]].name) <= rank(services[r[j]].name)
  {
    var ids := Filter(order, (sId: string) => sId in listed && sId in services);
    var key := (sId: string) => if sId in services then rank(services[sId].name) else 0;
    var sorted := SortByKey(ids, key);
    SameMembers(ids, sorted, services, listed);
    RankOrdered(sorted, services, rank, key);
    sorted
  }

  /** A permutation of known, listed ids holds only known, listed ids. */
  lemma SameMembers(ids: seq<string>, sorted: seq<string>, services: map<string, Service>, listed: set<string>)
    requires multiset(sorted) == multiset(ids)
    requires forall i :: 0 <= i < |ids| ==> ids[i] in listed && ids[i] in services
    ensures forall i :: 0 <= i < |sorted| ==> sorted[i] in listed && sorted[i] in services
  {
    forall i | 0 <= i < |sorted| ensures sorted[i] in listed && sorted[i] in services {
      assert sorted[i] in multiset(ids);
    }
  }

  /** Sorting by `key` orders service ids by the rank of their names, since the two agree on every known id. */
  lemma RankOrdered(sorted: seq<string>, services: map<string, Service>, rank: string -> int, key: string -> int)
    requires SortedBy(sorted, key)
    requires forall i :: 0 <= i < |sorted| ==> sorted[i] in services
    requires forall sId :: sId in services ==> key(sId) == rank(services[sId].name)
    ensures forall i, j :: 0 <= i < j < |sorted| ==> rank(services[sorted[i]].name) <= rank(services[sorted[j]].name)
  {
    forall i, j | 0 <= i < j < |sorted|
      ensures rank(services[sorted[i]].name) <= rank(services[sorted[j]].name)
    {
      assert key(sorted[i]) <= key(sorted[j]);
    }
  }

  /**
   * `populateServiceTags(id)` over an already sorted list: nothing for no
   * services; otherwise all tags when expanded and the first six when not,
   * with a toggle only when there are more than six.
   */
  function TagList(sorted: seq<string>, services: map<string, Service>, expanded: bool): (r: TagView)
    requires forall i :: 0 <= i < |sorted| ==> sorted[i] in services
    ensures r.total == |sorted|
    ensures |sorted| == 0 ==> r == TagView(0, [], [], NoToggle)
    ensures expanded ==> r.visible == sorted
    ensures !expanded ==> r.visible == sorted[..if |sorted| < VisibleServicesCount then |sorted| else VisibleServicesCount]
    ensures |r.labels| == |r.visible|
    ensures forall i :: 0 <= i < |r.visible| ==> r.labels[i] == ShortName(services[r.visible[i]].name)
    ensures r.toggle != NoToggle <==> r.total > VisibleServicesCount
    ensures r.toggle.More? ==> !expanded && r.toggle.remaining == r.total - VisibleServicesCount
    ensures r.toggle == Collapse ==> expanded
  {
    if |sorted| == 0 then TagView(0, [], [], NoToggle)
    else
      var visible := if expanded || |sorted| <= VisibleServicesCount then sorted else sorted[..VisibleServicesCount];
      var labels := seq(|visible|, i requires 0 <= i < |visible| => ShortName(services[visible[i]].name));
      var toggle :=
        if |sorted| <= VisibleServicesCount then NoToggle
        else if expanded then Collapse
        else More(|sorted| - VisibleServicesCount);
      TagView(|sorted|, visible, labels, toggle)
  }

  /** A collapsed card shows every tag once there are at most six, and the hidden count plus the shown count is the total. */
  lemma TagListAccounting(sorted: seq<string>, services: map<string, Service>)
    requires forall i :: 0 <= i < |sorted| ==> sorted[i] in services
    ensures var r := TagList(sorted, services, false);
      && (|sorted| <= VisibleServicesCount ==> r.visible == sorted)
      && (r.toggle.More? ==> |r.visible| + r.toggle.remaining == r.total)
  {
  }

  /** Toggling expansion twice shows the same tags again. */
  lemma ExpandTwiceSameTags(sorted: seq<string>, services: map<string, Service>, expanded: set<string>, nodeId: string)
    requires forall i :: 0 <= i < |sorted| ==> sorted[i] in services
    ensures TagList(sorted, services, nodeId in ToggleExpand(ToggleExpand(expanded, nodeId), nodeId))
         == TagList(sorted, services, nodeId in expanded)
  {
    ToggleExpandInvolution(expanded, nodeId);
  }
}

=== FILE: store.dfy ===
/**
 * The shape of the editor's global state (the `AppState` record of
 * js/state.js): diagram nodes and connections, the imported service
 * catalogue and criterion matrix, and the UI and header-filter state.
 * Coordinates and scale are reals; identifiers are strings.
 */
module Store {
  import opened Basics

  /** A point in chart space (or, for pointer events, in client pixels). */
  datatype Point = Point(x: real, y: real)

  /** A width/height pair, as measured by `offsetWidth`/`offsetHeight`. */
  datatype Size = Size(w: real, h: real)

  /** An axis-aligned rectangle with its top-left corner at (x, y). */
  datatype Rect = Rect(x: real, y: real, w: real, h: real)

  /**
   * A node's `type` string. Spreadsheet imports may carry any tag, which the
   * editor treats like a process node everywhere except for its label.
   */
  datatype NodeType = Process | Hub | Method | OtherType(tag: string)

  /** Reads a `type` string the way the rest of the code compares it. */
  function TypeOfTag(tag: string): NodeType {
    if tag == "process" then Process
    else if tag == "hub" then Hub
    else if tag == "method" then Method
    else OtherType(tag)
  }

  datatype Node = Node(id: string, ntype: NodeType, name: string, x: real, y: real, width: real)

  /** A connection anchor side (`data-pos` of a connection point). */
  datatype Side = Top | Bottom | Left | Right

  /**
   * A directed connection. The seed connections of the original layout carry
   * no anchor sides, hence the options.
   */
  datatype Connection = Connection(id: string, from: string, to: string, fromPos: Option<Side>, toPos: Option<Side>)

  /** The persistent diagram: node map plus ordered connection list. */
  datatype Doc = Doc(nodes: map<string, Node>, connections: seq<Connection>)

  /** Whether some connection already joins `from` to `to` (in that direction). */
  predicate HasEdge(conns: seq<Connection>, from: string, to: string) {
    exists i :: 0 <= i < |conns| && conns[i].from == from && conns[i].to == to
  }

  /** `AppState.ui`: the parts the modelled code reads or writes. */
  datatype Ui = Ui(
    methodFilter: Option<string>,
    selected: set<string>,
    modalNode: Option<string>,
    connectionMode: bool)

  /** `AppState.filters`: header-level directorate and service selections, and hidden modal columns. */
  datatype HeaderFilters = HeaderFilters(mudurlukler: set<string>, hizmetler: set<string>, hiddenColumns: set<string>)

  /** A service (`hizmet`): its name, its directorate (`müdürlük`) and the node ids of its path. */
  datatype Service = Service(name: string, mudurluk: string, path: seq<string>)

  /** One matrix cell: value, value type and process type. */
  datatype Cell = Cell(val: string, vtype: string, proc: string)

  /** A cell counts as filled when its value or its type is non-empty. */
  predicate Filled(c: Cell) {
    c.val != "" || c.vtype != ""
  }

  /** One criterion row of a node's matrix, with a cell per service id. */
  datatype Rule = Rule(id: string, ustGrup: string, grupEtiketi: string, durum: string, values: map<string, Cell>)

  /** Whether a rule holds a filled cell for service `sId`. */
  predicate HasFilled(r: Rule, sId: string) {
    sId in r.values && Filled(r.values[sId])
  }

  /** The number of filled cells of a rule (the table's sort key). */
  function FillCount(r: Rule): nat {
    |set sId | sId in r.values && Filled(r.values[sId])|
  }
}
